=== FILE: README.md ===
# Eco-score: a Dafny model of the scoring, validation and page logic

This project models, in Dafny, the decision-making parts of a small eco-score site
generator and its browser pages:

- **Site scoring** (`scoring.dfy`, `site_build.dfy`, `scoring_tests.dfy`). This is the
  Python scorer of the site builder and its parameterised copy in the unit tests:
  - `clamp01` and `normalize`;
  - the weighted impact;
  - the score out of 100 rounded to one decimal;
  - the first-matching grade band;
  - the record list the builder emits.
- **Browser scoring** (`js_number.dfy`, `season.dfy`, `compute.dfy`). This is the
  JavaScript `computeScore`:
  - inverted min–max normalisation to whole numbers 0–100;
  - the biodiversity proxy;
  - transport emissions;
  - the seasonal divisor from `seasonFactor`;
  - the per-category bounds;
  - the supplier bonus;
  - the weighted breakdown;
  - the clamped final score and its letter.

  JavaScript numbers are modelled as finite reals, `NaN` or ±infinity, because several
  branches of the code depend on exactly those cases.
- **Data validation** (`frame.dfy`, `validate_data.dfy`, `qa_checks.dfy`). This covers:
  - the loader's required columns, duplicate identifiers and value ranges, in that
    order;
  - the QA pipeline: a left join on `id`, the `kgco2e_unit` rename, and the
    missing-column, missing-value, maximum and range rules, the first failure winning.

  Tables are modelled as column labels plus rows of cells that are numbers, strings or
  missing (NaN).
- **Pure helpers of the pages**:
  - the quote-aware CSV reader (`csv.dfy`);
  - the partner upload check (`upload.dfy`);
  - last-write-wins dictionaries (`keyed.dfy`);
  - slider renormalisation and basket counting (`compare.dfy`);
  - the basket table, totals, average and hint (`basket.dfy`);
  - chunking and the A4 grid of the printable QR sheets (`qr_sheet.dfy`).

Configuration is passed as data throughout: weights, bounds, bands, norms, the QA rules
and the context object. The current month from the clock is also a parameter. Operations
that can raise return a `Result` or an `Outcome` whose error names what is raised.

Three points about the source:

- `src/score/compute.js:60-61` combine two tests with `or`, which is not a JavaScript
  operator, so the module as written does not load. The model uses `||`, the evident
  intent. `Compute.SupplierAdjustment` states the resulting bonus of 3, 2 and 2 points.
- The monotonicity test in `tests/test_scoring.py:27-35` asserts only that the first
  score exceeds the second. The code's arithmetic gives 91.3 ("A") and 53.3 ("C")
  (`ScoringTests.TestRowsScore`).
- `build_site.py:136` writes the manifest as a bare list of records. `qr_sheet.py:29`
  reads `manifest["records"]`, which a list does not have. The sheet model starts from
  the record list itself (`QrSheet.MakePages`).

## Model

| member | source | states |
|---|---|---|
| Scoring.Clamp01 | build_site.py:22 | The result lies in [0,1], equals the input on [0,1], and is 0 below and 1 above. |
| Scoring.Normalize | build_site.py:24-26 | 0 whenever vmax ≤ vmin; otherwise in [0,1], 0 at or below vmin, 1 at or above vmax; a NaN value gives 1 because `min(1.0, nan)` keeps 1.0. |
| Scoring.NormalizeMonotone | build_site.py:26 | For vmin < vmax the normalised value never decreases as the value grows. |
| Scoring.RoundTenthsMonotone | build_site.py:33 | Rounding to one decimal preserves order. |
| Scoring.Score | build_site.py:28-33 | The score is a whole number of tenths within 0.05 of 100 × (1 − weighted impact). With non-negative weights summing to at most 1 it lies in [0,100]. |
| Scoring.ImpactBounds | build_site.py:32 | With non-negative weights the impact lies between 0 and the weight sum. |
| Scoring.FirstBand | build_site.py:34 | Picks the first band whose cutoff is ≤ the score; every earlier band's cutoff is above it; none exactly when every cutoff is above it. |
| Scoring.ScoreRow | tests/test_scoring.py:12-19 | Succeeds exactly when some band accepts the score; the grade is that of the first accepting band; otherwise `StopIteration` is raised. |
| Scoring.SiteScore | build_site.py:28-35 | With the fixed weights, bounds and bands, the score lies in [0,100], never raises, and the grade is the A/B/C/D/E letter for cutoffs 80/60/40/20/0. |
| Scoring.SiteBandIsLetter | build_site.py:16 | Any score ≥ 0 finds a band, because the last cutoff is 0, and the band's grade is the letter. |
| Scoring.ScoreAntitone | tests/test_scoring.py:12-17 | For any non-negative weights and any bounds, a row that is no better in each metric never scores higher; a missing metric counts as worst. |
| Scoring.OwnBoundsOnly | tests/test_scoring.py:13-15 | For any one of the three metrics: two rows that agree on the other two, scored under bounds that agree on the other two, have weighted impacts at most \|w\| apart, where w is that metric's weight. So the metric counts only through its own bounds and weight, and a zero weight gives equal scores. |
| Scoring.SiteBest | build_site.py:28-34 | All three metrics at or below their lower bounds give (100.0, "A"). |
| Scoring.SiteWorst | build_site.py:28-34 | All three metrics at or above their upper bounds give (0.0, "E"). |
| ScoringTests.NormalizeExamples | tests/test_scoring.py:21-25 | normalize(5,0,10)=0.5, normalize(-5,0,10)=0, normalize(15,0,10)=1, normalize(1,1,1)=0. |
| ScoringTests.TestRowsScore | tests/test_scoring.py:27-35 | The test's two rows score 91.3 "A" and 53.3 "C", so the cleaner row scores higher. |
| ScoringTests.OverweightRaises | tests/test_scoring.py:16-18 | Weights summing to 3 on a worst-case row push the score below every cutoff, and the grade lookup raises instead of defaulting. |
| SiteBuild.BuildRecords | build_site.py:111-127 | One record per input row, in order, with the row's id, name and metrics unchanged, the slug of "id-name", and the row's site score and grade. |
| ValidateData.EnsureCols | src/validate_data.py:15-18 | Fails exactly when some required column is absent, listing exactly the absent ones in required order. |
| ValidateData.LoadAll | src/validate_data.py:27-46 | Succeeds exactly when all columns are present, all ids are unique and all values are in their domains, returning the four tables unchanged. Otherwise the first failure is raised. First come the columns, table by table (products, agribalyse, distances, biodiv), naming the table and its absent columns in required order. Then repeated ids (agribalyse, distances, biodiv, products), naming the table and the id at every occurrence after its first. Then the ranges. |
| ValidateData.CheckUnique | src/validate_data.py:33-36 | Fails exactly when an id repeats, with an error naming the table and listing the duplicated ids as `duplicated()` selects them. |
| ValidateData.CheckRanges | src/validate_data.py:39-44 | Passes exactly when no emission or distance is negative and every biodiversity risk lies in [0,1]. The checks run in order (emissions, distances, risks), and the first failing one is raised. Within a column, a string cell raises the comparison's type error before any value is judged. |
| ValidateData.DomainByComparisons | src/validate_data.py:39-44 | Each domain holds exactly when no cell is a string and no comparison of the check is true, so a missing value is never rejected. |
| ValidateData.RangeExamples | src/validate_data.py:39-44 | A risk of 1.5 or an emission of -1 is rejected; the endpoints 0 and 1 and missing values pass. |
| ValidateData.ValidTablesPass | tests/test_validate.py:5-16 | The test's four one-row tables load successfully. |
| Frame.Duplicates | src/validate_data.py:33-35 | The reported list is empty exactly when the ids are distinct, and holds each id once for every occurrence after its first. |
| Frame.MissingFrom | src/validate_data.py:16 | The absent columns, in required order. |
| QaChecks.Merge | src/qa_checks.py:25-27 | The join succeeds exactly when both tables have an `id` column. The columns are the left ones followed by the right's non-key ones. The output is laid out left row by left row, in order: row i's block starts at `Start(i)` and is `JoinRow` of that row, at least one row per left row. |
| QaChecks.JoinRow | src/qa_checks.py:25-27 | Each output row of a left row begins with that row's cells. Without a matching right row there is exactly one output row, with a missing cell in every right-hand column. Otherwise there is one output row per matching right row, in right-table order, ending with that row's non-key cells. |
| QaChecks.JoinRowsLayout | src/qa_checks.py:25-27 | The concatenated blocks place left row i's block exactly between `Start(i)` and `Start(i+1)`. |
| QaChecks.MergeOneRowPerLeftRow | src/qa_checks.py:25-27 | When the right-hand ids are unique, the join has exactly one output row per left row, in order, and row i is the single row of left row i's block, starting with its own cells. |
| QaChecks.FirstJoinedRow | src/qa_checks.py:25-27 | For any right table, the output row at `Start(i)` is the first row of left row i's block and begins with that left row's cells. |
| QaChecks.GetThroughMerge | src/qa_checks.py:25-27 | Any left column reads, in the output row at `Start(i)`, what it reads in left row i. |
| QaChecks.UnmatchedIsMissing | src/qa_checks.py:25-27 | For any right table, duplicate ids included: a left row no right row matches gets, in its output row at `Start(i)`, a missing value in every column the right table contributes. |
| QaChecks.Rename | src/qa_checks.py:30-31 | Each column label is mapped, position by position, with `kgco2e_unit` becoming `base_kgco2e` and every other label kept; the rows are untouched. |
| QaChecks.Prepare | src/qa_checks.py:25-31 | The three joins and the rename succeed exactly when all four tables have an `id` column, fail with the missing-id error otherwise, and yield at least as many rows as there are products. |
| QaChecks.StartIncreasing | src/qa_checks.py:25-27 | A later left row's block of output rows starts strictly after an earlier one's, since every block holds at least one row. |
| QaChecks.PreparedIndex | src/qa_checks.py:25-31 | Product row i's first output row, followed through the three joins, is a row of the prepared frame. |
| QaChecks.PreparedRowsDistinct | src/qa_checks.py:25-31 | Different product rows begin different rows of the prepared frame, in product order, so every product keeps a row of its own. |
| QaChecks.PreparedRowKeepsProduct | src/qa_checks.py:25-31 | That row reads, in every product column other than `kgco2e_unit` and `base_kgco2e`, what the product row reads. |
| QaChecks.GetRenameOther | src/qa_checks.py:30-31 | The rename leaves what a row reads in every other column unchanged. |
| QaChecks.GetAfterRename | src/qa_checks.py:30-31 | After the rename, `base_kgco2e` reads what `kgco2e_unit` held. |
| QaChecks.CheckMissingValues | src/qa_checks.py:41-43 | Passes exactly when the five key columns exist and none of their cells is missing; the diagnostic shows at most 3 rows. |
| QaChecks.CheckMax | src/qa_checks.py:46-49 | Passes exactly when every present configured column holds no value above its maximum; absent columns are skipped; at most 5 examples. |
| QaChecks.CheckRanges | src/qa_checks.py:52-56 | Passes exactly when every present configured column lies within its inclusive bounds; at most 5 examples. |
| QaChecks.Rules | src/qa_checks.py:34-56 | Passes exactly when every rule holds. The rules run in order (required columns, only when enabled; missing values; maxima; ranges), and the first failing rule's failure is the result. Diagnostics are bounded. |
| QaChecks.Run | src/qa_checks.py:25-58 | A table without `id` fails with the missing-id error. Otherwise the result is that of the rules on the joined, renamed table, so the run passes exactly when the joins succeed and every rule holds. |
| QaChecks.UnmatchedProductFails | src/qa_checks.py:25-43 | For any id multiplicities in the metric tables, a product with no LCA row makes the run fail. |
| QaChecks.UnmatchedDistanceFails | src/qa_checks.py:25-43 | For any id multiplicities, a product with no distance row makes the run fail, when `distance_km` comes only from the distance table. |
| QaChecks.UnmatchedBiodivFails | src/qa_checks.py:25-43 | For any id multiplicities, a product with no biodiversity row makes the run fail, when `biodiversity_risk` comes only from the biodiversity table. |
| QaChecks.PrepareOneRowPerProduct | src/qa_checks.py:25-31 | With unique ids in the three metric tables, the prepared frame has exactly one row per product, and product row i's row is row i. |
| JsNumber.OrZero | src/score/compute.js:26-31 | `x \|\| 0` never yields NaN, and yields a finite number exactly when `x` is not infinite. |
| JsNumber.Round | src/score/compute.js:10 | `Math.round` gives a whole number within half of its argument and keeps NaN and the infinities. |
| JsNumber.ClampFacts | src/score/compute.js:77 | Clamping with `Math.min`/`Math.max` keeps NaN, lands in the range, and is the identity inside it. |
| Compute.MinmaxNorm | src/score/compute.js:6-11 | 50 when max equals min; otherwise NaN exactly for NaN input and else a whole number in [0,100], and, for min < max, 100 at or below min and 0 at or above max. |
| Compute.MinmaxNormAntitone | src/score/compute.js:8-10 | For min < max the normalised score never increases as the raw value grows, infinities included. |
| Compute.BiodiversityValue | src/score/compute.js:31-32 | Never NaN. A finite biodiversity is kept, NaN becomes 0 through `\|\| 0`, and only an infinite value is replaced by the land proxy, 0.2 × (land \|\| 0). |
| Compute.TransportSumFinite | src/score/compute.js:35-36 | With finite legs, the transport addition is the sum of km × emission factor, 0 without legs. |
| Compute.TransportAdds | src/score/compute.js:35-41 | With a finite base GHG and finite legs, the adjusted GHG is the base GHG plus the sum of km × emission factor, divided by the season factor. |
| Compute.NormsFor | src/score/compute.js:44-45 | The lower-cased category's bounds when that key exists; otherwise the `default` bounds when those exist; otherwise none, which raises. |
| Compute.UnknownCategoryUsesDefault | src/score/compute.js:44-45 | With the demonstration norms every category other than dairy uses the default bounds. |
| Compute.DefaultNormsPositive | src/score/compute.js:84-87 | Every range of the demonstration norms is proper and starts above zero. |
| Compute.SupplierAdjustment | src/score/compute.js:56-63 | The bonus lies in [0,7]; it is 0 exactly when there is no supplier or no criterion matches, 7 exactly when all three match, and odd exactly when the organic criterion matches. |
| Compute.BioSupplier | src/score/compute.js:59-60 | The certification "bio", upper-cased, earns the 3-point organic bonus alone. |
| Compute.Breakdown | src/score/compute.js:65-74 | Six contributions in the fixed key order, each carrying its label, normalised value and weight (0 when absent). A contribution is NaN exactly when its normalised value is; otherwise it is a whole number within half of value × weight, as `Math.round` gives. |
| Compute.ContributionSumNaN | src/score/compute.js:76 | The sum of the contributions is NaN exactly when one of them is, and finite otherwise. |
| Compute.FinalScore | src/score/compute.js:76-77 | NaN exactly when the sum is. Otherwise a whole number in [0,100], within half of the sum plus bonus clamped to [0,100], and exactly that clamped value when the sum is whole. +∞ gives 100 and −∞ gives 0. |
| Compute.FinalScoreMonotone | src/score/compute.js:76-77 | A larger finite sum never gives a lower final score. |
| Compute.ScoreFromContributions | src/score/compute.js:73-77 | When the contributions are whole numbers or NaN and the score is not NaN, the score is exactly the real total of the contributions plus the bonus, clamped to [0,100]. |
| Compute.ClampedBonus | src/score/compute.js:76-77 | A full sum of 100 plus any bonus is clamped back to 100. |
| Compute.Letter | src/score/compute.js:78 | One of A–E: A from 90, B from 75, C from 60, D from 45, otherwise E. NaN and −∞ give E, and +∞ gives A. |
| Compute.LetterMonotone | src/score/compute.js:78 | A higher score never gets a worse letter. |
| Compute.ProductNorms | src/score/compute.js:26-53 | Six normalised values, each the min–max score of its impact under its own range: the GHG one of the adjusted GHG, water, land, PM and eutrophication of the impact `\|\| 0`, biodiversity of the proxy value. The GHG value is NaN exactly when the adjusted GHG is NaN and its range is proper; the other five are always finite. |
| Compute.ProductNormsAntitone | src/score/compute.js:26-53 | With ranges that are not reversed, a product no higher on every finite impact (same legs and season factor) gets six finite normalised values, none of them higher. |
| Compute.AdjustedGhgOrdered | src/score/compute.js:36-41 | A GHG impact that is no higher stays no higher once transport is added and the season factor applied. |
| Compute.NormOrdered | src/score/compute.js:6-11 | Under a range that is not reversed, finite impacts normalise to finite values, and a higher impact never normalises higher. |
| Compute.BreakdownAntitone | src/score/compute.js:65-74 | With non-negative weights, lower finite normalised values give whole contributions that are no higher, entry by entry. |
| Compute.ScoresAntitone | src/score/compute.js:65-78 | With non-negative weights, normalised values no higher entry by entry give a score in [0,100] that is no higher and a letter that is no better. |
| Compute.ScoreReportAntitone | src/score/compute.js:26-80 | The partner of `ScoreReport`: with ranges that are not reversed and non-negative weights, a product no better on any metric (same legs, season factor and bonus) scores no higher and gets no better a letter. |
| Compute.ComputeScoreAntitone | src/score/compute.js:19-81 | The same through `computeScore`: of two scorable products with the same category, transport legs and supplier, the one no better on any metric scores no higher and gets no better a letter. |
| Compute.ComputeScore | src/score/compute.js:19-81 | A product without an LCA entry gives the "No LCA" report. Otherwise the call raises exactly when the season table has a row without category or no bounds apply. On success: the season factor is that of `seasonFactor`, in [0.1,1]; the bonus is the supplier adjustment; the breakdown is that of the normalised values of the product's LCA impacts, transport legs and season factor under its category's bounds, the six contributions carrying the metric keys and weights; the score is the clamped total of the contributions plus the bonus (NaN when that sum is); and the letter is the letter of the score. |
| Compute.ScoreReport | src/score/compute.js:41-80 | Once the lookups succeed, the report carries the given season factor and bonus; its breakdown is that of the product's six normalised values; its score and letter follow from its own contributions as above. |
| Compute.ScoreNaNExactly | src/score/compute.js:36-47 | The score is NaN exactly when the adjusted GHG is NaN and the GHG range is proper. |
| Compute.FiniteInputsScore | src/score/compute.js:26-77 | A finite GHG and finite transport legs always give a whole-number score in [0,100]. |
| Compute.ZeroImpactScoresA | src/score/compute.js:19-80 | With the default weights, a product with all-zero impacts, no transport and bounds that start above zero scores 100 and gets "A". |
| Compute.ZeroNorms | src/score/compute.js:46-53 | All-zero impacts normalise to 100 on every metric whose range starts above zero. |
| Compute.FullMarksSum | src/score/compute.js:72-76 | Six full marks weighted by the default weights sum to 100. |
| Season.Filter | src/score/season.js:3 | Raises exactly when a row has no category; otherwise keeps only rows matching the category up to case and the month numerically, and is empty exactly when none does, starting with the first match. |
| Season.SeasonFactor | src/score/season.js:2-8 | Raises exactly when a row has no category; otherwise lies in [0.1,1] and is 1 with no matching row. From the first matching row: 1 for a non-finite or non-positive factor, the factor itself within [0.1,1], 1 above, and 0.1 below. |
| Season.FirstMatchUnique | src/score/season.js:3-5 | The first matching row is unique. |
| Season.SeasonCaseInsensitive | src/score/season.js:3 | Categories equal up to case give the same factor. |
| Season.SeasonExamples | src/score/season.js:3-7 | A case-insensitive first match wins over a later one, a month without a row gives 1, and a factor of 0.05 is raised to 0.1. |
| Csv.SplitCsvLine | src/utils/csv.js:12-23 | At least one cell, and no cell contains a double quote. |
| Csv.CellCount | src/utils/csv.js:12-23 | The cell count is one more than the number of commas outside quotes. |
| Csv.SplitJoin | src/utils/csv.js:17-21 | Joining the cells with commas gives back the line with its double quotes removed. |
| Csv.SplitJoinRoundTrip | src/utils/csv.js:12-23 | Cells free of commas and quotes, joined with commas, split back into the same cells. |
| Csv.SplitOnJoin | src/utils/csv.js:2 | Splitting on a separator and joining with it gives back the text. |
| Csv.SplitOnAbsent | src/utils/csv.js:2 | A character the text lacks is in none of its parts. |
| Csv.Lines | src/utils/csv.js:2 | Every kept line is non-empty and holds no line break or carriage return. The lines are the non-empty segments of the text between line breaks, carriage returns removed, in order and with none dropped: as a multiset they are the segments minus every empty one, so their count is the segment count less the empty segments. |
| Csv.LinesRoundTrip | src/utils/csv.js:2 | Non-empty lines without breaks, joined with line breaks, read back as the same lines in the same order. |
| Csv.NoLines | src/utils/csv.js:2-3 | There are no lines exactly when the text holds nothing but line breaks and carriage returns. |
| Csv.MakeRecord | src/utils/csv.js:7-9 | The record's keys are exactly the header names; each name maps to the cell under its last occurrence, undefined past the end of the row. |
| Csv.ParseCsv | src/utils/csv.js:1-11 | No record for at most one line; otherwise one record per line after the header, each with exactly the header names as keys and the cell under each name's last occurrence. |
| Upload.MissingKeys | partner/upload/upload.js:11-12 | A required key is reported exactly when no row has it, in required order. |
| Upload.CheckRows | partner/upload/upload.js:11-14 | Zero rows raise. Missing columns produce only the list of missing columns. Otherwise the preview is the first min(50, n) rows in order, and every required key is present in some row. |
| Upload.Process | partner/upload/upload.js:6-14 | No file gives the prompt. A file raises exactly when it parses to no rows, and otherwise yields the missing columns or a preview. |
| Upload.MissingMeansNoHeader | partner/upload/upload.js:9-12 | For parsed text, a column is missing exactly when no header cell names it. |
| Keyed.FirstOccurrences | qr_sheet.py:30-31 | The dictionary's keys: exactly the listed keys, each once, in the order of their first occurrence. |
| Keyed.IndexBy | basket/basket.js:24 | The dictionary's keys are exactly the listed keys, each mapped to the item at its last occurrence. |
| Keyed.LastOfExists | qr_sheet.py:30 | Every listed key has a last occurrence, so it has an entry. |
| Compare.Renormalize | compare/compare.js:54-59 | Each weight times the divisor gives back its slider. All weights lie in [0,1]. All-zero sliders give all-zero weights, because the divisor falls back to 1. A positive slider sum gives weights summing to 1. |
| Compare.RenormalizeKeepsRatios | compare/compare.js:59 | Any two weights stand in the same ratio as their sliders. |
| Compare.WeightsObject | compare/compare.js:57-59 | The weights object has exactly the six metric keys, paired positionally with the sliders. |
| Compare.AddToBasket | compare/compare.js:98-101 | The GTIN's count rises by 1 (an absent GTIN becomes 1). Every other count is unchanged. In insertion order, an existing entry keeps its place and a new one goes last. |
| Compare.AddTwice | compare/compare.js:100 | Adding a product twice counts it twice. |
| BasketPage.Catalogue | basket/basket.js:24 | One product per GTIN, the last listed winning. |
| BasketPage.MakeLine | basket/basket.js:42-45 | A line raises exactly when scoring raises or the LCA entry is missing. Otherwise CO2 and water are the impact (0 when missing) times the quantity, CO2 is finite exactly when the GHG is not infinite, and score and letter come from the scorer. |
| BasketPage.Shown | basket/basket.js:39-41 | The shown entries are exactly the basket entries the catalogue knows, kept in basket order (a subsequence of the basket). |
| BasketPage.TableLines | basket/basket.js:39-46 | The loop raises exactly when some catalogued entry's line raises. Otherwise there is one line per shown entry, in basket order, each the line of that entry. |
| BasketPage.AddLineSound | basket/basket.js:39-46 | One turn of the loop keeps the loop's contract: a raise exactly when some catalogued entry so far raises, and otherwise one line per shown entry so far. |
| BasketPage.Summarize | basket/basket.js:36-61 | Raises exactly when some line raises. Otherwise: the lines are the lines of the shown entries, in basket order; CO2 and water are the sums of the lines' amounts; the average is 0 without lines and otherwise `Math.round` of the score total over the line count; and the beef hint shows exactly when some catalogued GTIN's lower-cased category contains "beef". |
| BasketPage.SummaryTotals | basket/basket.js:39-46 | With no infinite impact, the CO2 and water totals are the plain real sums, over the whole basket, of (impact `\|\| 0`) × quantity for each catalogued entry with LCA data. |
| BasketPage.ShownTotal | basket/basket.js:40-41 | Summing over the shown entries gives the same total as summing over the basket, since an uncatalogued entry adds nothing. |
| BasketPage.AverageIsPercent | basket/basket.js:54 | Whole-number scores in [0,100] average, after `Math.round`, to one. |
| BasketPage.SummaryAverage | basket/basket.js:46-54 | When no shown score is NaN, the displayed average is a whole number in [0,100]. |
| QrSheet.Chunks | qr_sheet.py:23-25 | For a positive size every chunk is non-empty and at most that long, and all but the last are exactly that long. |
| QrSheet.ChunksConcat | qr_sheet.py:23-25 | Concatenating the chunks gives back the list. |
| QrSheet.ChunkCount | qr_sheet.py:23-25 | The number of chunks is the length divided by the size, rounded up. |
| QrSheet.Chunk | qr_sheet.py:23-25 | A zero size raises, as `range` does. A negative size yields nothing. A positive size yields chunks that concatenate back to the list. |
| QrSheet.ChunkAt | qr_sheet.py:24-25 | Chunk i is the slice starting at i × n and ending n later or at the end of the list. |
| QrSheet.GridCells | qr_sheet.py:46-48 | For an index below 9, row and column both lie in [0,2], and distinct indices give distinct cells. |
| QrSheet.Place | qr_sheet.py:37-55 | The cell's position follows its row and column. The cell lies within the margins of the A4 page. The centring offset is non-negative and the code fits in the cell. |
| QrSheet.SquaresDisjoint | qr_sheet.py:37-55 | The codes of two different cells of a page never overlap. |
| QrSheet.QrMap | qr_sheet.py:30 | One entry per distinct slug, holding the last record with that slug. |
| QrSheet.QrPaths | qr_sheet.py:31 | Every slug of the manifest, each exactly once, in the order of its first occurrence. |
| QrSheet.LayOut | qr_sheet.py:46-57 | A page places its group's slugs in cells 0, 1, 2, … with the mapped record. |
| QrSheet.MakePages | qr_sheet.py:27-63 | The number of pages is the number of distinct slugs divided by 9, rounded up. Each page holds 1 to 9 codes. Read page by page, the pages list exactly the slug list of the dictionary, each placed with its mapped record. |
| QrSheet.PlacedItemIsLast | qr_sheet.py:30-57 | Every printed code carries the data of the last manifest record with its slug. |
| QrSheet.SavePdf | qr_sheet.py:65-68 | Raises the exit exactly when there are no pages; otherwise the document holds every page in order. |
| QrSheet.SheetRun | qr_sheet.py:70-73 | A manifest without records ends in the exit; any other gives one page per nine distinct slugs, rounded up. |

## Left out

- File, network and browser I/O is left out. This covers `pd.read_csv`, `yaml.safe_load`, directory creation, file writes, `json` reading and writing, `fetch`/`loadCSV`, `localStorage`, and `sys.exit` printing. Tables, configuration, the context object and the basket are given as values.
- HTML generation, DOM rendering, the slider widgets and the page title and label text are left out. They are templating with no decisions.
- The `qrcode` and `slugify` libraries are left out. `SiteBuild.BuildRecords` takes the slug function as a parameter.
- PIL image work is left out: opening, resizing and pasting codes, fonts, drawing, and writing the PDF. `QrSheet.SavePdf` returns the page list the file would hold.
- `export_scores.py` is not part of this model. It only writes a CSV.
- The context-building code of the basket page is not part of this model (`basket/basket.js:1-33` apart from line 24). Impacts arrive already converted to numbers.
- `Number()` parsing of strings is not modelled, and neither is any other string-to-number conversion; values arrive as numbers, NaN or infinities.
- Floating-point rounding is not modelled. Arithmetic is exact on reals, and signed zero is not modelled. Python's `round(x, 1)` is modelled as exact round-half-even to tenths (`Scoring.RoundTenths`). It therefore agrees with binary floating point only up to representation error.
- Case mapping (`lower`, `toLowerCase`, `toUpperCase`) is modelled for ASCII letters only.
- The clock is left out. The month `new Date()` would supply is a parameter, and a context month of 0 stands for an absent one.
- The stored slider weights are a parameter of `Compute.ComputeScore`; they are not read from storage.
- QaChecks.Merge: non-key columns that appear in more than one table are kept under their own name instead of pandas' `_x`/`_y` suffixes; `QaChecks.UnmatchedProductFails`, `QaChecks.UnmatchedDistanceFails` and `QaChecks.UnmatchedBiodivFails` therefore assume the metric column they follow comes from one table only.
- QrSheet.QrMap: keyed by the slug rather than by the path `qr/<slug>.png`. The two coincide for slugs without path separators.
- QrSheet.MakePages: starts from the record list, since the manifest the builder writes has no `records` key.
- BasketPage.TableLines: entries are taken in insertion order. JavaScript lists keys that are canonical array indices (numeric strings below 2^32 − 1, such as 8-digit GTINs) first and in ascending order; this is not modelled.
- BasketPage.MakeLine: a stored quantity is taken to be a whole number. The page multiplies whatever JSON value is stored.
- Compare.AddToBasket: the basket is kept in insertion order. JavaScript lists keys that are canonical array indices (numeric strings below 2^32 − 1, such as 8-digit GTINs) first and in ascending order when the basket is serialised; this is not modelled.
- QaChecks.Merge: an `id` column of numbers merged with one of strings makes pandas raise `ValueError`; cells are compared by value here, so such a join simply matches nothing.
- Keys such as `__proto__`, which JavaScript objects treat specially, are not modelled.
- Compare.Renormalize: requires exactly six slider values between 0 and 100, which is what the page renders. The handler itself would divide any list.

=== FILE: basket.dfy ===
/** The basket page's aggregation: every basket entry whose GTIN is in the catalogue
    becomes a line with its CO2, water and score; the totals, the average score and the
    beef hint are computed from the basket and the catalogue. */
module BasketPage {
  import opened Wrappers
  import opened Text
  import opened JsNumber
  import opened Compute
  import opened Compare
  import opened Keyed
  import opened Sequences

  // ---------------------------------------------------------------------------
  // The catalogue

  function ProductGtins(products: seq<Product>): (g: seq<string>)
    ensures |g| == |products|
    ensures forall i :: 0 <= i < |products| ==> g[i] == products[i].gtin
  {
    seq(|products|, i requires 0 <= i < |products| => products[i].gtin)
  }

  /** `products.forEach(p => byGtin[p.gtin] = p)`: one product per GTIN, the last one
      listed winning. */
  function Catalogue(products: seq<Product>): (byGtin: map<string, Product>)
    ensures byGtin.Keys == set g | g in ProductGtins(products)
    ensures forall i | LastOf(ProductGtins(products), i) :: byGtin[products[i].gtin] == products[i]
  {
    IndexBy(ProductGtins(products), products)
  }

  // ---------------------------------------------------------------------------
  // One line

  /** A table line: the GTIN, the quantity, the line's CO2 and water, and the score. */
  datatype Line = Line(gtin: string, qty: int, co2: Num, water: Num, score: Num, letter: char)

  /** The loop body for a product found in the catalogue: score it, then read its LCA
      impacts, which raises when the product has no LCA entry. A missing impact counts
      as 0 through `|| 0`. */
  function MakeLine(e: Entry, p: Product, ctx: Context, weights: map<string, real>, clockMonth: int): (r: Result<Line, JsError>)
    ensures r.Err? <==> ComputeScore(p, ctx, weights, clockMonth).Err? || p.lcaRefId !in ctx.lcaByRef
    ensures r.Ok? ==>
              var imp := ctx.lcaByRef[p.lcaRefId];
              var res := ComputeScore(p, ctx, weights, clockMonth).value;
              && r.value.gtin == e.gtin && r.value.qty == e.qty
              && r.value.co2 == Mul(OrZero(imp.ghg), Finite(e.qty as real))
              && r.value.water == Mul(OrZero(imp.water), Finite(e.qty as real))
              && (r.value.co2.Finite? <==> !IsInfinite(imp.ghg))
              && res.Scored? && r.value.score == res.score && r.value.letter == res.letter
              && (r.value.score.NaN? || Percent(r.value.score))
  {
    var res := ComputeScore(p, ctx, weights, clockMonth);
    if res.Err? then Err(res.error)
    else if p.lcaRefId !in ctx.lcaByRef then Err(TypeError("Cannot read properties of undefined (reading 'impacts')"))
    else
      var imp := ctx.lcaByRef[p.lcaRefId];
      var q := Finite(e.qty as real);
      Ok(Line(e.gtin, e.qty, Mul(OrZero(imp.ghg), q), Mul(OrZero(imp.water), q), ScoreOf(res.value), LetterOf(res.value)))
  }

  // ---------------------------------------------------------------------------
  // The loop

  /** The entries whose GTIN the catalogue knows, in basket order. */
  function Shown(basket: Basket, byGtin: map<string, Product>): (s: Basket)
    ensures forall e :: e in s <==> e in basket && e.gtin in byGtin
    ensures IsSubsequence(s, basket)
    ensures |s| <= |basket|
  {
    if |basket| == 0 then []
    else
      var init, last := basket[..|basket| - 1], basket[|basket| - 1];
      assert basket == init + [last];
      var si := Shown(init, byGtin);
      SubsequenceSnoc(si, init, last);
      assert si + [] == si;
      si + (if last.gtin in byGtin then [last] else [])
  }

  /** Some catalogued entry of the basket makes its line raise. */
  predicate SomeLineFails(basket: Basket, byGtin: map<string, Product>, ctx: Context, weights: map<string, real>, clockMonth: int) {
    exists i :: 0 <= i < |basket| && basket[i].gtin in byGtin
                && MakeLine(basket[i], byGtin[basket[i].gtin], ctx, weights, clockMonth).Err?
  }

  /** `ls` holds, in order, the line of each entry of `s`, every one of them catalogued. */
  predicate LinesMatch(ls: seq<Line>, s: Basket, byGtin: map<string, Product>, ctx: Context, weights: map<string, real>, clockMonth: int) {
    && |ls| == |s|
    && forall k :: 0 <= k < |s| ==> s[k].gtin in byGtin && Ok(ls[k]) == MakeLine(s[k], byGtin[s[k].gtin], ctx, weights, clockMonth)
  }

  /** `for (const [gtin, qty] of Object.entries(basket))`: entries missing from the
      catalogue are skipped; the first line that raises stops the loop. */
  function TableLines(basket: Basket, byGtin: map<string, Product>, ctx: Context, weights: map<string, real>, clockMonth: int): (r: Result<seq<Line>, JsError>)
    ensures r.Err? <==> SomeLineFails(basket, byGtin, ctx, weights, clockMonth)
    ensures r.Ok? ==> LinesMatch(r.value, Shown(basket, byGtin), byGtin, ctx, weights, clockMonth)
  {
    if |basket| == 0 then Ok([])
    else
      var init, last := basket[..|basket| - 1], basket[|basket| - 1];
      assert basket == init + [last];
      var acc := TableLines(init, byGtin, ctx, weights, clockMonth);
      AddLineSound(init, last, acc, byGtin, ctx, weights, clockMonth);
      AddLine(acc, last, byGtin, ctx, weights, clockMonth)
  }

  /** One turn of the loop: a failure so far stands, an uncatalogued entry is skipped,
      otherwise the entry's line is appended or its failure raised. */
  function AddLine(acc: Result<seq<Line>, JsError>, last: Entry, byGtin: map<string, Product>,
                   ctx: Context, weights: map<string, real>, clockMonth: int): Result<seq<Line>, JsError>
  {
    if acc.Err? || last.gtin !in byGtin then acc
    else
      var line := MakeLine(last, byGtin[last.gtin], ctx, weights, clockMonth);
      if line.Err? then Err(line.error) else Ok(acc.value + [line.value])
  }

  /** One turn of the loop keeps the loop's contract. */
  lemma AddLineSound(init: Basket, last: Entry, acc: Result<seq<Line>, JsError>, byGtin: map<string, Product>,
                     ctx: Context, weights: map<string, real>, clockMonth: int)
    requires acc.Err? <==> SomeLineFails(init, byGtin, ctx, weights, clockMonth)
    requires acc.Ok? ==> LinesMatch(acc.value, Shown(init, byGtin), byGtin, ctx, weights, clockMonth)
    ensures var r := AddLine(acc, last, byGtin, ctx, weights, clockMonth);
            && (r.Err? <==> SomeLineFails(init + [last], byGtin, ctx, weights, clockMonth))
            && (r.Ok? ==> LinesMatch(r.value, Shown(init + [last], byGtin), byGtin, ctx, weights, clockMonth))
  {
    FailureSnoc(init, last, byGtin, ctx, weights, clockMonth);
    if acc.Ok? {
      AddLineMatch(init, last, acc.value, byGtin, ctx, weights, clockMonth);
    }
  }

  lemma AddLineMatch(init: Basket, last: Entry, ls: seq<Line>, byGtin: map<string, Product>,
                     ctx: Context, weights: map<string, real>, clockMonth: int)
    requires LinesMatch(ls, Shown(init, byGtin), byGtin, ctx, weights, clockMonth)
    ensures var r := AddLine(Ok(ls), last, byGtin, ctx, weights, clockMonth);
            r.Ok? ==> LinesMatch(r.value, Shown(init + [last], byGtin), byGtin, ctx, weights, clockMonth)
  {
    if last.gtin in byGtin && MakeLine(last, byGtin[last.gtin], ctx, weights, clockMonth).Ok? {
      AddLineKept(init, last, ls, byGtin, ctx, weights, clockMonth);
    } else if last.gtin !in byGtin {
      ShownSkips(init, last, byGtin);
    }
  }

  /** A catalogued entry whose line succeeds adds that line after the others. */
  lemma AddLineKept(init: Basket, last: Entry, ls: seq<Line>, byGtin: map<string, Product>,
                    ctx: Context, weights: map<string, real>, clockMonth: int)
    requires LinesMatch(ls, Shown(init, byGtin), byGtin, ctx, weights, clockMonth)
    requires last.gtin in byGtin && MakeLine(last, byGtin[last.gtin], ctx, weights, clockMonth).Ok?
    ensures var line := MakeLine(last, byGtin[last.gtin], ctx, weights, clockMonth).value;
            && AddLine(Ok(ls), last, byGtin, ctx, weights, clockMonth) == Ok(ls + [line])
            && LinesMatch(ls + [line], Shown(init + [last], byGtin), byGtin, ctx, weights, clockMonth)
  {
    ShownKeeps(init, last, byGtin);
    var line := MakeLine(last, byGtin[last.gtin], ctx, weights, clockMonth).value;
    LinesSnoc(ls, line, Shown(init, byGtin), last, byGtin, ctx, weights, clockMonth);
  }

  lemma ShownKeeps(init: Basket, last: Entry, byGtin: map<string, Product>)
    requires last.gtin in byGtin
    ensures Shown(init + [last], byGtin) == Shown(init, byGtin) + [last]
  {
    ShownSnoc(init, last, byGtin);
  }

  lemma ShownSkips(init: Basket, last: Entry, byGtin: map<string, Product>)
    requires last.gtin !in byGtin
    ensures Shown(init + [last], byGtin) == Shown(init, byGtin)
  {
    ShownSnoc(init, last, byGtin);
    assert Shown(init, byGtin) + [] == Shown(init, byGtin);
  }

  lemma ShownSnoc(init: Basket, last: Entry, byGtin: map<string, Product>)
    ensures Shown(init + [last], byGtin) == Shown(init, byGtin) + (if last.gtin in byGtin then [last] else [])
  {
    assert (init + [last])[..|init|] == init;
  }

  lemma LinesSnoc(ls: seq<Line>, l: Line, s: Basket, last: Entry, byGtin: map<string, Product>,
                  ctx: Context, weights: map<string, real>, clockMonth: int)
    requires LinesMatch(ls, s, byGtin, ctx, weights, clockMonth)
    requires last.gtin in byGtin && Ok(l) == MakeLine(last, byGtin[last.gtin], ctx, weights, clockMonth)
    ensures LinesMatch(ls + [l], s + [last], byGtin, ctx, weights, clockMonth)
  {
    var ls', s' := ls + [l], s + [last];
    forall k | 0 <= k < |s'|
      ensures s'[k].gtin in byGtin && Ok(ls'[k]) == MakeLine(s'[k], byGtin[s'[k].gtin], ctx, weights, clockMonth)
    {
      if k < |s| {
        assert s'[k] == s[k] && ls'[k] == ls[k];
      }
    }
  }

  /** Extending the basket by one entry adds at most that entry's failure. */
  lemma FailureSnoc(init: Basket, last: Entry, byGtin: map<string, Product>, ctx: Context, weights: map<string, real>, clockMonth: int)
    ensures SomeLineFails(init + [last], byGtin, ctx, weights, clockMonth) <==>
              SomeLineFails(init, byGtin, ctx, weights, clockMonth)
              || (last.gtin in byGtin && MakeLine(last, byGtin[last.gtin], ctx, weights, clockMonth).Err?)
  {
    var b := init + [last];
    if SomeLineFails(init, byGtin, ctx, weights, clockMonth) {
      var i :| 0 <= i < |init| && init[i].gtin in byGtin
               && MakeLine(init[i], byGtin[init[i].gtin], ctx, weights, clockMonth).Err?;
      assert b[i] == init[i];
    } else {
      NoFailureSnoc(init, last, byGtin, ctx, weights, clockMonth);
    }
  }

  lemma NoFailureSnoc(init: Basket, last: Entry, byGtin: map<string, Product>, ctx: Context, weights: map<string, real>, clockMonth: int)
    requires !SomeLineFails(init, byGtin, ctx, weights, clockMonth)
    ensures SomeLineFails(init + [last], byGtin, ctx, weights, clockMonth) <==>
              last.gtin in byGtin && MakeLine(last, byGtin[last.gtin], ctx, weights, clockMonth).Err?
  {
    var b := init + [last];
    forall i | 0 <= i < |init|
      ensures !(b[i].gtin in byGtin && MakeLine(b[i], byGtin[b[i].gtin], ctx, weights, clockMonth).Err?)
    {
      assert b[i] == init[i];
    }
    assert b[|init|] == last;
  }

  // ---------------------------------------------------------------------------
  // Totals, average and hint

  /** The two quantities the page totals per line. */
  datatype Measure = Co2 | Water

  function LineAmount(l: Line, m: Measure): Num {
    match m
    case Co2 => l.co2
    case Water => l.water
  }

  /** `totCO2 += rowCO2` and `totWater += rowWater` over the lines. */
  function TotalOf(lines: seq<Line>, m: Measure): Num {
    if |lines| == 0 then Finite(0.0) else Add(TotalOf(lines[..|lines| - 1], m), LineAmount(lines[|lines| - 1], m))
  }

  /** `totScore += res.score` over the lines. */
  function TotalScore(lines: seq<Line>): Num {
    if |lines| == 0 then Finite(0.0) else Add(TotalScore(lines[..|lines| - 1]), lines[|lines| - 1].score)
  }

  /** `n ? Math.round(totScore / n) : 0`. */
  function Average(lines: seq<Line>): Num {
    if |lines| == 0 then Finite(0.0) else Round(DivBy(TotalScore(lines), |lines| as real))
  }

  /** The demonstration hint: some GTIN of the basket names a catalogued product whose
      category, lower-cased, contains "beef". */
  predicate BeefHint(basket: Basket, byGtin: map<string, Product>) {
    exists i :: 0 <= i < |basket| && basket[i].gtin in byGtin
                && Contains(Lower(byGtin[basket[i].gtin].category), "beef")
  }

  datatype Summary = Summary(lines: seq<Line>, co2: Num, water: Num, average: Num, beef: bool)

  /** The page's `init` after the data is loaded: one line per catalogued basket entry,
      in basket order, the CO2 and water totals of those lines, the rounded mean of
      their scores (0 without lines) and the beef hint. */
  function Summarize(basket: Basket, byGtin: map<string, Product>, ctx: Context, weights: map<string, real>, clockMonth: int): (r: Result<Summary, JsError>)
    ensures r.Err? <==> SomeLineFails(basket, byGtin, ctx, weights, clockMonth)
    ensures r.Ok? ==>
              && LinesMatch(r.value.lines, Shown(basket, byGtin), byGtin, ctx, weights, clockMonth)
              && r.value.co2 == TotalOf(r.value.lines, Co2)
              && r.value.water == TotalOf(r.value.lines, Water)
              && (|r.value.lines| == 0 ==> r.value.average == Finite(0.0))
              && (|r.value.lines| > 0 ==> r.value.average == Round(DivBy(TotalScore(r.value.lines), |r.value.lines| as real)))
              && (r.value.beef <==> BeefHint(basket, byGtin))
  {
    var lines := TableLines(basket, byGtin, ctx, weights, clockMonth);
    if lines.Err? then Err(lines.error)
    else
      var ls := lines.value;
      Ok(Summary(ls, TotalOf(ls, Co2), TotalOf(ls, Water), Average(ls), BeefHint(basket, byGtin)))
  }

  // ---------------------------------------------------------------------------
  // The totals as plain sums

  /** The LCA impacts of the product an entry names, when it is catalogued and has them. */
  function EntryImpacts(e: Entry, byGtin: map<string, Product>, ctx: Context): Option<Impacts> {
    if e.gtin in byGtin && byGtin[e.gtin].lcaRefId in ctx.lcaByRef then Some(ctx.lcaByRef[byGtin[e.gtin].lcaRefId])
    else None
  }

  function ImpactAmount(imp: Impacts, m: Measure): Num {
    match m
    case Co2 => imp.ghg
    case Water => imp.water
  }

  /** An entry's share of a total: its impact (`|| 0`) times its quantity, and nothing
      for an entry without a catalogued product or LCA data. */
  function EntryAmount(e: Entry, byGtin: map<string, Product>, ctx: Context, m: Measure): real {
    match EntryImpacts(e, byGtin, ctx)
    case None => 0.0
    case Some(imp) => RealValue(OrZero(ImpactAmount(imp, m))) * e.qty as real
  }

  /** The sum of the entries' shares, as reals. */
  function BasketTotal(basket: Basket, byGtin: map<string, Product>, ctx: Context, m: Measure): real {
    if |basket| == 0 then 0.0
    else BasketTotal(basket[..|basket| - 1], byGtin, ctx, m) + EntryAmount(basket[|basket| - 1], byGtin, ctx, m)
  }

  /** No entry's impacts are infinite. */
  predicate FiniteImpacts(basket: Basket, byGtin: map<string, Product>, ctx: Context) {
    forall k :: 0 <= k < |basket| && EntryImpacts(basket[k], byGtin, ctx).Some? ==>
      && !IsInfinite(EntryImpacts(basket[k], byGtin, ctx).value.ghg)
      && !IsInfinite(EntryImpacts(basket[k], byGtin, ctx).value.water)
  }

  /** With no infinite impact, the page's CO2 and water totals are the plain sums, over
      the basket's catalogued entries, of impact times quantity. */
  lemma SummaryTotals(basket: Basket, byGtin: map<string, Product>, ctx: Context, weights: map<string, real>, clockMonth: int)
    requires FiniteImpacts(basket, byGtin, ctx)
    ensures var r := Summarize(basket, byGtin, ctx, weights, clockMonth);
            r.Ok? ==> && r.value.co2 == Finite(BasketTotal(basket, byGtin, ctx, Co2))
                      && r.value.water == Finite(BasketTotal(basket, byGtin, ctx, Water))
  {
    var r := Summarize(basket, byGtin, ctx, weights, clockMonth);
    if r.Ok? {
      var s := Shown(basket, byGtin);
      FiniteImpactsShown(basket, byGtin, ctx);
      LinesAmounts(r.value.lines, s, byGtin, ctx, weights, clockMonth, Co2);
      LinesAmounts(r.value.lines, s, byGtin, ctx, weights, clockMonth, Water);
      AmountsTotal(r.value.lines, s, byGtin, ctx, Co2);
      AmountsTotal(r.value.lines, s, byGtin, ctx, Water);
      ShownTotal(basket, byGtin, ctx, Co2);
      ShownTotal(basket, byGtin, ctx, Water);
    }
  }

  /** The shown entries are entries of the basket, so their impacts are finite too. */
  lemma FiniteImpactsShown(basket: Basket, byGtin: map<string, Product>, ctx: Context)
    requires FiniteImpacts(basket, byGtin, ctx)
    ensures FiniteImpacts(Shown(basket, byGtin), byGtin, ctx)
  {
    var s := Shown(basket, byGtin);
    forall k | 0 <= k < |s| && EntryImpacts(s[k], byGtin, ctx).Some?
      ensures !IsInfinite(EntryImpacts(s[k], byGtin, ctx).value.ghg) && !IsInfinite(EntryImpacts(s[k], byGtin, ctx).value.water)
    {
      assert s[k] in s;
      var j :| 0 <= j < |basket| && basket[j] == s[k];
    }
  }

  /** Entries the catalogue does not know add nothing, so the total over the shown
      entries is the total over the basket. */
  lemma {:induction false} ShownTotal(basket: Basket, byGtin: map<string, Product>, ctx: Context, m: Measure)
    ensures BasketTotal(Shown(basket, byGtin), byGtin, ctx, m) == BasketTotal(basket, byGtin, ctx, m)
  {
    if |basket| > 0 {
      var init, last := basket[..|basket| - 1], basket[|basket| - 1];
      assert basket == init + [last];
      ShownTotal(init, byGtin, ctx, m);
      ShownTotalStep(init, last, byGtin, ctx, m);
    }
  }

  lemma ShownTotalStep(init: Basket, last: Entry, byGtin: map<string, Product>, ctx: Context, m: Measure)
    requires BasketTotal(Shown(init, byGtin), byGtin, ctx, m) == BasketTotal(init, byGtin, ctx, m)
    ensures BasketTotal(Shown(init + [last], byGtin), byGtin, ctx, m) == BasketTotal(init + [last], byGtin, ctx, m)
  {
    var si := Shown(init, byGtin);
    ShownSnoc(init, last, byGtin);
    BasketTotalSnoc(init, last, byGtin, ctx, m);
    var t, a := BasketTotal(init, byGtin, ctx, m), EntryAmount(last, byGtin, ctx, m);
    if last.gtin in byGtin {
      BasketTotalSnoc(si, last, byGtin, ctx, m);
      assert BasketTotal(si + [last], byGtin, ctx, m) == t + a;
    } else {
      assert si + [] == si;
      assert a == 0.0;
    }
  }

  lemma BasketTotalSnoc(basket: Basket, e: Entry, byGtin: map<string, Product>, ctx: Context, m: Measure)
    ensures BasketTotal(basket + [e], byGtin, ctx, m) == BasketTotal(basket, byGtin, ctx, m) + EntryAmount(e, byGtin, ctx, m)
    ensures e.gtin !in byGtin ==> EntryAmount(e, byGtin, ctx, m) == 0.0
  {
    assert (basket + [e])[..|basket|] == basket;
  }

  /** Each line's CO2 or water is its entry's share. */
  predicate AmountsMatch(ls: seq<Line>, s: Basket, byGtin: map<string, Product>, ctx: Context, m: Measure) {
    |ls| == |s| && forall k :: 0 <= k < |s| ==> LineAmount(ls[k], m) == Finite(EntryAmount(s[k], byGtin, ctx, m))
  }

  /** The lines of finite-impact entries carry their entries' shares. */
  lemma LinesAmounts(ls: seq<Line>, s: Basket, byGtin: map<string, Product>, ctx: Context,
                     weights: map<string, real>, clockMonth: int, m: Measure)
    requires LinesMatch(ls, s, byGtin, ctx, weights, clockMonth)
    requires FiniteImpacts(s, byGtin, ctx)
    ensures AmountsMatch(ls, s, byGtin, ctx, m)
  {
    forall k | 0 <= k < |s| ensures LineAmount(ls[k], m) == Finite(EntryAmount(s[k], byGtin, ctx, m)) {
      LineAmountFinite(ls[k], s[k], byGtin, ctx, weights, clockMonth, m);
    }
  }

  /** Lines carrying their entries' shares add up to the plain sum of the shares. */
  lemma {:induction false} AmountsTotal(ls: seq<Line>, s: Basket, byGtin: map<string, Product>, ctx: Context, m: Measure)
    requires AmountsMatch(ls, s, byGtin, ctx, m)
    ensures TotalOf(ls, m) == Finite(BasketTotal(s, byGtin, ctx, m))
  {
    if |s| > 0 {
      var n := |s| - 1;
      assert AmountsMatch(ls[..n], s[..n], byGtin, ctx, m) by {
        forall k | 0 <= k < n ensures ls[..n][k] == ls[k] && s[..n][k] == s[k] {}
      }
      AmountsTotal(ls[..n], s[..n], byGtin, ctx, m);
      TotalStep(ls, s, byGtin, ctx, m);
    }
  }

  /** The last line adds the last entry's share. */
  lemma TotalStep(ls: seq<Line>, s: Basket, byGtin: map<string, Product>, ctx: Context, m: Measure)
    requires |ls| == |s| > 0
    requires TotalOf(ls[..|ls| - 1], m) == Finite(BasketTotal(s[..|s| - 1], byGtin, ctx, m))
    requires LineAmount(ls[|ls| - 1], m) == Finite(EntryAmount(s[|s| - 1], byGtin, ctx, m))
    ensures TotalOf(ls, m) == Finite(BasketTotal(s, byGtin, ctx, m))
  {
    var n := |ls| - 1;
    var a, b := BasketTotal(s[..n], byGtin, ctx, m), EntryAmount(s[n], byGtin, ctx, m);
    assert BasketTotal(s, byGtin, ctx, m) == a + b;
    assert TotalOf(ls, m) == Add(Finite(a), Finite(b));
    AddFinite(Finite(a), Finite(b));
  }

  /** One line's CO2 or water is its entry's share. */
  lemma LineAmountFinite(l: Line, e: Entry, byGtin: map<string, Product>, ctx: Context, weights: map<string, real>, clockMonth: int, m: Measure)
    requires e.gtin in byGtin && Ok(l) == MakeLine(e, byGtin[e.gtin], ctx, weights, clockMonth)
    requires EntryImpacts(e, byGtin, ctx).Some? ==>
               !IsInfinite(EntryImpacts(e, byGtin, ctx).value.ghg) && !IsInfinite(EntryImpacts(e, byGtin, ctx).value.water)
    ensures LineAmount(l, m) == Finite(EntryAmount(e, byGtin, ctx, m))
  {
    var p := byGtin[e.gtin];
    assert p.lcaRefId in ctx.lcaByRef;
    var imp := ctx.lcaByRef[p.lcaRefId];
    assert EntryImpacts(e, byGtin, ctx) == Some(imp);
    var q := Finite(e.qty as real);
    assert LineAmount(l, m) == Mul(OrZero(ImpactAmount(imp, m)), q) by {
      assert l.co2 == Mul(OrZero(imp.ghg), q) && l.water == Mul(OrZero(imp.water), q);
    }
    ShareIsAmount(l, e, byGtin, ctx, m, imp);
  }

  lemma ShareIsAmount(l: Line, e: Entry, byGtin: map<string, Product>, ctx: Context, m: Measure, imp: Impacts)
    requires EntryImpacts(e, byGtin, ctx) == Some(imp) && !IsInfinite(ImpactAmount(imp, m))
    requires LineAmount(l, m) == Mul(OrZero(ImpactAmount(imp, m)), Finite(e.qty as real))
    ensures LineAmount(l, m) == Finite(EntryAmount(e, byGtin, ctx, m))
  {
    var x := OrZero(ImpactAmount(imp, m));
    MulFinite(x, Finite(e.qty as real));
  }

  /** Scores that are whole numbers between 0 and 100 average to one. */
  lemma AverageIsPercent(lines: seq<Line>)
    requires forall k :: 0 <= k < |lines| ==> Percent(lines[k].score)
    ensures Percent(Average(lines))
  {
    if |lines| > 0 {
      TotalScoreBounds(lines);
      var t := TotalScore(lines);
      var n := |lines| as real;
      AverageBounds(t.v, n);
      assert DivBy(t, n) == Finite(t.v / n);
      RoundedPercent(t.v / n);
    }
  }

  /** A value between 0 and 100 rounds to a whole number between 0 and 100. */
  lemma RoundedPercent(q: real)
    requires 0.0 <= q <= 100.0
    ensures Percent(Round(Finite(q)))
  {
    RoundMonotone(0.0, q);
    RoundMonotone(q, 100.0);
    RoundInt(0.0);
    RoundInt(100.0);
  }

  lemma AverageBounds(t: real, n: real)
    requires n > 0.0 && 0.0 <= t <= 100.0 * n
    ensures 0.0 <= t / n <= 100.0
  {
  }

  /** Each line adds between 0 and 100 to the total score. */
  lemma {:induction false} TotalScoreBounds(lines: seq<Line>)
    requires forall k :: 0 <= k < |lines| ==> Percent(lines[k].score)
    ensures TotalScore(lines).Finite? && 0.0 <= TotalScore(lines).v <= 100.0 * |lines| as real
  {
    if |lines| > 0 {
      var init := lines[..|lines| - 1];
      assert forall k :: 0 <= k < |init| ==> init[k] == lines[k];
      TotalScoreBounds(init);
      AddFinite(TotalScore(init), lines[|lines| - 1].score);
    }
  }

  /** With every shown product scored to a number, the page shows a whole-number
      average between 0 and 100. */
  lemma SummaryAverage(basket: Basket, byGtin: map<string, Product>, ctx: Context, weights: map<string, real>, clockMonth: int)
    requires Summarize(basket, byGtin, ctx, weights, clockMonth).Ok?
    requires forall k :: 0 <= k < |Summarize(basket, byGtin, ctx, weights, clockMonth).value.lines| ==>
               !Summarize(basket, byGtin, ctx, weights, clockMonth).value.lines[k].score.NaN?
    ensures Percent(Summarize(basket, byGtin, ctx, weights, clockMonth).value.average)
  {
    var ls := TableLines(basket, byGtin, ctx, weights, clockMonth).value;
    var s := Shown(basket, byGtin);
    forall k | 0 <= k < |ls| ensures Percent(ls[k].score) {
      assert Ok(ls[k]) == MakeLine(s[k], byGtin[s[k].gtin], ctx, weights, clockMonth);
    }
    AverageIsPercent(ls);
  }
}

=== FILE: compare.dfy ===
/** The comparison page's pure parts: turning the six slider positions into weights
    for the scorer, and counting a product into the basket. */
module Compare {
  import opened Compute

  /** Sum of a list of reals, left to right. */
  function Sum(xs: seq<real>): real {
    if |xs| == 0 then 0.0 else Sum(xs[..|xs| - 1]) + xs[|xs| - 1]
  }

  /** `raw.reduce((a, b) => a + b, 0) || 1`. */
  function Divisor(raw: seq<real>): (d: real)
    ensures d != 0.0
  {
    if Sum(raw) == 0.0 then 1.0 else Sum(raw)
  }

  /** A sum of non-negative values is non-negative, and zero only when every value is. */
  lemma {:induction false} SumNonNegative(xs: seq<real>)
    requires forall i :: 0 <= i < |xs| ==> xs[i] >= 0.0
    ensures Sum(xs) >= 0.0
    ensures Sum(xs) == 0.0 ==> forall i :: 0 <= i < |xs| ==> xs[i] == 0.0
  {
    if |xs| > 0 {
      SumNonNegative(xs[..|xs| - 1]);
    }
  }

  /** Dividing every value by `d` divides the sum by `d`. */
  lemma {:induction false} SumScaled(xs: seq<real>, ys: seq<real>, d: real)
    requires d != 0.0 && |xs| == |ys|
    requires forall i :: 0 <= i < |xs| ==> ys[i] == xs[i] / d
    ensures Sum(ys) == Sum(xs) / d
  {
    if |xs| > 0 {
      var n := |xs| - 1;
      SumScaled(xs[..n], ys[..n], d);
      DivAdd(Sum(xs[..n]), xs[n], d);
    }
  }

  lemma DivFacts(x: real, d: real)
    requires 0.0 <= x <= d && d > 0.0
    ensures x / d * d == x && 0.0 <= x / d <= 1.0
  {
  }

  lemma SelfDivision(d: real)
    requires d != 0.0
    ensures d / d == 1.0
  {
  }

  lemma DivAdd(a: real, b: real, d: real)
    requires d != 0.0
    ensures a / d + b / d == (a + b) / d
  {
  }

  /** The slider change handler: each raw slider position divided by the sum of all
      six (or by 1 when they are all zero). The page always renders exactly six sliders,
      each between 0 and 100. */
  function Renormalize(raw: seq<real>): (ws: seq<real>)
    requires |raw| == 6
    requires forall i :: 0 <= i < 6 ==> 0.0 <= raw[i] <= 100.0
    ensures |ws| == 6
    ensures forall i :: 0 <= i < 6 ==> ws[i] * Divisor(raw) == raw[i]
    ensures forall i :: 0 <= i < 6 ==> 0.0 <= ws[i] <= 1.0
    ensures Sum(raw) == 0.0 ==> forall i :: 0 <= i < 6 ==> ws[i] == 0.0
    ensures Sum(raw) > 0.0 ==> Sum(ws) == 1.0
  {
    var ws := seq(6, i requires 0 <= i < 6 => raw[i] / Divisor(raw));
    ScaleFacts(raw, ws, Divisor(raw));
    ws
  }

  /** The facts about dividing non-negative values by their sum, or by 1 when that is 0. */
  lemma ScaleFacts(raw: seq<real>, ws: seq<real>, d: real)
    requires forall i :: 0 <= i < |raw| ==> raw[i] >= 0.0
    requires d == Divisor(raw) && |ws| == |raw|
    requires forall i :: 0 <= i < |raw| ==> ws[i] == raw[i] / d
    ensures forall i :: 0 <= i < |raw| ==> ws[i] * d == raw[i] && 0.0 <= ws[i] <= 1.0
    ensures Sum(raw) == 0.0 ==> forall i :: 0 <= i < |raw| ==> ws[i] == 0.0
    ensures Sum(raw) > 0.0 ==> Sum(ws) == 1.0
  {
    SumNonNegative(raw);
    ScaleEach(raw, ws, d);
    if Sum(raw) > 0.0 {
      SumScaled(raw, ws, d);
      SelfDivision(d);
    }
  }

  lemma ScaleEach(raw: seq<real>, ws: seq<real>, d: real)
    requires forall i :: 0 <= i < |raw| ==> raw[i] >= 0.0
    requires d == Divisor(raw) && |ws| == |raw|
    requires forall i :: 0 <= i < |raw| ==> ws[i] == raw[i] / d
    ensures forall i :: 0 <= i < |raw| ==> ws[i] * d == raw[i] && 0.0 <= ws[i] <= 1.0
  {
    SumNonNegative(raw);
    SumBound(raw);
    assert d > 0.0;
    forall i | 0 <= i < |raw| ensures ws[i] * d == raw[i] && 0.0 <= ws[i] <= 1.0 {
      DivFacts(raw[i], d);
    }
  }

  /** `out[keys[i]] = ws[i]` for the six metric keys. */
  function WeightsObject(ws: seq<real>): (w: map<string, real>)
    requires |ws| == 6
    ensures w.Keys == set k | k in MetricKeys
    ensures forall i :: 0 <= i < 6 ==> Weight(w, MetricKeys[i]) == ws[i]
  {
    map["ghg" := ws[0], "water" := ws[1], "land" := ws[2],
        "biodiversity" := ws[3], "pm" := ws[4], "eutro" := ws[5]]
  }

  /** Each value of a non-negative list is at most the sum. */
  lemma {:induction false} SumBound(xs: seq<real>)
    requires forall i :: 0 <= i < |xs| ==> xs[i] >= 0.0
    ensures forall i :: 0 <= i < |xs| ==> xs[i] <= Sum(xs)
  {
    if |xs| > 0 {
      var n := |xs| - 1;
      SumBound(xs[..n]);
      SumNonNegative(xs[..n]);
      assert forall i :: 0 <= i < n ==> xs[..n][i] == xs[i];
    }
  }

  /** Two sliders keep their ratio in the weights. */
  lemma RenormalizeKeepsRatios(raw: seq<real>, i: int, j: int)
    requires |raw| == 6 && forall k :: 0 <= k < 6 ==> 0.0 <= raw[k] <= 100.0
    requires 0 <= i < 6 && 0 <= j < 6
    ensures var ws := Renormalize(raw);
            ws[i] * raw[j] == ws[j] * raw[i]
  {
    var ws := Renormalize(raw);
    CrossRatio(ws[i], ws[j], Divisor(raw), raw[i], raw[j]);
  }

  lemma CrossRatio(a: real, b: real, d: real, x: real, y: real)
    requires a * d == x && b * d == y
    ensures a * y == b * x
  {
    assert a * y == a * (b * d) == b * (a * d);
  }

  // ---------------------------------------------------------------------------
  // The basket

  /** One basket entry: a GTIN and how many times it was added. */
  datatype Entry = Entry(gtin: string, qty: int)

  /** The basket object, its entries in insertion order. */
  type Basket = seq<Entry>

  /** No GTIN appears twice. */
  predicate WellFormed(b: Basket) {
    forall i, j :: 0 <= i < j < |b| ==> b[i].gtin != b[j].gtin
  }

  /** `basket[gtin] || 0`: the stored count, 0 when absent. */
  function Count(b: Basket, gtin: string): int {
    if |b| == 0 then 0
    else if b[|b| - 1].gtin == gtin then b[|b| - 1].qty
    else Count(b[..|b| - 1], gtin)
  }

  function Gtins(b: Basket): seq<string> {
    seq(|b|, i requires 0 <= i < |b| => b[i].gtin)
  }

  lemma GtinsSnoc(b: Basket, e: Entry)
    ensures Gtins(b + [e]) == Gtins(b) + [e.gtin]
  {
  }

  lemma WellFormedSnoc(b: Basket, e: Entry)
    ensures WellFormed(b + [e]) <==> WellFormed(b) && e.gtin !in Gtins(b)
  {
    var r := b + [e];
    if WellFormed(r) {
      assert forall i, j :: 0 <= i < j < |b| ==> b[i] == r[i] && b[j] == r[j];
      assert forall i :: 0 <= i < |b| ==> Gtins(b)[i] == r[i].gtin != r[|b|].gtin;
    }
    if WellFormed(b) && e.gtin !in Gtins(b) {
      assert forall i :: 0 <= i < |b| ==> Gtins(b)[i] == b[i].gtin;
    }
  }

  lemma CountSnoc(b: Basket, e: Entry, g: string)
    ensures Count(b + [e], g) == if e.gtin == g then e.qty else Count(b, g)
  {
    assert (b + [e])[..|b|] == b;
  }

  lemma {:induction false} CountAbsent(b: Basket, g: string)
    requires g !in Gtins(b)
    ensures Count(b, g) == 0
  {
    if |b| > 0 {
      var init := b[..|b| - 1];
      assert Gtins(b) == Gtins(init) + [b[|b| - 1].gtin];
      CountAbsent(init, g);
    }
  }

  /** `basket[gtin] = (basket[gtin] || 0) + 1`: an entry already present keeps its place,
      a new one goes to the end. */
  function AddToBasket(b: Basket, gtin: string): (r: Basket)
    requires WellFormed(b)
    ensures WellFormed(r)
    ensures Count(r, gtin) == Count(b, gtin) + 1
    ensures forall g :: g != gtin ==> Count(r, g) == Count(b, g)
    ensures gtin in Gtins(b) ==> Gtins(r) == Gtins(b)
    ensures gtin !in Gtins(b) ==> Gtins(r) == Gtins(b) + [gtin]
  {
    if gtin !in Gtins(b) then
      var e := Entry(gtin, 1);
      WellFormedSnoc(b, e);
      GtinsSnoc(b, e);
      CountAbsent(b, gtin);
      forall g ensures Count(b + [e], g) == (if g == gtin then Count(b, g) + 1 else Count(b, g)) {
        CountSnoc(b, e, g);
      }
      b + [e]
    else
      var init, last := b[..|b| - 1], b[|b| - 1];
      assert b == init + [last];
      WellFormedSnoc(init, last);
      GtinsSnoc(init, last);
      if last.gtin == gtin then
        var e := Entry(gtin, last.qty + 1);
        WellFormedSnoc(init, e);
        GtinsSnoc(init, e);
        forall g ensures Count(init + [e], g) == (if g == gtin then Count(b, g) + 1 else Count(b, g)) {
          CountSnoc(init, e, g);
          CountSnoc(init, last, g);
        }
        init + [e]
      else
        assert gtin in Gtins(init);
        var r0 := AddToBasket(init, gtin);
        assert last.gtin !in Gtins(r0);
        WellFormedSnoc(r0, last);
        GtinsSnoc(r0, last);
        forall g ensures Count(r0 + [last], g) == (if g == gtin then Count(b, g) + 1 else Count(b, g)) {
          CountSnoc(r0, last, g);
          CountSnoc(init, last, g);
        }
        r0 + [last]
  }

  /** Adding a product twice counts it twice. */
  lemma AddTwice(b: Basket, gtin: string)
    requires WellFormed(b)
    ensures Count(AddToBasket(AddToBasket(b, gtin), gtin), gtin) == Count(b, gtin) + 2
  {
  }
}

=== FILE: compute.dfy ===
/** The browser-side product scorer: six impacts per unit, each mapped onto an inverted
    0..100 scale between per-category bounds, weighted, rounded, summed with a supplier
    bonus and clamped to 0..100, then graded A to E. The data the scorer reads from its
    context object is passed in explicitly; the current month, used when the context
    carries none, is a parameter. */
module Compute {
  import opened Wrappers
  import opened Text
  import opened JsNumber
  import opened Season

  /** Impacts per unit after `Number(...)`: any of them may be NaN or infinite. */
  datatype Impacts = Impacts(ghg: Num, water: Num, land: Num, pm: Num, eutro: Num, biodiversity: Num)

  datatype Leg = Leg(km: Num, emissionFactor: Num)

  /** A supplier record; an absent cell is the empty string. */
  datatype Supplier = Supplier(certs: string, practices: string)

  datatype NormRange = NormRange(min: real, max: real)

  datatype Norms = Norms(ghg: NormRange, water: NormRange, land: NormRange,
                         biodiversity: NormRange, pm: NormRange, eutro: NormRange)

  /** A product record; an absent field is the empty string. */
  datatype Product = Product(gtin: string, category: string, lcaRefId: string, supplierId: string)

  /** The context object. A `month` of 0 stands for an absent month. */
  datatype Context = Context(
    lcaByRef: map<string, Impacts>,
    seasonTable: seq<SeasonRow>,
    month: int,
    transportsByGtin: map<string, seq<Leg>>,
    suppliersById: map<string, Supplier>,
    norms: map<string, Norms>)

  datatype Contribution = Contribution(key: string, title: string, normalized: Num, weight: real, contribution: Num)

  /** What `computeScore` resolves to: the "No LCA" object (score 0, letter E, empty
      breakdown) or a full report. */
  datatype Report =
    | NoLca
    | Scored(score: Num, letter: char, breakdown: seq<Contribution>, adj: int, sf: real)

  function ScoreOf(r: Report): Num {
    if r.NoLca? then Finite(0.0) else r.score
  }

  function LetterOf(r: Report): char {
    if r.NoLca? then 'E' else r.letter
  }

  const MetricKeys: seq<string> := ["ghg", "water", "land", "biodiversity", "pm", "eutro"]
  const MetricLabels: seq<string> := ["Climat", "Eau", "Sols", "Biodiversité", "Particules", "Eutrophisation"]

  /** The stored weights when none were saved. */
  const DefaultWeights: map<string, real> :=
    map["ghg" := 0.4, "water" := 0.2, "land" := 0.15, "biodiversity" := 0.15, "pm" := 0.05, "eutro" := 0.05]

  /** The demonstration bounds, for the catch-all category and for dairy. */
  const DefaultNorms: map<string, Norms> := map[
    "default" := Norms(NormRange(0.2, 15.0), NormRange(5.0, 4000.0), NormRange(0.1, 20.0),
                       NormRange(0.05, 5.0), NormRange(0.01, 0.5), NormRange(0.01, 0.5)),
    "dairy" := Norms(NormRange(0.2, 5.0), NormRange(5.0, 2000.0), NormRange(0.05, 10.0),
                     NormRange(0.02, 3.0), NormRange(0.005, 0.2), NormRange(0.005, 0.3))]

  // ---------------------------------------------------------------------------
  // Normalisation

  /** A finite integer between 0 and 100. */
  predicate Percent(x: Num) {
    x.Finite? && IsInt(x.v) && 0.0 <= x.v <= 100.0
  }

  /** `minmaxNorm(x, min, max)`: 50 for a degenerate range, otherwise the position of
      `x` in the range, inverted, clamped to [0, 1] and rounded to a whole percentage. */
  function MinmaxNorm(x: Num, min: real, max: real): (r: Num)
    ensures max == min ==> r == Finite(50.0)
    ensures r.NaN? <==> max != min && x.NaN?
    ensures !r.NaN? ==> Percent(r)
    ensures min < max && AtMost(x, Finite(min)) ==> r == Finite(100.0)
    ensures min < max && AtMost(Finite(max), x) ==> r == Finite(0.0)
  {
    if max == min then Finite(50.0)
    else
      var v := DivBy(Sub(x, Finite(min)), max - min);
      var inv := Sub(Finite(1.0), v);
      var bounded := Min(Finite(1.0), Max(Finite(0.0), inv));
      ClampFacts(inv, 0.0, 1.0);
      NormEnds(x, min, max);
      RoundPercent(bounded);
      Round(Mul(bounded, Finite(100.0)))
  }

  /** A clamped fraction scales to a whole percentage. */
  lemma RoundPercent(b: Num)
    requires !b.NaN? ==> b.Finite? && 0.0 <= b.v <= 1.0
    ensures var r := Round(Mul(b, Finite(100.0)));
            && (r.NaN? <==> b.NaN?)
            && (!r.NaN? ==> Percent(r))
            && (b == Finite(0.0) ==> r == Finite(0.0))
            && (b == Finite(1.0) ==> r == Finite(100.0))
  {
    if b.Finite? {
      var r := Round(Mul(b, Finite(100.0)));
      assert 0.0 <= b.v * 100.0 <= 100.0;
      assert -0.5 < r.v <= 100.5;
      var k := r.v.Floor;
      assert k as real == r.v;
      RoundInt(0.0);
      RoundInt(100.0);
    }
  }

  /** At or beyond the ends of a proper range, the inverted position clamps to 1 or 0. */
  lemma NormEnds(x: Num, min: real, max: real)
    requires min != max
    ensures var inv := Sub(Finite(1.0), DivBy(Sub(x, Finite(min)), max - min));
            && (min < max && AtMost(x, Finite(min)) ==> AtMost(Finite(1.0), inv))
            && (min < max && AtMost(Finite(max), x) ==> AtMost(inv, Finite(0.0)))
  {
    if x.Finite? && min < max {
      var d := max - min;
      var q := (x.v - min) / d;
      assert q * d == x.v - min;
      if x.v <= min {
        assert q <= 0.0 by { QuotientSign(x.v - min, d); }
      }
      if max <= x.v {
        assert 1.0 <= q by { QuotientAtLeastOne(x.v - min, d); }
      }
    }
  }

  lemma QuotientSign(p: real, d: real)
    requires d > 0.0 && p <= 0.0
    ensures p / d <= 0.0
  {
  }

  lemma QuotientAtLeastOne(p: real, d: real)
    requires d > 0.0 && d <= p
    ensures 1.0 <= p / d
  {
  }

  lemma QuotientOrder(p: real, q: real, d: real)
    requires d > 0.0 && p <= q
    ensures p / d <= q / d
  {
    assert q / d - p / d == (q - p) / d;
  }

  /** For a proper range the normalised value never increases with the raw impact: a
      lower impact scores at least as well. */
  lemma MinmaxNormAntitone(x: Num, y: Num, min: real, max: real)
    requires min < max && AtMost(x, y)
    ensures MinmaxNorm(y, min, max).v <= MinmaxNorm(x, min, max).v
  {
    if x.Finite? && y.Finite? {
      FiniteAntitone(x.v, y.v, min, max);
    }
  }

  lemma FiniteAntitone(x: real, y: real, min: real, max: real)
    requires min < max && x <= y
    ensures MinmaxNorm(Finite(y), min, max).v <= MinmaxNorm(Finite(x), min, max).v
  {
    InvertedOrdered(x, y, min, max);
    MinmaxNormFinite(x, min, max);
    MinmaxNormFinite(y, min, max);
  }

  lemma InvertedOrdered(x: real, y: real, min: real, max: real)
    requires min < max && x <= y
    ensures Round(Finite(Clamp01(Inverted(y, min, max)) * 100.0)).v <= Round(Finite(Clamp01(Inverted(x, min, max)) * 100.0)).v
  {
    var ix, iy := Inverted(x, min, max), Inverted(y, min, max);
    assert iy <= ix by { QuotientOrder(x - min, y - min, max - min); }
    ClampMonotone(iy, ix, 0.0, 1.0);
    ScaledRoundMonotone(Clamp01(iy), Clamp01(ix));
  }

  lemma ScaledRoundMonotone(a: real, b: real)
    requires a <= b
    ensures Round(Finite(a * 100.0)).v <= Round(Finite(b * 100.0)).v
  {
    RoundMonotone(a * 100.0, b * 100.0);
  }

  /** `Math.min(1, Math.max(0, v))` on a finite value. */
  function Clamp01(v: real): real {
    Min(Finite(1.0), Max(Finite(0.0), Finite(v))).v
  }

  /** `1 - (v - min) / (max - min)` on finite values. */
  function Inverted(x: real, min: real, max: real): real
    requires min != max
  {
    1.0 - (x - min) / (max - min)
  }

  lemma MinmaxNormFinite(x: real, min: real, max: real)
    requires min != max
    ensures MinmaxNorm(Finite(x), min, max) == Round(Finite(Clamp01(Inverted(x, min, max)) * 100.0))
  {
    var q := (x - min) / (max - min);
    var v := DivBy(Sub(Finite(x), Finite(min)), max - min);
    assert v == Finite(q);
    var inv := Sub(Finite(1.0), v);
    assert inv == Finite(Inverted(x, min, max));
    var bounded := Min(Finite(1.0), Max(Finite(0.0), inv));
    assert bounded == Finite(Clamp01(Inverted(x, min, max)));
    assert Mul(bounded, Finite(100.0)) == Finite(Clamp01(Inverted(x, min, max)) * 100.0);
  }

  // ---------------------------------------------------------------------------
  // Raw impacts

  /** The biodiversity impact: `Number(b || 0)`, replaced by the land proxy `land * 0.2`
      only when that is not finite. A NaN impact therefore becomes 0, not the proxy. */
  function BiodiversityValue(imp: Impacts): (b: Num)
    ensures !b.NaN?
    ensures imp.biodiversity.NaN? ==> b == Finite(0.0)
    ensures imp.biodiversity.Finite? ==> b == imp.biodiversity
    ensures IsInfinite(imp.biodiversity) ==> b == Mul(OrZero(imp.land), Finite(0.2))
  {
    var b := OrZero(imp.biodiversity);
    if b.Finite? then b else Mul(OrZero(imp.land), Finite(0.2))
  }

  /** The product of one leg's distance and emission factor, each `|| 0`. */
  function LegEmission(l: Leg): Num {
    Mul(OrZero(l.km), OrZero(l.emissionFactor))
  }

  /** The left fold `legs.reduce((acc, leg) => acc + ..., 0)`. */
  function TransportSum(legs: seq<Leg>): (t: Num)
    ensures |legs| == 0 ==> t == Finite(0.0)
  {
    if |legs| == 0 then Finite(0.0)
    else Add(TransportSum(legs[..|legs| - 1]), LegEmission(legs[|legs| - 1]))
  }

  predicate LegsFinite(legs: seq<Leg>) {
    forall i :: 0 <= i < |legs| ==> legs[i].km.Finite? && legs[i].emissionFactor.Finite?
  }

  function RealValue(x: Num): real {
    if x.Finite? then x.v else 0.0
  }

  /** Distance times emission factor, as reals. */
  function LegProduct(l: Leg): real {
    RealValue(l.km) * RealValue(l.emissionFactor)
  }

  /** The transport emissions as a plain sum of distance times factor. */
  function LegTotal(legs: seq<Leg>): real {
    if |legs| == 0 then 0.0
    else LegTotal(legs[..|legs| - 1]) + LegProduct(legs[|legs| - 1])
  }

  lemma LegEmissionFinite(l: Leg)
    requires l.km.Finite? && l.emissionFactor.Finite?
    ensures LegEmission(l) == Finite(LegProduct(l))
  {
    var a, b := l.km, l.emissionFactor;
    OrZeroFinite(a);
    OrZeroFinite(b);
    assert LegEmission(l) == Mul(a, b);
    MulFinite(a, b);
    assert RealValue(a) == a.v && RealValue(b) == b.v;
    assert LegProduct(l) == a.v * b.v;
  }

  lemma LegsFinitePrefix(legs: seq<Leg>)
    requires LegsFinite(legs) && |legs| > 0
    ensures LegsFinite(legs[..|legs| - 1])
    ensures legs[|legs| - 1].km.Finite? && legs[|legs| - 1].emissionFactor.Finite?
  {
    var init := legs[..|legs| - 1];
    assert forall i :: 0 <= i < |init| ==> init[i] == legs[i];
  }

  lemma AddStep(ts: Num, t: Num, e: Num, s: real, p: real, total: real)
    requires t == Finite(s) && e == Finite(p) && ts == Add(t, e) && total == s + p
    ensures ts == Finite(total)
  {
  }

  /** With finite legs the fold is the ordinary sum of distance times emission factor. */
  lemma {:induction false} TransportSumFinite(legs: seq<Leg>)
    requires LegsFinite(legs)
    ensures TransportSum(legs) == Finite(LegTotal(legs))
  {
    if |legs| > 0 {
      var init, l := legs[..|legs| - 1], legs[|legs| - 1];
      LegsFinitePrefix(legs);
      TransportSumFinite(init);
      LegEmissionFinite(l);
      AddStep(TransportSum(legs), TransportSum(init), LegEmission(l), LegTotal(init), LegProduct(l), LegTotal(legs));
    }
  }

  /** The greenhouse-gas impact with transport added, divided by the season factor. */
  function AdjustedGhg(imp: Impacts, legs: seq<Leg>, sf: real): Num
    requires sf > 0.0
  {
    DivBy(Add(OrZero(imp.ghg), TransportSum(legs)), sf)
  }

  /** With finite inputs, the adjusted impact is `(ghg + sum of km * factor) / sf`. */
  lemma {:induction false} TransportAdds(imp: Impacts, legs: seq<Leg>, sf: real)
    requires sf > 0.0 && imp.ghg.Finite? && LegsFinite(legs)
    ensures AdjustedGhg(imp, legs, sf) == DivBy(Finite(imp.ghg.v + LegTotal(legs)), sf)
  {
    GhgSum(imp, legs);
  }

  /** With finite inputs, the impact plus transport is the plain real sum. */
  lemma GhgSum(imp: Impacts, legs: seq<Leg>)
    requires imp.ghg.Finite? && LegsFinite(legs)
    ensures Add(OrZero(imp.ghg), TransportSum(legs)) == Finite(imp.ghg.v + LegTotal(legs))
  {
    TransportSumFinite(legs);
    OrZeroFinite(imp.ghg);
    AddReal(imp.ghg, LegTotal(legs));
  }

  lemma AddReal(a: Num, x: real)
    requires a.Finite?
    ensures Add(a, Finite(x)) == Finite(a.v + x)
  {
  }

  // ---------------------------------------------------------------------------
  // Category bounds and supplier bonus

  /** `(category || 'General').toLowerCase()`. */
  function CategoryKey(category: string): string {
    if category == "" then "general" else Lower(category)
  }

  /** `ctx.norms[CAT] || ctx.norms['default']`. */
  function NormsFor(norms: map<string, Norms>, category: string): (r: Option<Norms>)
    ensures r.None? <==> CategoryKey(category) !in norms && "default" !in norms
    ensures r.Some? ==> r.value in norms.Values
    ensures CategoryKey(category) in norms ==> r == Some(norms[CategoryKey(category)])
    ensures CategoryKey(category) !in norms && "default" in norms ==> r == Some(norms["default"])
  {
    var key := CategoryKey(category);
    if key in norms then Some(norms[key])
    else if "default" in norms then Some(norms["default"])
    else None
  }

  /** Under the demonstration bounds, every category other than dairy (in any case) and
      the catch-all key itself falls back to the catch-all bounds. */
  lemma UnknownCategoryUsesDefault(category: string)
    requires CategoryKey(category) != "dairy" && CategoryKey(category) != "default"
    ensures NormsFor(DefaultNorms, category) == Some(DefaultNorms["default"])
  {
  }

  predicate OrganicCert(s: Supplier) {
    Contains(Upper(s.certs), "AB") || Contains(Upper(s.certs), "BIO")
  }

  predicate FairTradeCert(s: Supplier) {
    Contains(Upper(s.certs), "FAIR") || Contains(Upper(s.certs), "EQ")
  }

  predicate Agroecology(s: Supplier) {
    Contains(Lower(s.practices), "agroecology")
  }

  /** The supplier bonus: 3 for an organic certificate, 2 for a fair-trade one and 2
      for agroecological practice, the two certificate tests each being a disjunction. */
  function SupplierAdjustment(sup: Option<Supplier>): (adj: int)
    ensures 0 <= adj <= 7
    ensures adj == 0 <==> sup.None? || (!OrganicCert(sup.value) && !FairTradeCert(sup.value) && !Agroecology(sup.value))
    ensures adj == 7 <==> sup.Some? && OrganicCert(sup.value) && FairTradeCert(sup.value) && Agroecology(sup.value)
    ensures adj % 2 == 1 <==> sup.Some? && OrganicCert(sup.value)
  {
    match sup
    case None => 0
    case Some(s) =>
      (if OrganicCert(s) then 3 else 0) + (if FairTradeCert(s) then 2 else 0) + (if Agroecology(s) then 2 else 0)
  }

  // ---------------------------------------------------------------------------
  // Contributions, total and letter

  /** `Number(weights[k] || 0)`. */
  function Weight(weights: map<string, real>, k: string): real {
    if k in weights then weights[k] else 0.0
  }

  /** The six bounds, in the fixed metric order. */
  function Ranges(norms: Norms): seq<NormRange> {
    [norms.ghg, norms.water, norms.land, norms.biodiversity, norms.pm, norms.eutro]
  }

  /** Each of the six values normalised against its own metric's bounds. */
  function Normalized(vals: seq<Num>, norms: Norms): (n: seq<Num>)
    requires |vals| == 6
    ensures |n| == 6
  {
    seq(6, i requires 0 <= i < 6 => MinmaxNorm(vals[i], Ranges(norms)[i].min, Ranges(norms)[i].max))
  }

  /** The six breakdown entries, in the fixed key order, each contributing its
      normalised value times its weight, rounded. */
  function Breakdown(n: seq<Num>, weights: map<string, real>): (b: seq<Contribution>)
    requires |n| == 6
    requires forall i :: 0 <= i < 6 ==> n[i].Finite? || n[i].NaN?
    ensures |b| == 6
    ensures forall i :: 0 <= i < 6 ==>
              && b[i].key == MetricKeys[i] && b[i].title == MetricLabels[i]
              && b[i].normalized == n[i] && b[i].weight == Weight(weights, MetricKeys[i])
    ensures forall i :: 0 <= i < 6 ==> (b[i].contribution.NaN? <==> n[i].NaN?)
    ensures forall i :: 0 <= i < 6 ==> (n[i].Finite? ==> b[i].contribution.Finite?)
    ensures forall i :: 0 <= i < 6 && n[i].Finite? ==>
              var x := n[i].v * Weight(weights, MetricKeys[i]);
              IsInt(b[i].contribution.v) && x - 0.5 < b[i].contribution.v <= x + 0.5
  {
    seq(6, i requires 0 <= i < 6 =>
      var w := Weight(weights, MetricKeys[i]);
      Contribution(MetricKeys[i], MetricLabels[i], n[i], w, Round(Mul(n[i], Finite(w)))))
  }

  /** `contributions.reduce((a, c) => a + c.contribution, 0)`. */
  function ContributionSum(b: seq<Contribution>): Num {
    if |b| == 0 then Finite(0.0)
    else Add(ContributionSum(b[..|b| - 1]), b[|b| - 1].contribution)
  }

  /** The contributions added up as plain reals, a non-finite one counting 0. */
  function ContributionTotal(b: seq<Contribution>): real {
    if |b| == 0 then 0.0 else ContributionTotal(b[..|b| - 1]) + RealValue(b[|b| - 1].contribution)
  }

  /** Whole contributions add up to a whole, finite total. */
  lemma {:induction false} ContributionSumWhole(b: seq<Contribution>)
    requires forall i :: 0 <= i < |b| ==> b[i].contribution.Finite? && IsInt(b[i].contribution.v)
    ensures ContributionSum(b) == Finite(ContributionTotal(b)) && IsInt(ContributionTotal(b))
  {
    if |b| > 0 {
      var init, c := b[..|b| - 1], b[|b| - 1].contribution;
      assert forall i :: 0 <= i < |init| ==> init[i] == b[i];
      ContributionSumWhole(init);
      var t := ContributionTotal(init);
      AddFinite(Finite(t), c);
      IntShift(t, c.v.Floor);
      assert c.v.Floor as real == c.v;
    }
  }

  /** A score that is a number is the sum of the contributions plus the bonus, clamped
      to [0, 100]. */
  lemma ScoreFromContributions(b: seq<Contribution>, adj: int)
    requires forall i :: 0 <= i < |b| ==> b[i].contribution.NaN? || (b[i].contribution.Finite? && IsInt(b[i].contribution.v))
    ensures !FinalScore(ContributionSum(b), adj).NaN? ==>
              FinalScore(ContributionSum(b), adj) == Finite(Clamp100(ContributionTotal(b) + adj as real))
  {
    ContributionSumNaN(b);
    if !ContributionSum(b).NaN? {
      ContributionSumWhole(b);
    }
  }

  /** With finite or NaN contributions, the sum is NaN exactly when one of them is, and
      finite otherwise. */
  lemma {:induction false} ContributionSumNaN(b: seq<Contribution>)
    requires forall i :: 0 <= i < |b| ==> b[i].contribution.Finite? || b[i].contribution.NaN?
    ensures ContributionSum(b).NaN? <==> exists i :: 0 <= i < |b| && b[i].contribution.NaN?
    ensures !ContributionSum(b).NaN? ==> ContributionSum(b).Finite?
  {
    if |b| > 0 {
      var init := b[..|b| - 1];
      assert forall i :: 0 <= i < |init| ==> init[i] == b[i];
      ContributionSumNaN(init);
      if ContributionSum(init).NaN? {
        var i :| 0 <= i < |init| && init[i].contribution.NaN?;
        assert b[i].contribution.NaN?;
      }
    }
  }

  /** `x` clamped to [0, 100], on reals. */
  function Clamp100(x: real): (c: real)
    ensures 0.0 <= c <= 100.0
    ensures 0.0 <= x <= 100.0 ==> c == x
    ensures x < 0.0 ==> c == 0.0
    ensures x > 100.0 ==> c == 100.0
  {
    if x < 0.0 then 0.0 else if x > 100.0 then 100.0 else x
  }

  /** `Math.max(0, Math.min(100, Math.round(total + adj)))`: the total plus the bonus,
      clamped to [0, 100] and off by at most one half from rounding, which a whole
      total does not need. */
  function FinalScore(total: Num, adj: int): (s: Num)
    ensures s.NaN? <==> total.NaN?
    ensures !s.NaN? ==> Percent(s)
    ensures total.Finite? ==> Clamp100(total.v + adj as real) - 0.5 <= s.v <= Clamp100(total.v + adj as real) + 0.5
    ensures total.Finite? && IsInt(total.v) ==> s == Finite(Clamp100(total.v + adj as real))
    ensures total.PosInf? ==> s == Finite(100.0)
    ensures total.NegInf? ==> s == Finite(0.0)
  {
    var rounded := Round(Add(total, Finite(adj as real)));
    ClampFacts(rounded, 0.0, 100.0);
    var s := Max(Finite(0.0), Min(Finite(100.0), rounded));
    assert s == Min(Finite(100.0), Max(Finite(0.0), rounded)) by {
      if rounded.Finite? && rounded.v < 0.0 {
        assert s == Finite(0.0);
      }
    }
    if total.Finite? then
      assert rounded == Round(Finite(total.v + adj as real));
      ClampOfRound(total.v, adj);
      s
    else s
  }

  /** Rounding moves a value by at most one half and leaves a whole one alone; the
      clamp keeps that bound. */
  lemma ClampOfRound(t: real, adj: int)
    ensures var x := t + adj as real;
            var r := Round(Finite(x)).v;
            && Clamp100(x) - 0.5 <= Clamp100(r) <= Clamp100(x) + 0.5
            && (IsInt(t) ==> r == x)
  {
    var x := t + adj as real;
    if IsInt(t) {
      IntShift(t, adj);
      RoundInt(x);
    }
  }

  /** A whole number plus an integer is whole. */
  lemma IntShift(t: real, k: int)
    requires IsInt(t)
    ensures IsInt(t + k as real)
  {
    FloorUnique(t + k as real, t.Floor + k);
  }

  /** A higher total never gives a lower final score. */
  lemma FinalScoreMonotone(t: real, u: real, adj: int)
    requires t <= u
    ensures FinalScore(Finite(t), adj).v <= FinalScore(Finite(u), adj).v
  {
    var x, y := t + adj as real, u + adj as real;
    AddFinite(Finite(t), Finite(adj as real));
    AddFinite(Finite(u), Finite(adj as real));
    RoundMonotone(x, y);
    ClampMonotone(Round(Finite(x)).v, Round(Finite(y)).v, 0.0, 100.0);
  }

  /** The letter ladder 90 / 75 / 60 / 45; NaN fails every test and gets E. */
  function Letter(s: Num): (c: char)
    ensures c in "ABCDE"
    ensures s.NaN? || s.NegInf? ==> c == 'E'
    ensures s.PosInf? ==> c == 'A'
    ensures s.Finite? ==> (c == 'A' <==> s.v >= 90.0)
    ensures s.Finite? ==> (c <= 'B' <==> s.v >= 75.0)
    ensures s.Finite? ==> (c <= 'C' <==> s.v >= 60.0)
    ensures s.Finite? ==> (c <= 'D' <==> s.v >= 45.0)
  {
    if AtLeastReal(s, 90.0) then 'A'
    else if AtLeastReal(s, 75.0) then 'B'
    else if AtLeastReal(s, 60.0) then 'C'
    else if AtLeastReal(s, 45.0) then 'D'
    else 'E'
  }

  /** A higher score never gets a worse letter. */
  lemma LetterMonotone(s: real, t: real)
    requires s <= t
    ensures Letter(Finite(t)) <= Letter(Finite(s))
  {
  }

  // ---------------------------------------------------------------------------
  // The whole computation

  function LegsOf(ctx: Context, p: Product): seq<Leg> {
    if p.gtin in ctx.transportsByGtin then ctx.transportsByGtin[p.gtin] else []
  }

  function SupplierOf(ctx: Context, p: Product): Option<Supplier> {
    if p.supplierId in ctx.suppliersById then Some(ctx.suppliersById[p.supplierId]) else None
  }

  /** `ctx.month || now`. */
  function MonthOf(ctx: Context, clockMonth: int): int {
    if ctx.month != 0 then ctx.month else clockMonth
  }

  /** The normalised values of a product with the given impacts, legs, season factor
      and bounds. Only the first, greenhouse-gas entry can be NaN. */
  function ProductNorms(imp: Impacts, legs: seq<Leg>, sf: real, norms: Norms): (n: seq<Num>)
    requires sf > 0.0
    ensures |n| == 6
    ensures n[0].NaN? <==> AdjustedGhg(imp, legs, sf).NaN? && norms.ghg.min != norms.ghg.max
    ensures forall i :: 0 <= i < 6 ==> (n[i].Finite? || n[i].NaN?)
    ensures forall i :: 1 <= i < 6 ==> n[i].Finite?
    ensures n[0] == MinmaxNorm(AdjustedGhg(imp, legs, sf), norms.ghg.min, norms.ghg.max)
    ensures n[1] == MinmaxNorm(OrZero(imp.water), norms.water.min, norms.water.max)
    ensures n[2] == MinmaxNorm(OrZero(imp.land), norms.land.min, norms.land.max)
    ensures n[3] == MinmaxNorm(BiodiversityValue(imp), norms.biodiversity.min, norms.biodiversity.max)
    ensures n[4] == MinmaxNorm(OrZero(imp.pm), norms.pm.min, norms.pm.max)
    ensures n[5] == MinmaxNorm(OrZero(imp.eutro), norms.eutro.min, norms.eutro.max)
  {
    var vals := ImpactValues(imp, legs, sf);
    assert !vals[1].NaN? && !vals[2].NaN? && !vals[3].NaN? && !vals[4].NaN? && !vals[5].NaN?;
    NormalizedFacts(vals, norms);
    Normalized(vals, norms)
  }

  /** The six raw values in the fixed metric order: the adjusted greenhouse-gas impact,
      then water, land, biodiversity, particulate matter and eutrophication. */
  function ImpactValues(imp: Impacts, legs: seq<Leg>, sf: real): seq<Num>
    requires sf > 0.0
  {
    [AdjustedGhg(imp, legs, sf), OrZero(imp.water), OrZero(imp.land), BiodiversityValue(imp),
     OrZero(imp.pm), OrZero(imp.eutro)]
  }

  /** Only a NaN value makes its normalised value NaN. */
  lemma NormalizedFacts(vals: seq<Num>, norms: Norms)
    requires |vals| == 6 && forall i :: 1 <= i < 6 ==> !vals[i].NaN?
    ensures var n := Normalized(vals, norms);
            && (n[0].NaN? <==> vals[0].NaN? && norms.ghg.min != norms.ghg.max)
            && (forall i :: 0 <= i < 6 ==> (n[i].Finite? || n[i].NaN?))
            && (forall i :: 1 <= i < 6 ==> n[i].Finite?)
  {
    var n := Normalized(vals, norms);
    forall i | 0 <= i < 6 ensures n[i].Finite? || n[i].NaN? {
      if !vals[i].NaN? {
        MinmaxNormNotNaN(vals[i], Ranges(norms)[i].min, Ranges(norms)[i].max);
      }
    }
  }

  lemma MinmaxNormNotNaN(x: Num, min: real, max: real)
    requires !x.NaN?
    ensures MinmaxNorm(x, min, max).Finite?
  {
  }

  /** `computeScore(product, ctx)` with the stored weights as a parameter. A missing
      LCA entry gives the "No LCA" report; a season row without a category, or no
      bounds for the category and no catch-all bounds, raises. */
  function ComputeScore(p: Product, ctx: Context, weights: map<string, real>, clockMonth: int): (r: Result<Report, JsError>)
    ensures p.lcaRefId !in ctx.lcaByRef ==> r == Ok(NoLca)
    ensures r.Err? <==> p.lcaRefId in ctx.lcaByRef
                        && (HasUndefinedCategory(ctx.seasonTable) || NormsFor(ctx.norms, p.category).None?)
    ensures r.Ok? && p.lcaRefId in ctx.lcaByRef ==> r.value.Scored?
    ensures r.Ok? && r.value.Scored? ==>
              && Ok(r.value.sf) == SeasonFactor(p.category, MonthOf(ctx, clockMonth), ctx.seasonTable)
              && 0.1 <= r.value.sf <= 1.0
              && 0 <= r.value.adj <= 7
              && r.value.adj == SupplierAdjustment(SupplierOf(ctx, p))
              && WellScored(r.value, weights)
              && p.lcaRefId in ctx.lcaByRef && NormsFor(ctx.norms, p.category).Some?
              && r.value.breakdown == Breakdown(ProductNorms(ctx.lcaByRef[p.lcaRefId], LegsOf(ctx, p), r.value.sf,
                                                            NormsFor(ctx.norms, p.category).value), weights)
  {
    if p.lcaRefId !in ctx.lcaByRef then Ok(NoLca)
    else
      var imp := ctx.lcaByRef[p.lcaRefId];
      var sf := SeasonFactor(p.category, MonthOf(ctx, clockMonth), ctx.seasonTable);
      if sf.Err? then Err(sf.error)
      else
        var norms := NormsFor(ctx.norms, p.category);
        if norms.None? then Err(TypeError("Cannot read properties of undefined (reading 'ghg')"))
        else
          Ok(ScoreReport(imp, LegsOf(ctx, p), sf.value, norms.value, weights, SupplierAdjustment(SupplierOf(ctx, p))))
  }

  /** A full report is consistent: six contributions in the fixed key order, each with
      its stored weight; a score that is NaN or a whole number in [0, 100], obtained from
      the contributions and the bonus, which as a number is their sum plus the bonus
      clamped to [0, 100]; and the letter of that score. */
  predicate WellScored(rep: Report, weights: map<string, real>) {
    && rep.Scored?
    && |rep.breakdown| == 6
    && (forall i :: 0 <= i < 6 ==> rep.breakdown[i].key == MetricKeys[i])
    && (forall i :: 0 <= i < 6 ==> rep.breakdown[i].weight == Weight(weights, MetricKeys[i]))
    && (rep.score.NaN? || Percent(rep.score))
    && rep.score == FinalScore(ContributionSum(rep.breakdown), rep.adj)
    && (!rep.score.NaN? ==> rep.score == Finite(Clamp100(ContributionTotal(rep.breakdown) + rep.adj as real)))
    && rep.letter == Letter(rep.score)
  }

  /** The report once the lookups have succeeded: the six contributions, the score
      they and the bonus give, and its letter. */
  function ScoreReport(imp: Impacts, legs: seq<Leg>, sf: real, norms: Norms, weights: map<string, real>, adj: int): (rep: Report)
    requires sf > 0.0
    ensures rep.Scored? && rep.sf == sf && rep.adj == adj
    ensures WellScored(rep, weights)
    ensures rep.breakdown == Breakdown(ProductNorms(imp, legs, sf, norms), weights)
  {
    var n := ProductNorms(imp, legs, sf, norms);
    var b := Breakdown(n, weights);
    var score := FinalScore(ContributionSum(b), adj);
    BreakdownScored(n, weights, adj, sf);
    Scored(score, Letter(score), b, adj, sf)
  }

  /** The breakdown of finite or NaN normalised values, its score and its letter make a
      consistent report. */
  lemma BreakdownScored(n: seq<Num>, weights: map<string, real>, adj: int, sf: real)
    requires |n| == 6 && forall i :: 0 <= i < 6 ==> n[i].Finite? || n[i].NaN?
    ensures var b := Breakdown(n, weights);
            var score := FinalScore(ContributionSum(b), adj);
            WellScored(Scored(score, Letter(score), b, adj, sf), weights)
  {
    var b := Breakdown(n, weights);
    assert forall i :: 0 <= i < |b| ==> b[i].contribution.NaN? || (b[i].contribution.Finite? && IsInt(b[i].contribution.v));
    ScoreFromContributions(b, adj);
  }

  // ---------------------------------------------------------------------------
  // Monotonicity: a product no better on any metric never scores higher

  /** Every impact of `a` and `b` is finite and each impact of `a` is at most the same
      impact of `b`: `b` is no better than `a` on any metric. */
  predicate ImpactsAtMost(a: Impacts, b: Impacts) {
    && a.ghg.Finite? && b.ghg.Finite? && a.ghg.v <= b.ghg.v
    && a.water.Finite? && b.water.Finite? && a.water.v <= b.water.v
    && a.land.Finite? && b.land.Finite? && a.land.v <= b.land.v
    && a.biodiversity.Finite? && b.biodiversity.Finite? && a.biodiversity.v <= b.biodiversity.v
    && a.pm.Finite? && b.pm.Finite? && a.pm.v <= b.pm.v
    && a.eutro.Finite? && b.eutro.Finite? && a.eutro.v <= b.eutro.v
  }

  /** No range is reversed (a degenerate one is allowed). */
  predicate OrderedRanges(norms: Norms) {
    forall i :: 0 <= i < 6 ==> Ranges(norms)[i].min <= Ranges(norms)[i].max
  }

  predicate NonNegativeWeights(weights: map<string, real>) {
    forall i :: 0 <= i < 6 ==> Weight(weights, MetricKeys[i]) >= 0.0
  }

  /** Under a range that is not reversed, a finite impact normalises to a finite value
      that does not increase with the impact. */
  lemma NormOrdered(x: Num, y: Num, r: NormRange)
    requires x.Finite? && y.Finite? && x.v <= y.v && r.min <= r.max
    ensures MinmaxNorm(x, r.min, r.max).Finite? && MinmaxNorm(y, r.min, r.max).Finite?
    ensures MinmaxNorm(y, r.min, r.max).v <= MinmaxNorm(x, r.min, r.max).v
  {
    if r.min < r.max {
      MinmaxNormAntitone(x, y, r.min, r.max);
    }
  }

  /** A greenhouse-gas impact that is no higher, with the same legs and season factor,
      stays no higher once transport is added and the season factor applied. */
  lemma AdjustedGhgOrdered(a: Impacts, b: Impacts, legs: seq<Leg>, sf: real)
    requires sf > 0.0 && LegsFinite(legs)
    requires a.ghg.Finite? && b.ghg.Finite? && a.ghg.v <= b.ghg.v
    ensures AdjustedGhg(a, legs, sf).Finite? && AdjustedGhg(b, legs, sf).Finite?
    ensures AdjustedGhg(a, legs, sf).v <= AdjustedGhg(b, legs, sf).v
  {
    TransportSumFinite(legs);
    OrZeroFinite(a.ghg);
    OrZeroFinite(b.ghg);
    var t := TransportSum(legs);
    DivByOrdered(Add(OrZero(a.ghg), t), Add(OrZero(b.ghg), t), sf);
  }

  lemma DivByOrdered(x: Num, y: Num, d: real)
    requires d > 0.0 && x.Finite? && y.Finite? && x.v <= y.v
    ensures DivBy(x, d).Finite? && DivBy(y, d).Finite? && DivBy(x, d).v <= DivBy(y, d).v
  {
    DivValue(x.v, d);
    DivValue(y.v, d);
    QuotientOrder(x.v, y.v, d);
  }

  lemma DivValue(x: real, d: real)
    requires d > 0.0
    ensures DivBy(Finite(x), d).Finite? && DivBy(Finite(x), d).v == x / d
  {
    assert DivBy(Finite(x), d) == Finite(x / d);
  }

  /** Entry by entry, the raw values of a product no better on any metric are finite
      and no lower. */
  lemma ImpactValuesOrdered(a: Impacts, b: Impacts, legs: seq<Leg>, sf: real)
    requires sf > 0.0 && LegsFinite(legs) && ImpactsAtMost(a, b)
    ensures var va, vb := ImpactValues(a, legs, sf), ImpactValues(b, legs, sf);
            forall i :: 0 <= i < 6 ==> va[i].Finite? && vb[i].Finite? && va[i].v <= vb[i].v
  {
    var va, vb := ImpactValues(a, legs, sf), ImpactValues(b, legs, sf);
    AdjustedGhgOrdered(a, b, legs, sf);
    OtherValuesOrdered(a, b);
    SixOrdered(va, vb);
  }

  /** The five impacts other than greenhouse gas pass through unchanged when finite. */
  lemma OtherValuesOrdered(a: Impacts, b: Impacts)
    requires ImpactsAtMost(a, b)
    ensures OrZero(a.water) == a.water && OrZero(b.water) == b.water
    ensures OrZero(a.land) == a.land && OrZero(b.land) == b.land
    ensures BiodiversityValue(a) == a.biodiversity && BiodiversityValue(b) == b.biodiversity
    ensures OrZero(a.pm) == a.pm && OrZero(b.pm) == b.pm
    ensures OrZero(a.eutro) == a.eutro && OrZero(b.eutro) == b.eutro
  {
    BiodiversityFinite(a);
    BiodiversityFinite(b);
    OrZeroFinite(a.water); OrZeroFinite(a.land); OrZeroFinite(a.pm); OrZeroFinite(a.eutro);
    OrZeroFinite(b.water); OrZeroFinite(b.land); OrZeroFinite(b.pm); OrZeroFinite(b.eutro);
  }

  /** Six finite values no higher than six others, spelled out entry by entry, are so
      for every index. */
  lemma SixOrdered(va: seq<Num>, vb: seq<Num>)
    requires |va| == 6 && |vb| == 6
    requires va[0].Finite? && vb[0].Finite? && va[0].v <= vb[0].v
    requires va[1].Finite? && vb[1].Finite? && va[1].v <= vb[1].v
    requires va[2].Finite? && vb[2].Finite? && va[2].v <= vb[2].v
    requires va[3].Finite? && vb[3].Finite? && va[3].v <= vb[3].v
    requires va[4].Finite? && vb[4].Finite? && va[4].v <= vb[4].v
    requires va[5].Finite? && vb[5].Finite? && va[5].v <= vb[5].v
    ensures forall i :: 0 <= i < 6 ==> va[i].Finite? && vb[i].Finite? && va[i].v <= vb[i].v
  {
    forall i | 0 <= i < 6
      ensures va[i].Finite? && vb[i].Finite? && va[i].v <= vb[i].v
    {
      if i == 0 {
      } else if i == 1 {
      } else if i == 2 {
      } else if i == 3 {
      } else if i == 4 {
      } else {
      }
    }
  }

  /** Under ranges that are not reversed, finite values that are no lower normalise to
      finite values that are no higher. */
  lemma NormalizedAntitone(va: seq<Num>, vb: seq<Num>, norms: Norms)
    requires |va| == 6 && |vb| == 6 && OrderedRanges(norms)
    requires forall i :: 0 <= i < 6 ==> va[i].Finite? && vb[i].Finite? && va[i].v <= vb[i].v
    ensures var na, nb := Normalized(va, norms), Normalized(vb, norms);
            forall i :: 0 <= i < 6 ==> na[i].Finite? && nb[i].Finite? && nb[i].v <= na[i].v
  {
    forall i | 0 <= i < 6
      ensures var na, nb := Normalized(va, norms), Normalized(vb, norms);
              na[i].Finite? && nb[i].Finite? && nb[i].v <= na[i].v
    {
      NormOrdered(va[i], vb[i], Ranges(norms)[i]);
    }
  }

  /** Entry by entry, the normalised values of a product no better on any metric are
      finite and no higher. */
  lemma ProductNormsAntitone(a: Impacts, b: Impacts, legs: seq<Leg>, sf: real, norms: Norms)
    requires sf > 0.0 && LegsFinite(legs) && ImpactsAtMost(a, b) && OrderedRanges(norms)
    ensures var na, nb := ProductNorms(a, legs, sf, norms), ProductNorms(b, legs, sf, norms);
            forall i :: 0 <= i < 6 ==> na[i].Finite? && nb[i].Finite? && nb[i].v <= na[i].v
  {
    ImpactValuesOrdered(a, b, legs, sf);
    NormalizedAntitone(ImpactValues(a, legs, sf), ImpactValues(b, legs, sf), norms);
  }

  /** With non-negative weights, lower finite normalised values give whole contributions
      that are no higher, entry by entry. */
  lemma BreakdownAntitone(na: seq<Num>, nb: seq<Num>, weights: map<string, real>)
    requires |na| == 6 && |nb| == 6 && NonNegativeWeights(weights)
    requires forall i :: 0 <= i < 6 ==> na[i].Finite? && nb[i].Finite? && nb[i].v <= na[i].v
    ensures var ba, bb := Breakdown(na, weights), Breakdown(nb, weights);
            && (forall i :: 0 <= i < 6 ==> ba[i].contribution.Finite? && IsInt(ba[i].contribution.v))
            && (forall i :: 0 <= i < 6 ==> bb[i].contribution.Finite? && IsInt(bb[i].contribution.v))
            && (forall i :: 0 <= i < 6 ==> bb[i].contribution.v <= ba[i].contribution.v)
  {
    var ba, bb := Breakdown(na, weights), Breakdown(nb, weights);
    forall i | 0 <= i < 6
      ensures bb[i].contribution.v <= ba[i].contribution.v
    {
      var w := Weight(weights, MetricKeys[i]);
      assert ba[i].contribution == Round(Mul(na[i], Finite(w)));
      assert bb[i].contribution == Round(Mul(nb[i], Finite(w)));
      ContributionOrdered(nb[i], na[i], w);
    }
  }

  /** A lower finite value times the same non-negative weight rounds no higher. */
  lemma ContributionOrdered(x: Num, y: Num, w: real)
    requires x.Finite? && y.Finite? && x.v <= y.v && w >= 0.0
    ensures Round(Mul(x, Finite(w))).v <= Round(Mul(y, Finite(w))).v
  {
    var p, q := x.v * w, y.v * w;
    ScaledOrder(x.v, y.v, w);
    MulWeight(x, w);
    MulWeight(y, w);
    RoundMonotone(p, q);
  }

  lemma MulWeight(x: Num, w: real)
    requires x.Finite?
    ensures Mul(x, Finite(w)) == Finite(x.v * w)
  {
  }

  lemma ScaledOrder(x: real, y: real, w: real)
    requires x <= y && w >= 0.0
    ensures x * w <= y * w
  {
  }

  /** Contributions that are no higher entry by entry add up to a total that is no higher. */
  lemma {:induction false} TotalAntitone(ba: seq<Contribution>, bb: seq<Contribution>)
    requires |ba| == |bb|
    requires forall i :: 0 <= i < |ba| ==> RealValue(bb[i].contribution) <= RealValue(ba[i].contribution)
    ensures ContributionTotal(bb) <= ContributionTotal(ba)
  {
    if |ba| > 0 {
      var n := |ba| - 1;
      TotalAntitone(ba[..n], bb[..n]);
    }
  }

  /** The partner of `ScoreReport`: with bounds that are not reversed and weights that
      are not negative, a product no better on any metric (same legs, season factor and
      bonus) gets a whole-number score that is no higher and a letter that is no better. */
  lemma ScoreReportAntitone(a: Impacts, b: Impacts, legs: seq<Leg>, sf: real, norms: Norms,
                            weights: map<string, real>, adj: int)
    requires sf > 0.0 && LegsFinite(legs) && ImpactsAtMost(a, b)
    requires OrderedRanges(norms) && NonNegativeWeights(weights)
    ensures var ra, rb := ScoreReport(a, legs, sf, norms, weights, adj), ScoreReport(b, legs, sf, norms, weights, adj);
            && Percent(ra.score) && Percent(rb.score)
            && rb.score.v <= ra.score.v
            && ra.letter <= rb.letter
  {
    ProductNormsAntitone(a, b, legs, sf, norms);
    ScoresAntitone(ProductNorms(a, legs, sf, norms), ProductNorms(b, legs, sf, norms), weights, adj);
  }

  /** Normalised values that are finite and no higher, entry by entry, give a score that
      is no higher and a letter that is no better. */
  lemma ScoresAntitone(na: seq<Num>, nb: seq<Num>, weights: map<string, real>, adj: int)
    requires |na| == 6 && |nb| == 6 && NonNegativeWeights(weights)
    requires forall i :: 0 <= i < 6 ==> na[i].Finite? && nb[i].Finite? && nb[i].v <= na[i].v
    ensures var sa := FinalScore(ContributionSum(Breakdown(na, weights)), adj);
            var sb := FinalScore(ContributionSum(Breakdown(nb, weights)), adj);
            Percent(sa) && Percent(sb) && sb.v <= sa.v && Letter(sa) <= Letter(sb)
  {
    var ba, bb := Breakdown(na, weights), Breakdown(nb, weights);
    BreakdownAntitone(na, nb, weights);
    ContributionSumWhole(ba);
    ContributionSumWhole(bb);
    TotalAntitone(ba, bb);
    var ta, tb := ContributionTotal(ba), ContributionTotal(bb);
    FinalScoreMonotone(tb, ta, adj);
    var sa, sb := FinalScore(Finite(ta), adj), FinalScore(Finite(tb), adj);
    LetterMonotone(sb.v, sa.v);
  }

  /** The same for the whole computation: two scorable products of the same category,
      legs and supplier, the second no better than the first on any metric. */
  lemma ComputeScoreAntitone(p: Product, q: Product, ctx: Context, weights: map<string, real>, clockMonth: int)
    requires Scorable(p, ctx) && Scorable(q, ctx)
    requires p.category == q.category && LegsOf(ctx, p) == LegsOf(ctx, q) && SupplierOf(ctx, p) == SupplierOf(ctx, q)
    requires LegsFinite(LegsOf(ctx, p)) && ImpactsAtMost(ctx.lcaByRef[p.lcaRefId], ctx.lcaByRef[q.lcaRefId])
    requires OrderedRanges(NormsFor(ctx.norms, p.category).value) && NonNegativeWeights(weights)
    ensures var rp, rq := ComputeScore(p, ctx, weights, clockMonth), ComputeScore(q, ctx, weights, clockMonth);
            && rp.Ok? && rp.value.Scored? && rq.Ok? && rq.value.Scored?
            && Percent(rp.value.score) && Percent(rq.value.score)
            && rq.value.score.v <= rp.value.score.v
            && rp.value.letter <= rq.value.letter
  {
    var sf := SeasonFactor(p.category, MonthOf(ctx, clockMonth), ctx.seasonTable);
    assert sf.Ok? && sf.value > 0.0 by {
      assert ComputeScore(p, ctx, weights, clockMonth).Ok?;
    }
    ScoreReportAntitone(ctx.lcaByRef[p.lcaRefId], ctx.lcaByRef[q.lcaRefId], LegsOf(ctx, p), sf.value,
                        NormsFor(ctx.norms, p.category).value, weights, SupplierAdjustment(SupplierOf(ctx, p)));
  }

  /** The product has an LCA entry, every season row has a category, and bounds apply
      to its category: exactly the case in which scoring yields a score. */
  predicate Scorable(p: Product, ctx: Context) {
    && p.lcaRefId in ctx.lcaByRef
    && !HasUndefinedCategory(ctx.seasonTable)
    && NormsFor(ctx.norms, p.category).Some?
  }

  /** The score is NaN (and the letter E) exactly when the adjusted greenhouse-gas
      impact is NaN and its range is proper; every other impact is made finite or
      non-NaN before normalisation. */
  lemma ScoreNaNExactly(p: Product, ctx: Context, weights: map<string, real>, clockMonth: int)
    requires Scorable(p, ctx)
    ensures var r := ComputeScore(p, ctx, weights, clockMonth).value;
            var norms := NormsFor(ctx.norms, p.category).value;
            (r.score.NaN? <==> AdjustedGhg(ctx.lcaByRef[p.lcaRefId], LegsOf(ctx, p), r.sf).NaN? && norms.ghg.min != norms.ghg.max)
  {
    var sf := SeasonFactor(p.category, MonthOf(ctx, clockMonth), ctx.seasonTable).value;
    PipelineNaN(ctx.lcaByRef[p.lcaRefId], LegsOf(ctx, p), sf, NormsFor(ctx.norms, p.category).value,
                weights, SupplierAdjustment(SupplierOf(ctx, p)));
  }

  /** The scoring steps after the lookups: only the greenhouse-gas term can be NaN. */
  lemma PipelineNaN(imp: Impacts, legs: seq<Leg>, sf: real, norms: Norms, weights: map<string, real>, adj: int)
    requires sf > 0.0
    ensures var b := Breakdown(ProductNorms(imp, legs, sf, norms), weights);
            FinalScore(ContributionSum(b), adj).NaN? <==> AdjustedGhg(imp, legs, sf).NaN? && norms.ghg.min != norms.ghg.max
  {
    var n := ProductNorms(imp, legs, sf, norms);
    var b := Breakdown(n, weights);
    ContributionSumNaN(b);
    if ContributionSum(b).NaN? {
      var i :| 0 <= i < |b| && b[i].contribution.NaN?;
      assert i == 0;
    } else {
      assert !b[0].contribution.NaN?;
    }
  }

  /** Finite impacts and legs always give a whole-number score between 0 and 100. */
  lemma FiniteInputsScore(p: Product, ctx: Context, weights: map<string, real>, clockMonth: int)
    requires Scorable(p, ctx)
    requires ctx.lcaByRef[p.lcaRefId].ghg.Finite? && LegsFinite(LegsOf(ctx, p))
    ensures Percent(ComputeScore(p, ctx, weights, clockMonth).value.score)
  {
    var imp, legs := ctx.lcaByRef[p.lcaRefId], LegsOf(ctx, p);
    var sf := SeasonFactor(p.category, MonthOf(ctx, clockMonth), ctx.seasonTable).value;
    GhgNotNaN(imp, legs, sf);
    ScoreNaNExactly(p, ctx, weights, clockMonth);
  }

  /** Finite impacts and legs give a greenhouse-gas value that is not NaN. */
  lemma GhgNotNaN(imp: Impacts, legs: seq<Leg>, sf: real)
    requires sf > 0.0 && imp.ghg.Finite? && LegsFinite(legs)
    ensures !AdjustedGhg(imp, legs, sf).NaN?
  {
    TransportAdds(imp, legs, sf);
  }

  /** With the demonstration weights, a product whose six impacts are all zero and
      which has no transport legs scores 100 and gets an A under any bounds whose ranges
      start above zero (the demonstration bounds among them); whatever supplier bonus it
      earns is cut off by the clamp at 100. */
  lemma ZeroImpactScoresA(p: Product, ctx: Context, clockMonth: int)
    requires Scorable(p, ctx)
    requires ctx.lcaByRef[p.lcaRefId] == ZeroImpacts && LegsOf(ctx, p) == []
    requires PositiveRanges(NormsFor(ctx.norms, p.category).value)
    ensures ComputeScore(p, ctx, DefaultWeights, clockMonth).value.score == Finite(100.0)
    ensures ComputeScore(p, ctx, DefaultWeights, clockMonth).value.letter == 'A'
  {
    var norms := NormsFor(ctx.norms, p.category).value;
    var sf := SeasonFactor(p.category, MonthOf(ctx, clockMonth), ctx.seasonTable).value;
    var adj := SupplierAdjustment(SupplierOf(ctx, p));
    var n := ProductNorms(ZeroImpacts, [], sf, norms);
    ZeroNorms(norms, sf);
    FullMarksSum(n);
    ClampedBonus(adj);
    ScoredResult(p, ctx, DefaultWeights, clockMonth);
  }

  /** For a scorable product, the report is assembled from the season factor, the
      bounds, the supplier bonus and the breakdown of the normalised values. */
  lemma ScoredResult(p: Product, ctx: Context, weights: map<string, real>, clockMonth: int)
    requires Scorable(p, ctx)
    ensures var sf := SeasonFactor(p.category, MonthOf(ctx, clockMonth), ctx.seasonTable).value;
            var adj := SupplierAdjustment(SupplierOf(ctx, p));
            var b := Breakdown(ProductNorms(ctx.lcaByRef[p.lcaRefId], LegsOf(ctx, p), sf, NormsFor(ctx.norms, p.category).value), weights);
            var score := FinalScore(ContributionSum(b), adj);
            ComputeScore(p, ctx, weights, clockMonth) == Ok(Scored(score, Letter(score), b, adj, sf))
  {
  }

  /** The demonstration bounds all start above zero. */
  lemma DefaultNormsPositive()
    ensures PositiveRanges(DefaultNorms["default"]) && PositiveRanges(DefaultNorms["dairy"])
  {
  }

  /** A full total plus any bonus of 0 to 7 is clamped back to 100. */
  lemma ClampedBonus(adj: int)
    requires 0 <= adj <= 7
    ensures FinalScore(Finite(100.0), adj) == Finite(100.0)
  {
    var t := 100.0 + adj as real;
    AddFinite(Finite(100.0), Finite(adj as real));
    assert IsInt(t) by { assert t.Floor == 100 + adj; }
    RoundInt(t);
  }

  const ZeroImpacts := Impacts(Finite(0.0), Finite(0.0), Finite(0.0), Finite(0.0), Finite(0.0), Finite(0.0))

  /** Bounds whose every range is proper and starts above zero. */
  predicate PositiveRanges(nm: Norms) {
    && 0.0 < nm.ghg.min < nm.ghg.max && 0.0 < nm.water.min < nm.water.max
    && 0.0 < nm.land.min < nm.land.max && 0.0 < nm.biodiversity.min < nm.biodiversity.max
    && 0.0 < nm.pm.min < nm.pm.max && 0.0 < nm.eutro.min < nm.eutro.max
  }

  /** A product with no impact and no transport gets full marks on every metric, under
      any bounds whose ranges start above zero. */
  lemma ZeroNorms(nm: Norms, sf: real)
    requires sf > 0.0 && PositiveRanges(nm)
    ensures FullMarks(ProductNorms(ZeroImpacts, [], sf, nm))
  {
    ZeroValues(sf);
    ZerosNormalizeFull(ImpactValues(ZeroImpacts, [], sf), nm);
  }

  /** Six zero values normalise to full marks under ranges that start above zero. */
  lemma ZerosNormalizeFull(vals: seq<Num>, nm: Norms)
    requires PositiveRanges(nm)
    requires var z := Finite(0.0); vals == [z, z, z, z, z, z]
    ensures FullMarks(Normalized(vals, nm))
  {
    ZeroScoresFull(nm.ghg.min, nm.ghg.max);
    ZeroScoresFull(nm.water.min, nm.water.max);
    ZeroScoresFull(nm.land.min, nm.land.max);
    ZeroScoresFull(nm.biodiversity.min, nm.biodiversity.max);
    ZeroScoresFull(nm.pm.min, nm.pm.max);
    ZeroScoresFull(nm.eutro.min, nm.eutro.max);
  }

  /** Six normalised values of 100. */
  predicate FullMarks(n: seq<Num>) {
    && |n| == 6
    && n[0] == Finite(100.0) && n[1] == Finite(100.0) && n[2] == Finite(100.0)
    && n[3] == Finite(100.0) && n[4] == Finite(100.0) && n[5] == Finite(100.0)
  }

  /** No impact and no transport: six raw values of zero. */
  lemma ZeroValues(sf: real)
    requires sf > 0.0
    ensures var z := Finite(0.0); ImpactValues(ZeroImpacts, [], sf) == [z, z, z, z, z, z]
  {
    var z := Finite(0.0);
    NoLegsAdjusted(ZeroImpacts, sf);
    BiodiversityFinite(ZeroImpacts);
    OrZeroFinite(z);
    assert 0.0 / sf == 0.0;
    assert AdjustedGhg(ZeroImpacts, [], sf) == z;
  }

  /** Without transport legs the adjusted impact is the greenhouse-gas impact over the
      season factor. */
  lemma NoLegsAdjusted(imp: Impacts, sf: real)
    requires sf > 0.0 && imp.ghg.Finite?
    ensures AdjustedGhg(imp, [], sf) == Finite(imp.ghg.v / sf)
  {
    OrZeroFinite(imp.ghg);
    AddFinite(imp.ghg, TransportSum([]));
  }

  lemma BiodiversityFinite(imp: Impacts)
    requires imp.biodiversity.Finite?
    ensures BiodiversityValue(imp) == imp.biodiversity
  {
    OrZeroFinite(imp.biodiversity);
  }

  /** A zero impact is at or below every positive lower bound, so it scores 100. */
  lemma ZeroScoresFull(min: real, max: real)
    requires 0.0 < min < max
    ensures MinmaxNorm(Finite(0.0), min, max) == Finite(100.0)
  {
    assert AtMost(Finite(0.0), Finite(min));
  }

  /** Full marks on every metric add up, with the demonstration weights, to 100. */
  lemma FullMarksSum(n: seq<Num>)
    requires FullMarks(n)
    ensures ContributionSum(Breakdown(n, DefaultWeights)) == Finite(100.0)
  {
    FullMarksContributions(n);
    PointsSum(Breakdown(n, DefaultWeights));
  }

  /** Contributions of 40, 20, 15, 15, 5 and 5 points add up to 100. */
  lemma PointsSum(b: seq<Contribution>)
    requires |b| == 6
    requires b[0].contribution == Finite(40.0) && b[1].contribution == Finite(20.0)
    requires b[2].contribution == Finite(15.0) && b[3].contribution == Finite(15.0)
    requires b[4].contribution == Finite(5.0) && b[5].contribution == Finite(5.0)
    ensures ContributionSum(b) == Finite(100.0)
  {
    assert ContributionSum(b[..1]) == Finite(40.0) by { assert b[..1][..0] == []; }
    assert ContributionSum(b[..2]) == Finite(60.0) by { assert b[..2][..1] == b[..1]; }
    assert ContributionSum(b[..3]) == Finite(75.0) by { assert b[..3][..2] == b[..2]; }
    assert ContributionSum(b[..4]) == Finite(90.0) by { assert b[..4][..3] == b[..3]; }
    assert ContributionSum(b[..5]) == Finite(95.0) by { assert b[..5][..4] == b[..4]; }
    assert b[..6] == b;
  }

  /** Full marks give each metric its whole weight in points: 40, 20, 15, 15, 5, 5. */
  lemma FullMarksContributions(n: seq<Num>)
    requires FullMarks(n)
    ensures var b := Breakdown(n, DefaultWeights);
            && b[0].contribution == Finite(40.0) && b[1].contribution == Finite(20.0)
            && b[2].contribution == Finite(15.0) && b[3].contribution == Finite(15.0)
            && b[4].contribution == Finite(5.0) && b[5].contribution == Finite(5.0)
  {
    RoundInt(40.0); RoundInt(20.0); RoundInt(15.0); RoundInt(5.0);
    MulFinite(Finite(100.0), Finite(0.4));
    MulFinite(Finite(100.0), Finite(0.2));
    MulFinite(Finite(100.0), Finite(0.15));
    MulFinite(Finite(100.0), Finite(0.05));
  }

  lemma BioSupplier()
    ensures SupplierAdjustment(Some(Supplier("bio", ""))) == 3
  {
    assert Upper("bio") == "BIO";
    assert OccursAt("BIO", "BIO", 0);
    assert !Contains(Lower(""), "agroecology");
    assert "BIO"[0..2] == "BI" && "BIO"[1..3] == "IO";
    assert !Contains("BIO", "FAIR") && !Contains("BIO", "EQ");
  }
}

=== FILE: csv.dfy ===
/** The browser-side CSV reader: a line splitter that honours double quotes, and a
    parser that turns every non-empty line after the header into a record keyed by the
    header names. Doubled quotes and line breaks inside quotes get no special treatment. */
module Csv {
  import opened Wrappers
  import opened Text
  import opened Sequences

  // ---------------------------------------------------------------------------
  // Splitting one line

  /** Number of double quotes in `s`. */
  function QuoteCount(s: string): nat {
    if |s| == 0 then 0 else QuoteCount(s[..|s| - 1]) + (if s[|s| - 1] == '"' then 1 else 0)
  }

  /** After reading `s` the splitter is inside a quoted section. */
  predicate InQuotes(s: string) {
    QuoteCount(s) % 2 == 1
  }

  /** `splitCSVLine(line)`: the cells pushed so far followed by the cell being built,
      after reading `line` one character at a time. A quote toggles the quoted state and
      is dropped; a comma outside quotes closes the current cell; any other character,
      a comma inside quotes included, joins the current cell. */
  function SplitCsvLine(line: string): (cells: seq<string>)
    ensures |cells| >= 1
    ensures forall k :: 0 <= k < |cells| ==> '"' !in cells[k]
  {
    if |line| == 0 then [""]
    else
      var init, ch := line[..|line| - 1], line[|line| - 1];
      var cells := SplitCsvLine(init);
      if ch == '"' then cells
      else if ch == ',' && !InQuotes(init) then cells + [""]
      else cells[..|cells| - 1] + [cells[|cells| - 1] + [ch]]
  }

  /** The positions of the commas that are not inside quotes. */
  function Separators(line: string): set<int> {
    set i | 0 <= i < |line| && line[i] == ',' && !InQuotes(line[..i])
  }

  /** There is one cell more than there are commas outside quotes. */
  lemma {:induction false} CellCount(line: string)
    ensures |SplitCsvLine(line)| == |Separators(line)| + 1
  {
    if |line| > 0 {
      var init, ch := line[..|line| - 1], line[|line| - 1];
      CellCount(init);
      assert line == init + [ch];
      SeparatorsSnoc(init, ch);
      SeparatorsBelow(init);
    }
  }

  lemma SeparatorsSnoc(init: string, ch: char)
    ensures Separators(init + [ch]) == Separators(init) + (if ch == ',' && !InQuotes(init) then {|init|} else {})
  {
    var line := init + [ch];
    forall i | 0 <= i < |init| ensures line[..i] == init[..i] && line[i] == init[i] {
    }
    assert line[..|init|] == init;
  }

  lemma SeparatorsBelow(line: string)
    ensures |line| !in Separators(line)
  {
  }

  lemma JoinSnoc(parts: seq<string>, sep: string, x: string)
    requires |parts| >= 1
    ensures Join(parts + [x], sep) == Join(parts, sep) + sep + x
  {
    assert (parts + [x])[..|parts|] == parts;
  }

  lemma JoinExtendLast(parts: seq<string>, sep: string, c: char)
    requires |parts| >= 1
    ensures Join(parts[..|parts| - 1] + [parts[|parts| - 1] + [c]], sep) == Join(parts, sep) + [c]
  {
    var n := |parts|;
    var parts' := parts[..n - 1] + [parts[n - 1] + [c]];
    assert parts'[..n - 1] == parts[..n - 1];
  }

  /** Joining the cells with commas gives back the line without its quotes: nothing but
      the quotes is lost, and a quoted comma stays inside its cell. */
  lemma {:induction false} SplitJoin(line: string)
    ensures Join(SplitCsvLine(line), ",") == Remove(line, '"')
  {
    if |line| > 0 {
      var init, ch := line[..|line| - 1], line[|line| - 1];
      SplitJoin(init);
      var cells := SplitCsvLine(init);
      if ch == '"' {
      } else if ch == ',' && !InQuotes(init) {
        JoinSnoc(cells, ",", "");
      } else {
        JoinExtendLast(cells, ",", ch);
      }
    }
  }

  /** A cell that needs no quoting. */
  predicate PlainCell(c: string) {
    '"' !in c && ',' !in c
  }

  lemma {:induction false} QuoteFree(s: string)
    requires '"' !in s
    ensures QuoteCount(s) == 0
  {
    if |s| > 0 {
      assert forall c :: c in s[..|s| - 1] ==> c in s;
      QuoteFree(s[..|s| - 1]);
    }
  }

  /** Appending plain text to a quote-free line extends its last cell. */
  lemma {:induction false} SplitPlain(s: string, t: string)
    requires '"' !in s && PlainCell(t)
    ensures var cells := SplitCsvLine(s);
            SplitCsvLine(s + t) == cells[..|cells| - 1] + [cells[|cells| - 1] + t]
  {
    if |t| > 0 {
      var t', c := t[..|t| - 1], t[|t| - 1];
      PlainPrefix(t);
      SplitPlain(s, t');
      SplitPlainStep(s, t', c);
      var last := SplitCsvLine(s)[|SplitCsvLine(s)| - 1];
      assert s + t' + [c] == s + t;
      assert last + t' + [c] == last + t;
    } else {
      ExtendLastEmpty(SplitCsvLine(s));
      assert s + t == s;
    }
  }

  lemma PlainPrefix(t: string)
    requires |t| > 0 && PlainCell(t)
    ensures PlainCell(t[..|t| - 1]) && t[|t| - 1] != '"' && t[|t| - 1] != ','
  {
    assert t == t[..|t| - 1] + [t[|t| - 1]];
  }

  lemma ExtendLastEmpty(cells: seq<string>)
    requires |cells| >= 1
    ensures cells[..|cells| - 1] + [cells[|cells| - 1] + ""] == cells
  {
    assert cells[|cells| - 1] + "" == cells[|cells| - 1];
  }

  lemma SplitPlainStep(s: string, t': string, c: char)
    requires c != '"' && c != ','
    requires var cells := SplitCsvLine(s);
             SplitCsvLine(s + t') == cells[..|cells| - 1] + [cells[|cells| - 1] + t']
    ensures var cells := SplitCsvLine(s);
            SplitCsvLine(s + t' + [c]) == cells[..|cells| - 1] + [cells[|cells| - 1] + t' + [c]]
  {
    var line := s + t' + [c];
    assert line[..|line| - 1] == s + t' && line[|line| - 1] == c;
    var cells, cells' := SplitCsvLine(s), SplitCsvLine(s + t');
    assert cells'[..|cells'| - 1] == cells[..|cells| - 1];
  }

  lemma JoinQuoteFree(parts: seq<string>)
    requires forall k :: 0 <= k < |parts| ==> PlainCell(parts[k])
    ensures '"' !in Join(parts, ",")
  {
    if |parts| > 1 {
      JoinQuoteFree(parts[..|parts| - 1]);
    }
  }

  /** Plain cells survive a join and a split unchanged. */
  lemma {:induction false} SplitJoinRoundTrip(cells: seq<string>)
    requires |cells| >= 1
    requires forall k :: 0 <= k < |cells| ==> PlainCell(cells[k])
    ensures SplitCsvLine(Join(cells, ",")) == cells
  {
    if |cells| == 1 {
      SplitPlain("", cells[0]);
      assert "" + cells[0] == cells[0] == Join(cells, ",");
      assert SplitCsvLine("") == [""];
    } else {
      var init, last := cells[..|cells| - 1], cells[|cells| - 1];
      SplitJoinRoundTrip(init);
      assert cells == init + [last];
      JoinQuoteFree(init);
      SplitJoinStep(init, last);
    }
  }

  /** One more plain cell after a line that splits back into `init`. */
  lemma SplitJoinStep(init: seq<string>, last: string)
    requires |init| >= 1 && PlainCell(last) && '"' !in Join(init, ",")
    requires SplitCsvLine(Join(init, ",")) == init
    ensures SplitCsvLine(Join(init + [last], ",")) == init + [last]
  {
    var s := Join(init, ",");
    JoinSnoc(init, ",", last);
    QuoteFree(s);
    SplitComma(s);
    assert '"' !in s + ",";
    SplitPlain(s + ",", last);
    LastReplaced(init, "");
    assert "" + last == last;
  }

  /** A comma outside quotes opens a new, empty cell. */
  lemma SplitComma(s: string)
    requires !InQuotes(s)
    ensures SplitCsvLine(s + ",") == SplitCsvLine(s) + [""]
  {
    var line := s + ",";
    assert line[..|line| - 1] == s && line[|line| - 1] == ',';
  }

  // ---------------------------------------------------------------------------
  // Lines

  /** `s.split(sep)` for a one-character separator. */
  function SplitOn(s: string, sep: char): (parts: seq<string>)
    ensures |parts| >= 1
    ensures forall k :: 0 <= k < |parts| ==> sep !in parts[k]
  {
    if |s| == 0 then [""]
    else
      var init, ch := s[..|s| - 1], s[|s| - 1];
      var parts := SplitOn(init, sep);
      if ch == sep then parts + [""]
      else parts[..|parts| - 1] + [parts[|parts| - 1] + [ch]]
  }

  /** A character the text lacks is in none of its parts. */
  lemma {:induction false} SplitOnAbsent(s: string, sep: char, c: char)
    requires c !in s
    ensures forall k :: 0 <= k < |SplitOn(s, sep)| ==> c !in SplitOn(s, sep)[k]
  {
    if |s| > 0 {
      var init, ch := s[..|s| - 1], s[|s| - 1];
      assert c !in init && ch != c;
      SplitOnAbsent(init, sep, c);
      var parts := SplitOn(init, sep);
      if ch != sep {
        assert c !in parts[|parts| - 1] + [ch];
      }
    }
  }

  /** Splitting and joining on the same separator is the identity. */
  lemma {:induction false} SplitOnJoin(s: string, sep: char)
    ensures Join(SplitOn(s, sep), [sep]) == s
  {
    if |s| > 0 {
      var init, ch := s[..|s| - 1], s[|s| - 1];
      SplitOnJoin(init, sep);
      assert s == init + [ch];
      SplitOnJoinStep(init, ch, sep);
    }
  }

  lemma SplitOnJoinStep(init: string, ch: char, sep: char)
    requires Join(SplitOn(init, sep), [sep]) == init
    ensures Join(SplitOn(init + [ch], sep), [sep]) == init + [ch]
  {
    var parts := SplitOn(init, sep);
    if ch == sep {
      SplitOnSep(init, sep);
      JoinSnoc(parts, [sep], "");
    } else {
      SplitOnChar(init, ch, sep);
      JoinExtendLast(parts, [sep], ch);
    }
  }

  /** `parts.filter(Boolean)`: the non-empty strings, in order. */
  function NonEmpty(parts: seq<string>): (r: seq<string>)
    ensures forall k :: 0 <= k < |r| ==> r[k] != ""
    ensures forall x :: x in r <==> x in parts && x != ""
    ensures IsSubsequence(r, parts)
    ensures multiset(r) == multiset(parts)["" := 0]
    ensures |r| == |parts| - multiset(parts)[""]
  {
    if |parts| == 0 then []
    else
      assert parts == [parts[0]] + parts[1..];
      if parts[0] == "" then NonEmpty(parts[1..])
      else [parts[0]] + NonEmpty(parts[1..])
  }

  /** Non-empty strings all pass the filter. */
  lemma {:induction false} NonEmptyKeepsAll(parts: seq<string>)
    requires forall k :: 0 <= k < |parts| ==> parts[k] != ""
    ensures NonEmpty(parts) == parts
  {
    if |parts| > 0 {
      NonEmptyKeepsAll(parts[1..]);
    }
  }

  /** `text.replace(/\r/g, '').split('\n').filter(Boolean)`: the non-empty segments
      between line breaks, in order, once carriage returns are dropped. */
  function Lines(text: string): (lines: seq<string>)
    ensures forall k :: 0 <= k < |lines| ==> lines[k] != "" && '\n' !in lines[k] && '\r' !in lines[k]
    ensures IsSubsequence(lines, SplitOn(Remove(text, '\r'), '\n'))
    ensures forall p :: p in SplitOn(Remove(text, '\r'), '\n') && p != "" ==> p in lines
    ensures multiset(lines) == multiset(SplitOn(Remove(text, '\r'), '\n'))["" := 0]
    ensures |lines| == |SplitOn(Remove(text, '\r'), '\n')| - multiset(SplitOn(Remove(text, '\r'), '\n'))[""]
  {
    var parts := SplitOn(Remove(text, '\r'), '\n');
    SplitOnAbsent(Remove(text, '\r'), '\n', '\r');
    var lines := NonEmpty(parts);
    assert forall k :: 0 <= k < |lines| ==> lines[k] in parts;
    lines
  }

  /** Removing a character the text does not hold changes nothing. */
  lemma {:induction false} RemoveAbsent(s: string, c: char)
    requires c !in s
    ensures Remove(s, c) == s
  {
    if |s| > 0 {
      assert c !in s[..|s| - 1] && s[|s| - 1] != c;
      RemoveAbsent(s[..|s| - 1], c);
      assert s == s[..|s| - 1] + [s[|s| - 1]];
    }
  }

  /** Appending text without the separator extends the last part. */
  lemma {:induction false} SplitOnPlain(s: string, t: string, sep: char)
    requires sep !in t
    ensures var parts := SplitOn(s, sep);
            SplitOn(s + t, sep) == parts[..|parts| - 1] + [parts[|parts| - 1] + t]
  {
    var parts := SplitOn(s, sep);
    var m := |parts| - 1;
    if |t| == 0 {
      assert s + t == s && parts[m] + t == parts[m];
      assert parts == parts[..m] + [parts[m]];
    } else {
      var t', c := t[..|t| - 1], t[|t| - 1];
      assert t == t' + [c];
      assert sep !in t' && c != sep;
      SplitOnPlain(s, t', sep);
      SplitOnPlainStep(s, t', c, sep);
    }
  }

  lemma SplitOnPlainStep(s: string, t': string, c: char, sep: char)
    requires c != sep
    requires var parts := SplitOn(s, sep);
             SplitOn(s + t', sep) == parts[..|parts| - 1] + [parts[|parts| - 1] + t']
    ensures var parts := SplitOn(s, sep);
            SplitOn(s + (t' + [c]), sep) == parts[..|parts| - 1] + [parts[|parts| - 1] + (t' + [c])]
  {
    assert s + (t' + [c]) == (s + t') + [c];
    SplitOnChar(s + t', c, sep);
    ExtendLastTwice(SplitOn(s, sep), t', c);
  }

  /** Extending the last part by `t'` and then by `c` extends it by `t' + [c]`. */
  lemma ExtendLastTwice(parts: seq<string>, t': string, c: char)
    requires |parts| >= 1
    ensures var m := |parts| - 1;
            var p := parts[..m] + [parts[m] + t'];
            p[..|p| - 1] + [p[|p| - 1] + [c]] == parts[..m] + [parts[m] + (t' + [c])]
  {
    var m := |parts| - 1;
    LastReplaced(parts[..m], parts[m] + t');
    assert parts[m] + t' + [c] == parts[m] + (t' + [c]);
  }

  /** A character other than the separator extends the last part. */
  lemma SplitOnChar(u: string, c: char, sep: char)
    requires c != sep
    ensures var p := SplitOn(u, sep);
            SplitOn(u + [c], sep) == p[..|p| - 1] + [p[|p| - 1] + [c]]
  {
    var line := u + [c];
    assert line[..|line| - 1] == u && line[|line| - 1] == c;
  }

  /** The separator opens a new, empty part. */
  lemma SplitOnSep(u: string, sep: char)
    ensures SplitOn(u + [sep], sep) == SplitOn(u, sep) + [""]
  {
    var line := u + [sep];
    assert line[..|line| - 1] == u && line[|line| - 1] == sep;
  }

  /** Parts free of the separator, joined with it, split back into the same parts. */
  lemma {:induction false} SplitOnRoundTrip(parts: seq<string>, sep: char)
    requires |parts| >= 1
    requires forall k :: 0 <= k < |parts| ==> sep !in parts[k]
    ensures SplitOn(Join(parts, [sep]), sep) == parts
  {
    if |parts| == 1 {
      SplitOnPlain("", parts[0], sep);
      assert "" + parts[0] == parts[0];
    } else {
      var init, last := parts[..|parts| - 1], parts[|parts| - 1];
      SplitOnRoundTrip(init, sep);
      assert parts == init + [last];
      SplitOnRoundStep(init, last, sep);
    }
  }

  /** One more separator-free part after text that splits back into `init`. */
  lemma SplitOnRoundStep(init: seq<string>, last: string, sep: char)
    requires |init| >= 1 && sep !in last
    requires SplitOn(Join(init, [sep]), sep) == init
    ensures SplitOn(Join(init + [last], [sep]), sep) == init + [last]
  {
    var s := Join(init, [sep]);
    assert (s + [sep])[..|s|] == s;
    assert SplitOn(s + [sep], sep) == init + [""];
    SplitOnPlain(s + [sep], last, sep);
    assert (init + [""])[..|init|] == init && "" + last == last;
    assert (init + [last])[..|init|] == init;
  }

  /** Lines without breaks, joined with line breaks, read back as the same lines, in
      the same order. */
  lemma LinesRoundTrip(ls: seq<string>)
    requires forall k :: 0 <= k < |ls| ==> ls[k] != "" && '\n' !in ls[k] && '\r' !in ls[k]
    ensures Lines(Join(ls, "\n")) == ls
  {
    var text := Join(ls, "\n");
    assert '\r' !in text by {
      if '\r' in text {
        JoinChars(ls, "\n", '\r');
      }
    }
    RemoveAbsent(text, '\r');
    if |ls| == 0 {
      assert NonEmpty(SplitOn(text, '\n')) == NonEmpty([""]);
    } else {
      SplitOnRoundTrip(ls, '\n');
      NonEmptyKeepsAll(ls);
    }
  }

  /** A character of a join comes from a part or from the separator. */
  lemma JoinChars(parts: seq<string>, sep: string, c: char)
    requires c in Join(parts, sep)
    ensures c in sep || exists k :: 0 <= k < |parts| && c in parts[k]
  {
    if |parts| > 1 {
      var init := parts[..|parts| - 1];
      if c in Join(init, sep) {
        JoinChars(init, sep, c);
        if c !in sep {
          var k :| 0 <= k < |init| && c in init[k];
          assert c in parts[k];
        }
      } else {
        assert c in sep || c in parts[|parts| - 1];
      }
    }
  }

  /** The text has no line exactly when it holds nothing but line breaks. */
  lemma NoLines(text: string)
    ensures |Lines(text)| == 0 <==> forall i :: 0 <= i < |text| ==> text[i] == '\r' || text[i] == '\n'
  {
    var r := Remove(text, '\r');
    var parts := SplitOn(r, '\n');
    if |Lines(text)| == 0 {
      assert Lines(text) == NonEmpty(parts);
      forall k | 0 <= k < |parts| ensures parts[k] == "" {
        assert parts[k] in parts;
      }
      SplitOnJoin(r, '\n');
      forall i | 0 <= i < |text| ensures text[i] == '\r' || text[i] == '\n' {
        var x := text[i];
        if x != '\r' {
          assert x in r;
          JoinChars(parts, "\n", x);
        }
      }
    } else {
      var l := Lines(text)[0];
      assert l in parts;
      var k :| 0 <= k < |parts| && parts[k] == l;
      var x := l[0];
      if x !in r {
        SplitOnAbsent(r, '\n', x);
        assert false;
      }
      assert x != '\n' && x != '\r';
      var i :| 0 <= i < |text| && text[i] == x;
    }
  }

  // ---------------------------------------------------------------------------
  // Records

  /** A parsed record: one entry per header name; an absent cell is `undefined`. */
  type Record = map<string, Option<string>>

  /** `cells[i]`, undefined past the end. */
  function CellAt(cells: seq<string>, i: nat): Option<string> {
    if i < |cells| then Some(cells[i]) else None
  }

  /** Column `i` is the last one labelled `headers[i]`. */
  predicate LastAt(headers: seq<string>, i: int) {
    0 <= i < |headers| && headers[i] !in headers[i + 1..]
  }

  /** `headers.forEach((h, i) => obj[h] = cells[i])` on an empty object: every header
      is a key, and a repeated header keeps the cell of its last column. */
  function MakeRecord(headers: seq<string>, cells: seq<string>): (obj: Record)
    ensures obj.Keys == set h | h in headers
    ensures forall i | LastAt(headers, i) :: obj[headers[i]] == CellAt(cells, i)
  {
    if |headers| == 0 then map[]
    else
      var n := |headers| - 1;
      var init := headers[..n];
      var obj := MakeRecord(init, cells);
      assert headers == init + [headers[n]];
      LastAtInit(headers);
      obj[headers[n] := CellAt(cells, n)]
  }

  lemma LastAtInit(headers: seq<string>)
    requires |headers| > 0
    ensures forall i | LastAt(headers, i) && i < |headers| - 1 ::
              LastAt(headers[..|headers| - 1], i) && headers[i] != headers[|headers| - 1]
  {
    var n := |headers| - 1;
    forall i | LastAt(headers, i) && i < n
      ensures LastAt(headers[..n], i) && headers[i] != headers[n]
    {
      assert headers[n] in headers[i + 1..];
      assert headers[i + 1..] == headers[..n][i + 1..] + [headers[n]];
    }
  }

  /** `parseCSV(text)`: no records for a text without lines; otherwise one record per
      line after the header line, keyed by the header cells. */
  function ParseCsv(text: string): (records: seq<Record>)
    ensures |Lines(text)| <= 1 ==> records == []
    ensures |Lines(text)| > 0 ==> |records| == |Lines(text)| - 1
    ensures |Lines(text)| > 0 ==> var headers := SplitCsvLine(Lines(text)[0]);
              forall j :: 0 <= j < |records| ==>
                && records[j].Keys == (set h | h in headers)
                && forall i | LastAt(headers, i) ::
                     records[j][headers[i]] == CellAt(SplitCsvLine(Lines(text)[j + 1]), i)
  {
    var lines := Lines(text);
    if |lines| == 0 then []
    else
      var headers := SplitCsvLine(lines[0]);
      seq(|lines| - 1, j requires 0 <= j < |lines| - 1 => MakeRecord(headers, SplitCsvLine(lines[j + 1])))
  }
}

=== FILE: frame.dfy ===
/** The slice of pandas data frames the validation scripts rely on: labelled columns,
    positional rows, missing (NaN) cells, column lookup and the element-wise
    comparisons that make up a range rule. */
module Frame {
  import opened Sequences

  /** A pandas cell: a number, a string, or missing (NaN). */
  datatype Cell = Number(x: real) | Str(s: string) | Missing

  /** A data frame: column labels and rows whose cells line up with them. */
  datatype Table = Table(columns: seq<string>, rows: seq<seq<Cell>>)

  /** The cell of `row` under column `c`; missing when the table has no such column. */
  function Get(t: Table, row: seq<Cell>, c: string): Cell {
    if c in t.columns && IndexOf(t.columns, c) < |row| then row[IndexOf(t.columns, c)] else Missing
  }

  /** `df[c]` as a sequence, one cell per row. */
  function Column(t: Table, c: string): (col: seq<Cell>)
    ensures |col| == |t.rows|
    ensures forall i :: 0 <= i < |t.rows| ==> col[i] == Get(t, t.rows[i], c)
  {
    seq(|t.rows|, i requires 0 <= i < |t.rows| => Get(t, t.rows[i], c))
  }

  /** Some cell is a string: comparing the column with a number raises `TypeError`. */
  predicate HasStr(col: seq<Cell>) {
    exists i :: 0 <= i < |col| && col[i].Str?
  }

  /** `(col < t).any()`: NaN compares false. */
  predicate AnyBelow(col: seq<Cell>, t: real) {
    exists i :: 0 <= i < |col| && col[i].Number? && col[i].x < t
  }

  /** `(col > t).any()`: NaN compares false. */
  predicate AnyAbove(col: seq<Cell>, t: real) {
    exists i :: 0 <= i < |col| && col[i].Number? && col[i].x > t
  }

  /** `[c for c in cols if c not in present]`. */
  function MissingFrom(cols: seq<string>, present: seq<string>): (m: seq<string>)
    ensures forall c :: c in m <==> c in cols && c !in present
    ensures IsSubsequence(m, cols)
  {
    if |cols| == 0 then []
    else if cols[0] in present then MissingFrom(cols[1..], present)
    else [cols[0]] + MissingFrom(cols[1..], present)
  }

  /** `s[s.duplicated()]` with pandas' default `keep='first'`: every occurrence of a value
      after its first, in order. Each value is reported once fewer than it occurs. */
  function Duplicates(s: seq<Cell>): (d: seq<Cell>)
    ensures |d| == 0 <==> Distinct(s)
    ensures forall x :: multiset(d)[x] == if x in s then multiset(s)[x] - 1 else 0
  {
    if |s| == 0 then []
    else
      var init, last := s[..|s| - 1], s[|s| - 1];
      assert s == init + [last];
      var d := Duplicates(init) + (if last in init then [last] else []);
      DistinctSnoc(init, last);
      d
  }
}

=== FILE: js_number.dfy ===
/** JavaScript numbers as the scorer uses them: a finite value, NaN, or one of the two
    infinities. Finite values are exact reals, so IEEE rounding and the sign of zero are
    not modelled; what is kept is how NaN and the infinities flow through the operators. */
module JsNumber {

  datatype Num = Finite(v: real) | NaN | PosInf | NegInf

  /** The runtime error an undefined property access raises. */
  datatype JsError = TypeError(reason: string)

  predicate IsInfinite(x: Num) {
    x.PosInf? || x.NegInf?
  }

  /** A real with no fractional part. */
  predicate IsInt(x: real) {
    x.Floor as real == x
  }

  /** `Boolean(x)`: NaN and zero are falsy, everything else is truthy. */
  predicate Truthy(x: Num) {
    !x.NaN? && x != Finite(0.0)
  }

  /** `x || 0` for a number `x`: NaN and 0 both become 0. */
  function OrZero(x: Num): (r: Num)
    ensures !r.NaN?
    ensures r.Finite? <==> !IsInfinite(x)
  {
    if Truthy(x) then x else Finite(0.0)
  }

  lemma OrZeroFinite(x: Num)
    requires x.Finite?
    ensures OrZero(x) == x
  {
  }

  lemma AddFinite(a: Num, b: Num)
    requires a.Finite? && b.Finite?
    ensures Add(a, b) == Finite(a.v + b.v)
  {
  }

  lemma MulFinite(a: Num, b: Num)
    requires a.Finite? && b.Finite?
    ensures Mul(a, b) == Finite(a.v * b.v)
  {
  }

  /** The sign of a number that is not NaN. */
  function Sign(x: Num): int
    requires !x.NaN?
  {
    match x
    case PosInf => 1
    case NegInf => -1
    case Finite(v) => if v > 0.0 then 1 else if v < 0.0 then -1 else 0
  }

  /** `a + b`. */
  function Add(a: Num, b: Num): (r: Num)
    ensures r.NaN? <==> a.NaN? || b.NaN? || (a.PosInf? && b.NegInf?) || (a.NegInf? && b.PosInf?)
    ensures r.Finite? <==> a.Finite? && b.Finite?
    ensures r.Finite? ==> r.v == a.v + b.v
    ensures r.PosInf? <==> (a.PosInf? && !b.NaN? && !b.NegInf?) || (b.PosInf? && !a.NaN? && !a.NegInf?)
  {
    match (a, b)
    case (NaN, _) => NaN
    case (_, NaN) => NaN
    case (PosInf, NegInf) => NaN
    case (NegInf, PosInf) => NaN
    case (PosInf, _) => PosInf
    case (_, PosInf) => PosInf
    case (NegInf, _) => NegInf
    case (_, NegInf) => NegInf
    case (Finite(x), Finite(y)) => Finite(x + y)
  }

  /** Unary minus. */
  function Neg(a: Num): (r: Num)
    ensures r.NaN? <==> a.NaN?
    ensures r.Finite? <==> a.Finite?
    ensures r.Finite? ==> r.v == -a.v
    ensures r.PosInf? <==> a.NegInf?
  {
    match a
    case Finite(x) => Finite(-x)
    case NaN => NaN
    case PosInf => NegInf
    case NegInf => PosInf
  }

  /** `a - b`. */
  function Sub(a: Num, b: Num): Num {
    Add(a, Neg(b))
  }

  /** `a * b`: an infinity times zero is NaN, otherwise signs multiply. */
  function Mul(a: Num, b: Num): (r: Num)
    ensures r.NaN? <==> a.NaN? || b.NaN? || (IsInfinite(a) && b == Finite(0.0)) || (a == Finite(0.0) && IsInfinite(b))
    ensures r.Finite? <==> a.Finite? && b.Finite?
    ensures r.Finite? ==> r.v == a.v * b.v
  {
    if a.NaN? || b.NaN? then NaN
    else if a.Finite? && b.Finite? then Finite(a.v * b.v)
    else
      var s := Sign(a) * Sign(b);
      if s > 0 then PosInf else if s < 0 then NegInf else NaN
  }

  /** `a / d` for a finite, non-zero divisor `d`. */
  function DivBy(a: Num, d: real): (r: Num)
    requires d != 0.0
    ensures r.NaN? <==> a.NaN?
    ensures r.Finite? <==> a.Finite?
    ensures r.Finite? ==> r.v * d == a.v
    ensures r.PosInf? <==> (a.PosInf? && d > 0.0) || (a.NegInf? && d < 0.0)
  {
    match a
    case Finite(x) => Finite(x / d)
    case NaN => NaN
    case PosInf => if d > 0.0 then PosInf else NegInf
    case NegInf => if d > 0.0 then NegInf else PosInf
  }

  /** `a < b`: false whenever NaN is involved. */
  predicate Less(a: Num, b: Num) {
    match (a, b)
    case (Finite(x), Finite(y)) => x < y
    case (NegInf, Finite(_)) => true
    case (NegInf, PosInf) => true
    case (Finite(_), PosInf) => true
    case _ => false
  }

  /** `a <= b`: false whenever NaN is involved. */
  predicate AtMost(a: Num, b: Num) {
    !a.NaN? && !b.NaN? && !Less(b, a)
  }

  /** `a >= t` against a finite threshold. */
  predicate AtLeastReal(a: Num, t: real) {
    AtMost(Finite(t), a)
  }

  /** `Math.max(a, b)`. */
  function Max(a: Num, b: Num): (r: Num)
    ensures r.NaN? <==> a.NaN? || b.NaN?
    ensures !r.NaN? ==> (r == a || r == b) && AtMost(a, r) && AtMost(b, r)
  {
    if a.NaN? || b.NaN? then NaN else if Less(a, b) then b else a
  }

  /** `Math.min(a, b)`. */
  function Min(a: Num, b: Num): (r: Num)
    ensures r.NaN? <==> a.NaN? || b.NaN?
    ensures !r.NaN? ==> (r == a || r == b) && AtMost(r, a) && AtMost(r, b)
  {
    if a.NaN? || b.NaN? then NaN else if Less(b, a) then b else a
  }

  /** `Math.round(a)`: the nearest integer, halves rounded up. */
  function Round(a: Num): (r: Num)
    ensures r.NaN? <==> a.NaN?
    ensures r.Finite? <==> a.Finite?
    ensures r.Finite? ==> IsInt(r.v) && a.v - 0.5 < r.v <= a.v + 0.5
    ensures IsInfinite(a) ==> r == a
  {
    match a
    case Finite(x) => Finite((x + 0.5).Floor as real)
    case _ => a
  }

  /** Rounding never reverses the order of two finite numbers. */
  lemma RoundMonotone(x: real, y: real)
    requires x <= y
    ensures Round(Finite(x)).v <= Round(Finite(y)).v
  {
    FloorMonotone(x + 0.5, y + 0.5);
  }

  lemma FloorMonotone(a: real, b: real)
    requires a <= b
    ensures a.Floor <= b.Floor
  {
    var fa, fb := a.Floor, b.Floor;
    assert fa as real <= a && b < fb as real + 1.0;
    assert (fa - fb) as real < 1.0;
  }

  /** The floor of `r` is the one integer `k` with `k <= r < k + 1`. */
  lemma FloorUnique(r: real, k: int)
    requires k as real <= r < k as real + 1.0
    ensures r.Floor == k
  {
    var f := r.Floor;
    assert f as real <= r < f as real + 1.0;
  }

  /** Rounding leaves integers alone. */
  lemma RoundInt(x: real)
    requires IsInt(x)
    ensures Round(Finite(x)) == Finite(x)
  {
    FloorUnique(x + 0.5, x.Floor);
  }

  /** `Math.min(hi, Math.max(lo, a))` with finite bounds `lo <= hi`: a clamp that keeps NaN. */
  lemma ClampFacts(a: Num, lo: real, hi: real)
    requires lo <= hi
    ensures var r := Min(Finite(hi), Max(Finite(lo), a));
            && (r.NaN? <==> a.NaN?)
            && (!r.NaN? ==> r.Finite? && lo <= r.v <= hi)
            && (a.Finite? && lo <= a.v <= hi ==> r == a)
            && (AtMost(a, Finite(lo)) ==> r == Finite(lo))
            && (AtMost(Finite(hi), a) ==> r == Finite(hi))
  {
  }

  /** `Math.min(hi, Math.max(lo, x))` on finite values is monotone. */
  lemma ClampMonotone(x: real, y: real, lo: real, hi: real)
    requires lo <= hi && x <= y
    ensures Min(Finite(hi), Max(Finite(lo), Finite(x))).v <= Min(Finite(hi), Max(Finite(lo), Finite(y))).v
  {
  }

  /** Addition is commutative, NaN and infinities included. */
  lemma AddCommutes(a: Num, b: Num)
    ensures Add(a, b) == Add(b, a)
  {
  }
}

=== FILE: keyed.dfy ===
/** Building a lookup object or dictionary from a list of records, one entry per key:
    `items.forEach(x => obj[key(x)] = x)` in JavaScript and `{key(x): x for x in items}`
    in Python. A later record with the same key replaces the earlier one, while the key
    keeps the position of its first occurrence. */
module Keyed {
  import opened Sequences

  /** The keys of `keys` in order of first occurrence, each once. */
  function FirstOccurrences(keys: seq<string>): (r: seq<string>)
    ensures forall k :: k in r <==> k in keys
    ensures forall i, j :: 0 <= i < j < |r| ==> r[i] != r[j]
    ensures forall i, j :: 0 <= i < j < |r| ==> IndexOf(keys, r[i]) < IndexOf(keys, r[j])
    ensures |r| <= |keys|
  {
    if |keys| == 0 then []
    else
      var n := |keys| - 1;
      var init := FirstOccurrences(keys[..n]);
      var last := keys[n];
      assert keys == keys[..n] + [last];
      FirstIndexSnoc(keys[..n], last);
      if last in init then init
      else
        var r := init + [last];
        assert forall i :: 0 <= i < |init| ==> r[i] == init[i] && IndexOf(keys, r[i]) < n;
        r
  }

  /** Appending a key leaves the first positions of the earlier keys alone; a new key
      is first found at the end. */
  lemma FirstIndexSnoc(init: seq<string>, last: string)
    ensures forall k :: k in init ==> IndexOf(init + [last], k) == IndexOf(init, k) < |init|
    ensures last !in init ==> IndexOf(init + [last], last) == |init|
  {
    forall k | k in init ensures IndexOf(init + [last], k) == IndexOf(init, k) {
      IndexOfAppend(init, [last], k);
    }
    if last !in init {
      IndexOfAppend(init, [last], last);
    }
  }

  /** Position `i` is the last one holding its key. */
  predicate LastOf(keys: seq<string>, i: int) {
    0 <= i < |keys| && forall j :: i < j < |keys| ==> keys[j] != keys[i]
  }

  /** The dictionary: each key maps to the item at its last occurrence. */
  function IndexBy<T>(keys: seq<string>, items: seq<T>): (m: map<string, T>)
    requires |keys| == |items|
    ensures m.Keys == set k | k in keys
    ensures forall i | LastOf(keys, i) :: m[keys[i]] == items[i]
  {
    if |keys| == 0 then map[]
    else
      var n := |keys| - 1;
      var m := IndexBy(keys[..n], items[..n]);
      IndexByStep(keys, items, keys[..n], items[..n], m);
      m[keys[n] := items[n]]
  }

  /** `IndexBySnoc` stated on the whole lists. */
  lemma IndexByStep<T>(keys: seq<string>, items: seq<T>, init: seq<string>, its: seq<T>, m: map<string, T>)
    requires |keys| == |items| > 0
    requires init == keys[..|keys| - 1] && its == items[..|items| - 1]
    requires m.Keys == set k | k in init
    requires forall i | LastOf(init, i) :: m[init[i]] == its[i]
    ensures m[keys[|keys| - 1] := items[|keys| - 1]].Keys == set k | k in keys
    ensures forall i | LastOf(keys, i) :: m[keys[|keys| - 1] := items[|keys| - 1]][keys[i]] == items[i]
  {
    var n := |keys| - 1;
    var ks, xs := keys[..n] + [keys[n]], items[..n] + [items[n]];
    assert keys == ks && items == xs;
    IndexBySnoc(keys[..n], keys[n], items[..n], items[n], m);
    var r := m[keys[n] := items[n]];
    forall i | LastOf(keys, i) ensures r[keys[i]] == items[i] {
      assert LastOf(ks, i) && ks[i] == keys[i] && xs[i] == items[i];
    }
  }

  /** Adding one more item to the dictionary of the others gives the dictionary of all. */
  lemma IndexBySnoc<T>(init: seq<string>, last: string, its: seq<T>, x: T, m: map<string, T>)
    requires |init| == |its|
    requires m.Keys == set k | k in init
    requires forall i | LastOf(init, i) :: m[init[i]] == its[i]
    ensures m[last := x].Keys == set k | k in init + [last]
    ensures forall i | LastOf(init + [last], i) :: m[last := x][(init + [last])[i]] == (its + [x])[i]
  {
    KeysSnoc(init, last);
    var ks, xs, r := init + [last], its + [x], m[last := x];
    forall i | LastOf(ks, i) ensures r[ks[i]] == xs[i] {
      if i < |init| {
        assert ks[|init|] == last;
        assert ks[i] == init[i] != last && xs[i] == its[i];
        forall j | i < j < |init| ensures init[j] != init[i] {
          assert ks[j] == init[j];
        }
        assert LastOf(init, i);
      }
    }
  }

  lemma KeysSnoc(init: seq<string>, last: string)
    ensures (set k | k in init + [last]) == (set k | k in init) + {last}
  {
  }

  /** Every key present has a last occurrence, so the dictionary holds an item for it. */
  lemma {:induction false} LastOfExists(keys: seq<string>, k: string)
    requires k in keys
    ensures exists i :: LastOf(keys, i) && keys[i] == k
  {
    var n := |keys| - 1;
    if keys[n] == k {
      assert LastOf(keys, n);
    } else {
      assert keys == keys[..n] + [keys[n]];
      LastOfExists(keys[..n], k);
      var i :| LastOf(keys[..n], i) && keys[..n][i] == k;
      assert LastOf(keys, i);
    }
  }
}

=== FILE: qa_checks.dfy ===
/** The data-quality gate: left-join the product table with the three metric tables on
    `id`, rename `kgco2e_unit` to `base_kgco2e`, then apply the configured rules in a
    fixed order, stopping at the first failure. Loading the tables and the YAML
    configuration, printing and `sys.exit` are left out: the result is `Pass` or
    `Fail` with the diagnostic that would be printed. */
module QaChecks {
  import opened Wrappers
  import opened Frame
  import opened Sequences

  /** The recognised keys of `qa_rules.yaml`; an absent `max_values` or `ranges` is empty. */
  datatype QaConfig = QaConfig(noMissingColumns: bool, maxValues: seq<(string, real)>, ranges: seq<(string, real, real)>)

  /** One `{"id", "name", col}` record of a diagnostic. */
  datatype Example = Example(id: Cell, name: Cell, value: Cell)

  datatype QaError =
    | NoIdColumn                                        // KeyError raised by `merge(on="id")`
    | MissingColumns(missing: seq<string>)              // "Colonnes manquantes"
    | MissingKey(missing: seq<string>)                  // KeyError raised by `df[[...]]`
    | MissingValues(count: nat, sample: seq<seq<Cell>>)   // "Valeurs manquantes"
    | NotComparable(column: string)                     // TypeError of a comparison with a string
    | AboveMax(column: string, max: real, examples: seq<Example>)
    | OutOfRange(column: string, min: real, max: real, examples: seq<Example>)

  const KeyColumns := ["id", "name", "base_kgco2e", "distance_km", "biodiversity_risk"]
  const MetricColumns := ["base_kgco2e", "distance_km", "biodiversity_risk"]

  // ---------------------------------------------------------------------------
  // Left join

  /** The columns a right-hand table contributes: all but the join key. */
  function NonKey(cols: seq<string>): (r: seq<string>)
    ensures forall c :: c in r <==> c in cols && c != "id"
    ensures |r| <= |cols|
  {
    if |cols| == 0 then []
    else (if cols[0] == "id" then [] else [cols[0]]) + NonKey(cols[1..])
  }

  /** The cells of `row` under the columns `cols`. */
  function Project(t: Table, row: seq<Cell>, cols: seq<string>): (r: seq<Cell>)
    ensures |r| == |cols|
    ensures forall i :: 0 <= i < |cols| ==> r[i] == Get(t, row, cols[i])
  {
    seq(|cols|, i requires 0 <= i < |cols| => Get(t, row, cols[i]))
  }

  /** The rows of `right` among `rows` whose `id` equals `key`, in order. A missing key
      matches a missing key, as in pandas. */
  function Matches(right: Table, rows: seq<seq<Cell>>, key: Cell): (ms: seq<seq<Cell>>)
    ensures |ms| <= |rows|
    ensures forall m :: m in ms ==> m in rows && Get(right, m, "id") == key
    ensures |ms| == 0 <==> forall i :: 0 <= i < |rows| ==> Get(right, rows[i], "id") != key
  {
    if |rows| == 0 then []
    else
      var rest := Matches(right, rows[1..], key);
      assert forall i :: 1 <= i < |rows| ==> rows[i] == rows[1..][i - 1];
      if Get(right, rows[0], "id") == key then [rows[0]] + rest else rest
  }

  /** A row padded with missing cells in the `n` columns a right table contributes. */
  function Missings(n: nat): (r: seq<Cell>)
    ensures |r| == n && forall j :: 0 <= j < n ==> r[j].Missing?
  {
    seq(n, _ => Missing)
  }

  /** What the output rows of one left row look like: each starts with the left row's
      own cells and goes on with the non-key cells of one matching right row, in the
      right table's order; when nothing matches, a single row padded with missing cells. */
  predicate JoinRowShape(left: Table, l: seq<Cell>, right: Table, out: seq<seq<Cell>>) {
    var lp := Project(left, l, left.columns);
    var ms := Matches(right, right.rows, Get(left, l, "id"));
    && (forall o :: o in out ==> |lp| <= |o| && o[..|lp|] == lp)
    && (|ms| == 0 ==> out == [lp + Missings(|NonKey(right.columns)|)])
    && (|ms| > 0 ==> |out| == |ms|)
    && (forall j :: 0 <= j < |ms| && j < |out| ==> out[j][|lp|..] == Project(right, ms[j], NonKey(right.columns)))
  }

  /** The output rows of one left row. */
  function JoinRow(left: Table, l: seq<Cell>, right: Table): (out: seq<seq<Cell>>)
    ensures |out| >= 1
    ensures JoinRowShape(left, l, right, out)
  {
    var lp := Project(left, l, left.columns);
    var rk := NonKey(right.columns);
    var ms := Matches(right, right.rows, Get(left, l, "id"));
    if |ms| == 0 then
      var o := lp + Missings(|rk|);
      assert o[..|lp|] == lp;
      [o]
    else
      var out := seq(|ms|, j requires 0 <= j < |ms| => lp + Project(right, ms[j], rk));
      assert forall j :: 0 <= j < |ms| ==> out[j][..|lp|] == lp && out[j][|lp|..] == Project(right, ms[j], rk);
      out
  }

  /** The output blocks of `rows`, one per left row. */
  function Blocks(left: Table, rows: seq<seq<Cell>>, right: Table): (bs: seq<seq<seq<Cell>>>)
    ensures |bs| == |rows|
    ensures forall i :: 0 <= i < |rows| ==> bs[i] == JoinRow(left, rows[i], right)
  {
    seq(|rows|, i requires 0 <= i < |rows| => JoinRow(left, rows[i], right))
  }

  /** Where the output rows of `rows[i]` begin: the number of output rows of the left
      rows before it, at least one each. */
  function Start(left: Table, rows: seq<seq<Cell>>, right: Table, i: nat): (s: nat)
    requires i <= |rows|
    ensures i <= s
  {
    var bs := Blocks(left, rows, right)[..i];
    FlattenLength(bs);
    |Flatten(bs)|
  }

  function JoinRows(left: Table, rows: seq<seq<Cell>>, right: Table): (out: seq<seq<Cell>>)
  {
    Flatten(Blocks(left, rows, right))
  }

  /** The output rows `out[Start(i)..Start(i + 1)]` are the block of `rows[i]`. */
  predicate BlockAt(out: seq<seq<Cell>>, left: Table, rows: seq<seq<Cell>>, right: Table, i: nat)
    requires i < |rows|
  {
    && Start(left, rows, right, i) <= Start(left, rows, right, i + 1) <= |out|
    && out[Start(left, rows, right, i)..Start(left, rows, right, i + 1)] == JoinRow(left, rows[i], right)
  }

  /** The output is the left rows' blocks one after another, in the left order. */
  lemma JoinRowsLayout(left: Table, rows: seq<seq<Cell>>, right: Table)
    ensures |JoinRows(left, rows, right)| == Start(left, rows, right, |rows|)
    ensures forall i :: 0 <= i < |rows| ==> BlockAt(JoinRows(left, rows, right), left, rows, right, i)
  {
    var bs := Blocks(left, rows, right);
    assert bs[..|rows|] == bs;
    forall i | 0 <= i < |rows|
      ensures BlockAt(JoinRows(left, rows, right), left, rows, right, i)
    {
      FlattenLayout(bs, i);
    }
  }

  /** `left.merge(right, on="id", how="left")`: raises `KeyError` when either side has no
      `id` column. Otherwise the columns are the left ones followed by the right's
      non-key ones, and the rows are, for each left row in order, its block of output
      rows (see `JoinRow`) beginning at `Start`. */
  function Merge(left: Table, right: Table): (r: Result<Table, QaError>)
    ensures r.Ok? <==> "id" in left.columns && "id" in right.columns
    ensures r.Ok? ==> r.value.columns == left.columns + NonKey(right.columns)
    ensures r.Ok? ==> |r.value.rows| == Start(left, left.rows, right, |left.rows|) >= |left.rows|
    ensures r.Ok? ==> forall i :: 0 <= i < |left.rows| ==> BlockAt(r.value.rows, left, left.rows, right, i)
  {
    if "id" !in left.columns || "id" !in right.columns then Err(NoIdColumn)
    else
      JoinRowsLayout(left, left.rows, right);
      Ok(Table(left.columns + NonKey(right.columns), JoinRows(left, left.rows, right)))
  }

  // ---------------------------------------------------------------------------
  // Rename

  function RenameCol(c: string): string {
    if c == "kgco2e_unit" then "base_kgco2e" else c
  }

  /** `df.rename(columns={"kgco2e_unit": "base_kgco2e"})` when that column is present:
      only that label changes, and no cell moves. */
  function Rename(t: Table): (r: Table)
    ensures r.rows == t.rows && |r.columns| == |t.columns|
    ensures "kgco2e_unit" !in r.columns
    ensures "base_kgco2e" in r.columns <==> "base_kgco2e" in t.columns || "kgco2e_unit" in t.columns
    ensures forall c :: c != "kgco2e_unit" && c != "base_kgco2e" ==> (c in r.columns <==> c in t.columns)
    ensures forall i :: 0 <= i < |t.columns| ==> r.columns[i] == RenameCol(t.columns[i])
  {
    if "kgco2e_unit" in t.columns then
      var cols := seq(|t.columns|, i requires 0 <= i < |t.columns| => RenameCol(t.columns[i]));
      assert forall c :: c in t.columns && c != "kgco2e_unit" ==> c in cols by {
        forall c | c in t.columns && c != "kgco2e_unit" ensures c in cols {
          var i :| 0 <= i < |t.columns| && t.columns[i] == c;
          assert cols[i] == c;
        }
      }
      var k :| 0 <= k < |t.columns| && t.columns[k] == "kgco2e_unit";
      assert cols[k] == "base_kgco2e";
      Table(cols, t.rows)
    else t
  }

  /** The joined, renamed frame the rules run on. */
  function Prepare(p: Table, a: Table, d: Table, b: Table): (r: Result<Table, QaError>)
    ensures r.Ok? <==> "id" in p.columns && "id" in a.columns && "id" in d.columns && "id" in b.columns
    ensures r.Err? ==> r.error == NoIdColumn
    ensures r.Ok? ==> |r.value.rows| >= |p.rows|
  {
    match Merge(p, a)
    case Err(e) => Err(e)
    case Ok(m1) =>
      match Merge(m1, d)
      case Err(e) => Err(e)
      case Ok(m2) =>
        match Merge(m2, b)
        case Err(e) => Err(e)
        case Ok(m3) => Ok(Rename(m3))
  }

  // ---------------------------------------------------------------------------
  // Rules

  /** `s.head(n)`. */
  function Take<T>(s: seq<T>, n: nat): (r: seq<T>)
    ensures |r| <= n && |r| <= |s|
    ensures |s| > 0 && n > 0 ==> |r| > 0
  {
    if |s| <= n then s else s[..n]
  }

  /** The rows with a missing value in one of the three metric columns. */
  function RowsMissingMetric(df: Table, rows: seq<seq<Cell>>): seq<seq<Cell>> {
    if |rows| == 0 then []
    else
      var bad := exists c :: c in MetricColumns && Get(df, rows[0], c).Missing?;
      (if bad then [rows[0]] else []) + RowsMissingMetric(df, rows[1..])
  }

  /** Some key column of some row is missing. */
  predicate AnyMissing(df: Table) {
    exists i, c :: 0 <= i < |df.rows| && c in KeyColumns && Get(df, df.rows[i], c).Missing?
  }

  /** The missing-value rule. Selecting the five key columns raises `KeyError` when one
      is absent; otherwise any missing cell among them fails, with the number of rows
      missing a metric and at most three of them as examples. */
  function CheckMissingValues(df: Table): (r: Outcome<QaError>)
    ensures r.Pass? <==> (forall c :: c in KeyColumns ==> c in df.columns) && !AnyMissing(df)
    ensures r.Fail? && r.error.MissingValues? ==> |r.error.sample| <= 3 && |r.error.sample| <= r.error.count
  {
    var absent := MissingFrom(KeyColumns, df.columns);
    if |absent| > 0 then
      assert absent[0] in KeyColumns && absent[0] !in df.columns;
      Fail(MissingKey(absent))
    else if AnyMissing(df) then
      var bad := RowsMissingMetric(df, df.rows);
      Fail(MissingValues(|bad|, Take(bad, 3)))
    else
      assert forall c :: c in KeyColumns && c !in df.columns ==> c in absent;
      Pass
  }

  /** The `{"id", "name", col}` records of the rows whose `col` cell satisfies `bad`. */
  function Offenders(df: Table, rows: seq<seq<Cell>>, col: string, bad: real -> bool): (ex: seq<Example>)
    ensures (exists i :: 0 <= i < |rows| && Get(df, rows[i], col).Number? && bad(Get(df, rows[i], col).x)) ==> |ex| > 0
  {
    if |rows| == 0 then []
    else
      var v := Get(df, rows[0], col);
      var rest := Offenders(df, rows[1..], col, bad);
      assert forall i :: 1 <= i < |rows| ==> rows[i] == rows[1..][i - 1];
      (if v.Number? && bad(v.x) then [Example(Get(df, rows[0], "id"), Get(df, rows[0], "name"), v)] else []) + rest
  }

  /** Every cell of the column compares: no string, and every number satisfies `ok`. */
  predicate ColumnOk(col: seq<Cell>, ok: real -> bool) {
    forall i :: 0 <= i < |col| ==> !col[i].Str? && (col[i].Number? ==> ok(col[i].x))
  }

  /** The `max_values` rule, entries in configuration order; a column the frame lacks is skipped. */
  function CheckMax(df: Table, items: seq<(string, real)>): (r: Outcome<QaError>)
    ensures r.Pass? <==> forall k :: 0 <= k < |items| && items[k].0 in df.columns ==>
                           ColumnOk(Column(df, items[k].0), x => x <= items[k].1)
    ensures r.Fail? ==> r.error.NotComparable? || (r.error.AboveMax? && 0 < |r.error.examples| <= 5)
  {
    if |items| == 0 then Pass
    else
      var (col, mx) := items[0];
      var rest := CheckMax(df, items[1..]);
      assert forall k :: 1 <= k < |items| ==> items[k] == items[1..][k - 1];
      if col !in df.columns then rest
      else
        var cells := Column(df, col);
        if HasStr(cells) then Fail(NotComparable(col))
        else if AnyAbove(cells, mx) then
          Fail(AboveMax(col, mx, Take(Offenders(df, df.rows, col, x => x > mx), 5)))
        else rest
  }

  /** The `ranges` rule, inclusive bounds, entries in configuration order. */
  function CheckRanges(df: Table, items: seq<(string, real, real)>): (r: Outcome<QaError>)
    ensures r.Pass? <==> forall k :: 0 <= k < |items| && items[k].0 in df.columns ==>
                           ColumnOk(Column(df, items[k].0), x => items[k].1 <= x <= items[k].2)
    ensures r.Fail? ==> r.error.NotComparable? || (r.error.OutOfRange? && 0 < |r.error.examples| <= 5)
  {
    if |items| == 0 then Pass
    else
      var (col, mn, mx) := items[0];
      var rest := CheckRanges(df, items[1..]);
      assert forall k :: 1 <= k < |items| ==> items[k] == items[1..][k - 1];
      if col !in df.columns then rest
      else
        var cells := Column(df, col);
        if HasStr(cells) then Fail(NotComparable(col))
        else if AnyBelow(cells, mn) || AnyAbove(cells, mx) then
          Fail(OutOfRange(col, mn, mx, Take(Offenders(df, df.rows, col, x => x < mn || x > mx), 5)))
        else rest
  }

  /** Everything the rules demand of the prepared frame, stated independently of their order. */
  predicate RulesHold(df: Table, cfg: QaConfig) {
    && (forall c :: c in KeyColumns ==> c in df.columns)
    && !AnyMissing(df)
    && (forall k :: 0 <= k < |cfg.maxValues| && cfg.maxValues[k].0 in df.columns ==>
          ColumnOk(Column(df, cfg.maxValues[k].0), x => x <= cfg.maxValues[k].1))
    && (forall k :: 0 <= k < |cfg.ranges| && cfg.ranges[k].0 in df.columns ==>
          ColumnOk(Column(df, cfg.ranges[k].0), x => cfg.ranges[k].1 <= x <= cfg.ranges[k].2))
  }

  /** A diagnostic carries at most three (missing values) or five (max, range) examples. */
  predicate Bounded(e: QaError) {
    match e
    case MissingValues(count, ex) => |ex| <= 3 && |ex| <= count
    case AboveMax(_, _, ex) => 0 < |ex| <= 5
    case OutOfRange(_, _, _, ex) => 0 < |ex| <= 5
    case _ => true
  }

  /** The rules in order: required columns (only when configured), missing values,
      maxima, ranges. The first failure stops; `Pass` exactly when every rule holds. */
  function Rules(df: Table, cfg: QaConfig): (r: Outcome<QaError>)
    ensures r.Pass? <==> RulesHold(df, cfg)
    ensures r.Fail? && r.error.MissingColumns? ==> cfg.noMissingColumns
    ensures r.Fail? ==> Bounded(r.error)
    ensures cfg.noMissingColumns && MissingFrom(KeyColumns, df.columns) != [] ==>
              r == Fail(MissingColumns(MissingFrom(KeyColumns, df.columns)))
    ensures !cfg.noMissingColumns && CheckMissingValues(df).Fail? ==> r == CheckMissingValues(df)
    ensures r.Fail? && (r.error.NotComparable? || r.error.AboveMax? || r.error.OutOfRange?) ==>
              CheckMissingValues(df).Pass?
    ensures CheckMissingValues(df).Pass? && CheckMax(df, cfg.maxValues).Fail? ==> r == CheckMax(df, cfg.maxValues)
    ensures r.Fail? && r.error.OutOfRange? ==> CheckMax(df, cfg.maxValues).Pass?
    ensures CheckMissingValues(df).Pass? && CheckMax(df, cfg.maxValues).Pass? ==> r == CheckRanges(df, cfg.ranges)
  {
    var absent := MissingFrom(KeyColumns, df.columns);
    if cfg.noMissingColumns && |absent| > 0 then
      assert absent[0] in KeyColumns && absent[0] !in df.columns;
      Fail(MissingColumns(absent))
    else
      var mv := CheckMissingValues(df);
      if mv.Fail? then mv
      else
        var mx := CheckMax(df, cfg.maxValues);
        if mx.Fail? then mx
        else CheckRanges(df, cfg.ranges)
  }

  /** The whole `main` of the QA script on given tables and configuration. */
  function Run(p: Table, a: Table, d: Table, b: Table, cfg: QaConfig): (r: Outcome<QaError>)
    ensures r.Pass? <==> Prepare(p, a, d, b).Ok? && RulesHold(Prepare(p, a, d, b).value, cfg)
    ensures r.Fail? ==> Bounded(r.error)
    ensures r.Fail? && r.error.MissingColumns? ==> cfg.noMissingColumns
    ensures Prepare(p, a, d, b).Err? ==> r == Fail(Prepare(p, a, d, b).error)
    ensures Prepare(p, a, d, b).Err? ==> r.error == NoIdColumn
    ensures Prepare(p, a, d, b).Ok? ==> r == Rules(Prepare(p, a, d, b).value, cfg)
  {
    match Prepare(p, a, d, b)
    case Err(e) => Fail(e)
    case Ok(df) => Rules(df, cfg)
  }

  // ---------------------------------------------------------------------------
  // Lemmas about the join

  lemma MatchesAtMostOne(right: Table, rows: seq<seq<Cell>>, key: Cell)
    requires forall i, j :: 0 <= i < j < |rows| ==> Get(right, rows[i], "id") != Get(right, rows[j], "id")
    ensures |Matches(right, rows, key)| <= 1
  {
    if |rows| > 0 {
      var tail := rows[1..];
      assert forall i :: 0 <= i < |tail| ==> tail[i] == rows[i + 1];
      MatchesAtMostOne(right, tail, key);
      if Get(right, rows[0], "id") == key {
        assert forall i :: 0 <= i < |tail| ==> Get(right, tail[i], "id") != key;
      }
    }
  }

  lemma JoinRowSingle(left: Table, l: seq<Cell>, right: Table)
    requires Distinct(Column(right, "id"))
    ensures |JoinRow(left, l, right)| == 1
  {
    MatchesAtMostOne(right, right.rows, Get(left, l, "id"));
  }

  /** With unique right-hand ids every block is a single row, so block `i` starts at `i`. */
  lemma StartIsIndex(left: Table, rows: seq<seq<Cell>>, right: Table, i: nat)
    requires Distinct(Column(right, "id")) && i <= |rows|
    ensures Start(left, rows, right, i) == i
  {
    var bs := Blocks(left, rows, right)[..i];
    forall j | 0 <= j < |bs|
      ensures |bs[j]| == 1
    {
      JoinRowSingle(left, rows[j], right);
    }
    FlattenLength(bs);
  }

  lemma JoinRowsOnePerRow(left: Table, rows: seq<seq<Cell>>, right: Table)
    requires Distinct(Column(right, "id"))
    ensures |JoinRows(left, rows, right)| == |rows|
    ensures forall i :: 0 <= i < |rows| ==> JoinRow(left, rows[i], right) == [JoinRows(left, rows, right)[i]]
  {
    var out := JoinRows(left, rows, right);
    JoinRowsLayout(left, rows, right);
    StartIsIndex(left, rows, right, |rows|);
    forall i | 0 <= i < |rows|
      ensures JoinRow(left, rows[i], right) == [out[i]]
    {
      OneRowBlock(out, left, rows, right, i);
    }
  }

  lemma OneRowBlock(out: seq<seq<Cell>>, left: Table, rows: seq<seq<Cell>>, right: Table, i: nat)
    requires Distinct(Column(right, "id")) && i < |rows| && BlockAt(out, left, rows, right, i)
    ensures JoinRow(left, rows[i], right) == [out[i]]
  {
    StartIsIndex(left, rows, right, i);
    StartIsIndex(left, rows, right, i + 1);
    var blk := JoinRow(left, rows[i], right);
    var s0, s1 := Start(left, rows, right, i), Start(left, rows, right, i + 1);
    assert out[s0..s1] == blk;
    SingleSlice(out, i);
  }

  /** When the right table's ids are unique, the left join keeps exactly one output row
      per left row, in order, and that row starts with the left row's cells. */
  lemma MergeOneRowPerLeftRow(left: Table, right: Table)
    requires "id" in left.columns && "id" in right.columns
    requires Distinct(Column(right, "id"))
    ensures |Merge(left, right).value.rows| == |left.rows|
    ensures forall i :: 0 <= i < |left.rows| ==>
              JoinRow(left, left.rows[i], right) == [Merge(left, right).value.rows[i]]
    ensures forall i :: 0 <= i < |left.rows| ==>
              && |left.columns| <= |Merge(left, right).value.rows[i]|
              && Merge(left, right).value.rows[i][..|left.columns|] == Project(left, left.rows[i], left.columns)
  {
    JoinRowsOnePerRow(left, left.rows, right);
    forall i | 0 <= i < |left.rows|
      ensures && |left.columns| <= |Merge(left, right).value.rows[i]|
              && Merge(left, right).value.rows[i][..|left.columns|] == Project(left, left.rows[i], left.columns)
    {
      assert Merge(left, right).value.rows[i] in JoinRow(left, left.rows[i], right);
    }
  }

  /** The row at the start of a block is the block's first row. */
  lemma FirstOfBlock(out: seq<seq<Cell>>, left: Table, rows: seq<seq<Cell>>, right: Table, i: nat)
    requires i < |rows| && BlockAt(out, left, rows, right, i)
    ensures Start(left, rows, right, i) < |out|
    ensures out[Start(left, rows, right, i)] == JoinRow(left, rows[i], right)[0]
  {
    SliceHead(out, Start(left, rows, right, i), Start(left, rows, right, i + 1), JoinRow(left, rows[i], right));
  }

  /** The first output row of left row `i`, at `Start(i)`, begins with that row's cells. */
  lemma FirstJoinedRow(left: Table, right: Table, i: nat)
    requires "id" in left.columns && "id" in right.columns && i < |left.rows|
    ensures var m := Merge(left, right).value;
            var k := Start(left, left.rows, right, i);
            && k < |m.rows|
            && m.rows[k] == JoinRow(left, left.rows[i], right)[0]
            && |left.columns| <= |m.rows[k]|
            && m.rows[k][..|left.columns|] == Project(left, left.rows[i], left.columns)
  {
    var m := Merge(left, right).value;
    FirstOfBlock(m.rows, left, left.rows, right, i);
    var blk := JoinRow(left, left.rows[i], right);
    assert blk[0] in blk;
  }

  /** The first output row of left row `i` reads the same as the left row in every
      left-table column. */
  lemma GetThroughMerge(left: Table, right: Table, i: nat, c: string)
    requires "id" in left.columns && "id" in right.columns
    requires i < |left.rows| && c in left.columns
    ensures Start(left, left.rows, right, i) < |Merge(left, right).value.rows|
    ensures var m := Merge(left, right).value;
            Get(m, m.rows[Start(left, left.rows, right, i)], c) == Get(left, left.rows[i], c)
  {
    var m := Merge(left, right).value;
    var k := Start(left, left.rows, right, i);
    FirstJoinedRow(left, right, i);
    var row := m.rows[k];
    IndexOfAppend(left.columns, NonKey(right.columns), c);
    var j := IndexOf(left.columns, c);
    assert row[..|left.columns|][j] == row[j];
  }

  /** A left row no right row matches gets, in its output row, a missing cell in every
      column the right table contributes. */
  lemma UnmatchedIsMissing(left: Table, right: Table, i: nat, c: string)
    requires "id" in left.columns && "id" in right.columns
    requires i < |left.rows|
    requires forall j :: 0 <= j < |right.rows| ==> Get(right, right.rows[j], "id") != Get(left, left.rows[i], "id")
    requires c in right.columns && c != "id" && c !in left.columns
    ensures Start(left, left.rows, right, i) < |Merge(left, right).value.rows|
    ensures var m := Merge(left, right).value;
            Get(m, m.rows[Start(left, left.rows, right, i)], c).Missing?
  {
    UnmatchedRow(left, right, i);
    IndexOfAppend(left.columns, NonKey(right.columns), c);
  }

  /** The output row of an unmatched left row: its own cells, then missing cells. */
  lemma UnmatchedRow(left: Table, right: Table, i: nat)
    requires "id" in left.columns && "id" in right.columns
    requires i < |left.rows|
    requires forall j :: 0 <= j < |right.rows| ==> Get(right, right.rows[j], "id") != Get(left, left.rows[i], "id")
    ensures var m := Merge(left, right).value;
            var k := Start(left, left.rows, right, i);
            && k < |m.rows|
            && m.rows[k] == Project(left, left.rows[i], left.columns) + Missings(|NonKey(right.columns)|)
  {
    FirstJoinedRow(left, right, i);
    assert Matches(right, right.rows, Get(left, left.rows[i], "id")) == [];
  }

  lemma GetAfterRename(t: Table, row: seq<Cell>)
    requires "kgco2e_unit" in t.columns && "base_kgco2e" !in t.columns
    ensures Get(Rename(t), row, "base_kgco2e") == Get(t, row, "kgco2e_unit")
  {
    var r := Rename(t);
    var k := IndexOf(t.columns, "kgco2e_unit");
    assert r.columns[k] == "base_kgco2e";
    assert forall j :: 0 <= j < k ==> t.columns[j] != "kgco2e_unit" && r.columns[j] == t.columns[j] != "base_kgco2e";
    assert "base_kgco2e" !in r.columns[..k];
    IndexOfUnique(r.columns, "base_kgco2e", k);
  }

  /** For any other column, renaming leaves the cell a row reads unchanged. */
  lemma GetRenameOther(t: Table, row: seq<Cell>, c: string)
    requires c != "kgco2e_unit" && c != "base_kgco2e"
    ensures Get(Rename(t), row, c) == Get(t, row, c)
  {
    var r := Rename(t);
    if c in t.columns {
      var k := IndexOf(t.columns, c);
      assert r.columns[k] == c;
      assert forall j :: 0 <= j < k ==> t.columns[j] != c && r.columns[j] != c;
      assert c !in r.columns[..k];
      IndexOfUnique(r.columns, c, k);
    }
  }

  /** Output blocks are never empty, so a later left row's block starts strictly later. */
  lemma StartIncreasing(left: Table, rows: seq<seq<Cell>>, right: Table, i: nat, j: nat)
    requires i < j <= |rows|
    ensures Start(left, rows, right, i) < Start(left, rows, right, j)
  {
    var bs := Blocks(left, rows, right);
    assert forall k :: 0 <= k < |bs| ==> |bs[k]| >= 1;
    FlattenPrefixIncreasing(bs, i, j);
  }

  /** Every left row's block starts inside the joined table. */
  lemma StartInMerge(left: Table, right: Table, i: nat)
    requires "id" in left.columns && "id" in right.columns && i < |left.rows|
    ensures Start(left, left.rows, right, i) < |Merge(left, right).value.rows|
  {
    StartIncreasing(left, left.rows, right, i, |left.rows|);
  }

  /** The row of the prepared frame that begins the output of product row `i`: its
      block's first row after each of the three joins. */
  function PreparedIndex(p: Table, a: Table, d: Table, b: Table, i: nat): (k: nat)
    requires "id" in p.columns && "id" in a.columns && "id" in d.columns && "id" in b.columns
    requires i < |p.rows|
    ensures k < |Prepare(p, a, d, b).value.rows|
  {
    var m1 := Merge(p, a).value;
    StartInMerge(p, a, i);
    var k1 := Start(p, p.rows, a, i);
    var m2 := Merge(m1, d).value;
    StartInMerge(m1, d, k1);
    var k2 := Start(m1, m1.rows, d, k1);
    StartInMerge(m2, b, k2);
    Start(m2, m2.rows, b, k2)
  }

  /** Different product rows begin different rows of the prepared frame, in the same
      order: the frame keeps at least one row per product. */
  lemma PreparedRowsDistinct(p: Table, a: Table, d: Table, b: Table, i: nat, j: nat)
    requires "id" in p.columns && "id" in a.columns && "id" in d.columns && "id" in b.columns
    requires i < j < |p.rows|
    ensures PreparedIndex(p, a, d, b, i) < PreparedIndex(p, a, d, b, j)
  {
    var m1 := Merge(p, a).value;
    StartIncreasing(p, p.rows, a, i, j);
    StartInMerge(p, a, j);
    var k1i, k1j := Start(p, p.rows, a, i), Start(p, p.rows, a, j);
    var m2 := Merge(m1, d).value;
    StartIncreasing(m1, m1.rows, d, k1i, k1j);
    StartInMerge(m1, d, k1j);
    var k2i, k2j := Start(m1, m1.rows, d, k1i), Start(m1, m1.rows, d, k1j);
    StartIncreasing(Merge(m1, d).value, m2.rows, b, k2i, k2j);
  }

  /** The row that begins product row `i`'s output in the prepared frame reads the same
      as the product row in every product column the rename does not touch. */
  lemma PreparedRowKeepsProduct(p: Table, a: Table, d: Table, b: Table, i: nat, c: string)
    requires "id" in p.columns && "id" in a.columns && "id" in d.columns && "id" in b.columns
    requires i < |p.rows|
    requires c in p.columns && c != "kgco2e_unit" && c != "base_kgco2e"
    ensures var df := Prepare(p, a, d, b).value;
            Get(df, df.rows[PreparedIndex(p, a, d, b, i)], c) == Get(p, p.rows[i], c)
  {
    var m1 := Merge(p, a).value;
    var k1 := Start(p, p.rows, a, i);
    GetThroughMerge(p, a, i, c);
    var m2 := Merge(m1, d).value;
    var k2 := Start(m1, m1.rows, d, k1);
    GetThroughMerge(m1, d, k1, c);
    var m3 := Merge(m2, b).value;
    var k3 := Start(m2, m2.rows, b, k2);
    GetThroughMerge(m2, b, k2, c);
    GetRenameOther(m3, m3.rows[k3], c);
    assert Prepare(p, a, d, b).value == Rename(m3);
  }

  /** A product with no emission row fails the QA run, whatever the configuration,
      provided `kgco2e_unit` comes only from the emission table. */
  lemma UnmatchedProductFails(p: Table, a: Table, d: Table, b: Table, cfg: QaConfig, i: nat)
    requires "id" in p.columns && "id" in a.columns && "id" in d.columns && "id" in b.columns
    requires "kgco2e_unit" in a.columns && "kgco2e_unit" !in p.columns
    requires "base_kgco2e" !in p.columns + NonKey(a.columns) + NonKey(d.columns) + NonKey(b.columns)
    requires i < |p.rows|
    requires forall j :: 0 <= j < |a.rows| ==> Get(a, a.rows[j], "id") != Get(p, p.rows[i], "id")
    ensures Run(p, a, d, b, cfg).Fail?
  {
    var m1 := Merge(p, a).value;
    var k1 := Start(p, p.rows, a, i);
    UnmatchedIsMissing(p, a, i, "kgco2e_unit");
    var m2 := Merge(m1, d).value;
    var k2 := Start(m1, m1.rows, d, k1);
    GetThroughMerge(m1, d, k1, "kgco2e_unit");
    var m3 := Merge(m2, b).value;
    var k3 := Start(m2, m2.rows, b, k2);
    GetThroughMerge(m2, b, k2, "kgco2e_unit");
    assert m3.columns == p.columns + NonKey(a.columns) + NonKey(d.columns) + NonKey(b.columns);
    GetAfterRename(m3, m3.rows[k3]);
    var df := Prepare(p, a, d, b).value;
    assert df == Rename(m3);
    assert Get(df, df.rows[k3], "base_kgco2e").Missing?;
    assert "base_kgco2e" in KeyColumns;
    assert AnyMissing(df);
  }

  /** A missing key cell in any row of the prepared frame makes the run fail. */
  lemma MissingKeyCellFails(p: Table, a: Table, d: Table, b: Table, cfg: QaConfig, k: nat, c: string)
    requires "id" in p.columns && "id" in a.columns && "id" in d.columns && "id" in b.columns
    requires k < |Prepare(p, a, d, b).value.rows| && c in KeyColumns
    requires var df := Prepare(p, a, d, b).value; Get(df, df.rows[k], c).Missing?
    ensures Run(p, a, d, b, cfg).Fail?
  {
    assert AnyMissing(Prepare(p, a, d, b).value);
  }

  /** A product with no distance row fails the QA run, whatever the configuration,
      provided `distance_km` comes only from the distance table. */
  lemma UnmatchedDistanceFails(p: Table, a: Table, d: Table, b: Table, cfg: QaConfig, i: nat)
    requires "id" in p.columns && "id" in a.columns && "id" in d.columns && "id" in b.columns
    requires "distance_km" in d.columns && "distance_km" !in p.columns + NonKey(a.columns)
    requires i < |p.rows|
    requires forall j :: 0 <= j < |d.rows| ==> Get(d, d.rows[j], "id") != Get(p, p.rows[i], "id")
    ensures Run(p, a, d, b, cfg).Fail?
  {
    var m1 := Merge(p, a).value;
    var k1 := Start(p, p.rows, a, i);
    GetThroughMerge(p, a, i, "id");
    UnmatchedIsMissing(m1, d, k1, "distance_km");
    var m2 := Merge(m1, d).value;
    var k2 := Start(m1, m1.rows, d, k1);
    GetThroughMerge(m2, b, k2, "distance_km");
    var m3 := Merge(m2, b).value;
    var k3 := Start(m2, m2.rows, b, k2);
    GetRenameOther(m3, m3.rows[k3], "distance_km");
    assert Prepare(p, a, d, b).value == Rename(m3);
    MissingKeyCellFails(p, a, d, b, cfg, k3, "distance_km");
  }

  /** A product with no biodiversity row fails the QA run, whatever the configuration,
      provided `biodiversity_risk` comes only from the biodiversity table. */
  lemma UnmatchedBiodivFails(p: Table, a: Table, d: Table, b: Table, cfg: QaConfig, i: nat)
    requires "id" in p.columns && "id" in a.columns && "id" in d.columns && "id" in b.columns
    requires "biodiversity_risk" in b.columns
    requires "biodiversity_risk" !in p.columns + NonKey(a.columns) + NonKey(d.columns)
    requires i < |p.rows|
    requires forall j :: 0 <= j < |b.rows| ==> Get(b, b.rows[j], "id") != Get(p, p.rows[i], "id")
    ensures Run(p, a, d, b, cfg).Fail?
  {
    var m1 := Merge(p, a).value;
    var k1 := Start(p, p.rows, a, i);
    GetThroughMerge(p, a, i, "id");
    var m2 := Merge(m1, d).value;
    var k2 := Start(m1, m1.rows, d, k1);
    GetThroughMerge(m1, d, k1, "id");
    UnmatchedIsMissing(m2, b, k2, "biodiversity_risk");
    var m3 := Merge(m2, b).value;
    var k3 := Start(m2, m2.rows, b, k2);
    GetRenameOther(m3, m3.rows[k3], "biodiversity_risk");
    assert Prepare(p, a, d, b).value == Rename(m3);
    MissingKeyCellFails(p, a, d, b, cfg, k3, "biodiversity_risk");
  }

  /** With unique ids in the three metric tables, the prepared frame has exactly one
      row per product, in product order, each beginning with its product's cells. */
  lemma PrepareOneRowPerProduct(p: Table, a: Table, d: Table, b: Table)
    requires "id" in p.columns && "id" in a.columns && "id" in d.columns && "id" in b.columns
    requires Distinct(Column(a, "id")) && Distinct(Column(d, "id")) && Distinct(Column(b, "id"))
    ensures |Prepare(p, a, d, b).value.rows| == |p.rows|
    ensures forall i :: 0 <= i < |p.rows| ==> PreparedIndex(p, a, d, b, i) == i
  {
    var m1 := Merge(p, a).value;
    MergeOneRowPerLeftRow(p, a);
    var m2 := Merge(m1, d).value;
    MergeOneRowPerLeftRow(m1, d);
    MergeOneRowPerLeftRow(m2, b);
    forall i | 0 <= i < |p.rows|
      ensures PreparedIndex(p, a, d, b, i) == i
    {
      StartIsIndex(p, p.rows, a, i);
      StartIsIndex(m1, m1.rows, d, i);
      StartIsIndex(m2, m2.rows, b, i);
    }
  }
}

=== FILE: qr_sheet.dfy ===
/** The printable QR sheets: the manifest records, keyed by slug, are cut into groups
    of nine and laid out three by three on A4 pages at 300 dots per inch. The images,
    fonts and the PDF file itself are left to the drawing library; what is modelled
    is which record lands in which cell and where that cell lies on the page. */
module QrSheet {
  import opened Wrappers
  import opened Keyed
  import opened Sequences
  import opened SiteBuild

  /** What the sheet script can raise. */
  datatype SheetError =
    | ValueError(reason: string)
    | SystemExit(message: string)

  // ---------------------------------------------------------------------------
  // Chunking

  /** The elements of a list of lists, one list after the other. */
  function Concat<T>(ss: seq<seq<T>>): seq<T> {
    if |ss| == 0 then [] else ss[0] + Concat(ss[1..])
  }

  function Min(a: int, b: int): int {
    if a <= b then a else b
  }

  /** The slices `lst[i:i+n]` for `i` in `range(0, len(lst), n)`, for a positive `n`:
      non-empty, at most `n` long, and all but the last exactly `n` long. */
  function Chunks<T>(lst: seq<T>, n: nat): (cs: seq<seq<T>>)
    requires n > 0
    ensures forall i :: 0 <= i < |cs| ==> 0 < |cs[i]| <= n
    ensures forall i :: 0 <= i < |cs| - 1 ==> |cs[i]| == n
    decreases |lst|
  {
    if |lst| == 0 then []
    else if |lst| <= n then [lst]
    else [lst[..n]] + Chunks(lst[n..], n)
  }

  /** The chunks, one after the other, give back the list. */
  lemma {:induction false} ChunksConcat<T>(lst: seq<T>, n: nat)
    requires n > 0
    ensures Concat(Chunks(lst, n)) == lst
    decreases |lst|
  {
    if 0 < |lst| <= n {
      assert Concat([lst]) == lst + Concat([lst][1..]);
    } else if |lst| > n {
      var rest := Chunks(lst[n..], n);
      var cs := [lst[..n]] + rest;
      assert cs[1..] == rest;
      ChunksConcat(lst[n..], n);
      assert lst == lst[..n] + lst[n..];
    }
  }

  /** There are as many chunks as it takes to cover the list: `len(lst) / n` rounded up. */
  lemma {:induction false} ChunkCount<T>(lst: seq<T>, n: nat)
    requires n > 0
    ensures var k := |Chunks(lst, n)|;
            (k - 1) * n < |lst| <= k * n || (|lst| == 0 && k == 0)
    decreases |lst|
  {
    if |lst| > n {
      ChunkTail(lst, n);
      ChunkCount(lst[n..], n);
      var k := |Chunks(lst[n..], n)|;
      assert (k + 1) * n == k * n + n;
    }
  }

  /** The generator `chunk(lst, n)`: `range` raises on a zero step and is empty for a
      negative one. */
  function Chunk<T>(lst: seq<T>, n: int): (r: Result<seq<seq<T>>, SheetError>)
    ensures r.Err? <==> n == 0
    ensures n < 0 ==> r == Ok([])
    ensures n > 0 ==> r.Ok? && Concat(r.value) == lst
  {
    if n == 0 then Err(ValueError("range() arg 3 must not be zero"))
    else if n < 0 then Ok([])
    else
      ChunksConcat(lst, n);
      Ok(Chunks(lst, n))
  }

  /** Chunk `i` is the slice starting at `i * n`, as the `range` loop reads it. */
  lemma ChunkAt<T>(lst: seq<T>, n: nat, i: nat)
    requires n > 0 && i < |Chunks(lst, n)|
    ensures i * n < |lst|
    ensures Chunks(lst, n)[i] == lst[i * n .. Min(i * n + n, |lst|)]
  {
    ChunkAtOffset(lst, n, i);
    TimesIsMul(i, n);
  }

  /** `i * n` by repeated addition, the way the `range` loop reaches its start. */
  function Times(i: nat, n: nat): nat {
    if i == 0 then 0 else Times(i - 1, n) + n
  }

  lemma {:induction false} TimesIsMul(i: nat, n: nat)
    ensures Times(i, n) == i * n
  {
    if i > 0 {
      TimesIsMul(i - 1, n);
      assert (i - 1) * n + n == i * n;
    }
  }

  lemma {:induction false} ChunkAtOffset<T>(lst: seq<T>, n: nat, i: nat)
    requires n > 0 && i < |Chunks(lst, n)|
    ensures Times(i, n) < |lst|
    ensures Chunks(lst, n)[i] == lst[Times(i, n) .. Min(Times(i, n) + n, |lst|)]
    decreases i
  {
    if i == 0 {
      ChunkHead(lst, n);
    } else {
      ChunkTail(lst, n);
      ChunkAtOffset(lst[n..], n, i - 1);
      var j := Times(i - 1, n);
      ShiftSlice(lst, n, j, Chunks(lst[n..], n)[i - 1]);
    }
  }

  /** A slice of `lst[n..]` is the slice of `lst` shifted by `n`. */
  lemma ShiftSlice<T>(lst: seq<T>, n: nat, j: nat, x: seq<T>)
    requires n <= |lst| && j < |lst| - n
    requires x == lst[n..][j .. Min(j + n, |lst[n..]|)]
    ensures x == lst[n + j .. Min(n + j + n, |lst|)]
  {
    assert lst[n..][j .. Min(j + n, |lst| - n)] == lst[n + j .. n + Min(j + n, |lst| - n)];
  }

  lemma ChunkHead<T>(lst: seq<T>, n: nat)
    requires n > 0 && |Chunks(lst, n)| > 0
    ensures Chunks(lst, n)[0] == lst[..Min(n, |lst|)]
  {
  }

  lemma ChunkTail<T>(lst: seq<T>, n: nat)
    requires n > 0 && |Chunks(lst, n)| > 1
    ensures |lst| > n
    ensures Chunks(lst, n) == [lst[..n]] + Chunks(lst[n..], n)
  {
  }

  // ---------------------------------------------------------------------------
  // The page grid

  const Dpi := 300
  /** `int(8.27 * DPI)` and `int(11.69 * DPI)`. */
  const A4W := 2481
  const A4H := 3507
  /** `int(0.5 * DPI)` and `int(0.25 * DPI)`. */
  const Margin := 150
  const Gutter := 75
  const Cols := 3
  const Rows := 3
  /** The label band under a code, `int(0.6 * DPI)`, and the offsets `int(0.2 * DPI)`,
      `int(0.05 * DPI)` and `int(0.15 * DPI)`. */
  const LabelBand := 180
  const TopOffset := 60
  const LabelIndent := 15
  const LabelGap := 45

  /** The cell size: the printable width or height, less the gutters, shared out. */
  const CellW: int := (A4W - 2 * Margin - (Cols - 1) * Gutter) / Cols
  const CellH: int := (A4H - 2 * Margin - (Rows - 1) * Gutter) / Rows

  /** The side of the resized code: the cell width, or the cell height less the label
      band if that is smaller. */
  const QrSide: int := Min(CellW, CellH - LabelBand)

  /** One code on a page: its record, the cell's corner, the code's square and the
      label's position. */
  datatype Placement = Placement(
    slug: string, item: SiteRecord,
    x: int, y: int, qrX: int, side: int, labelX: int, labelY: int)

  /** Cell `idx` of a page: row `idx // COLS`, column `idx % COLS`. */
  function Place(idx: nat, slug: string, item: SiteRecord): (p: Placement)
    requires idx < Cols * Rows
    ensures p.slug == slug && p.item == item
    ensures p.x == Margin + (idx % Cols) * (CellW + Gutter)
    ensures p.y == Margin + (idx / Cols) * (CellH + Gutter) + TopOffset
    ensures Margin <= p.x && p.x + CellW <= A4W - Margin
    ensures Margin <= p.y && p.y + p.side <= A4H - Margin
    ensures p.x <= p.qrX && p.qrX + p.side <= p.x + CellW
    ensures 0 < p.side && p.labelY < A4H
  {
    var r := idx / Cols;
    var c := idx % Cols;
    var x := Margin + c * (CellW + Gutter);
    var y := Margin + r * (CellH + Gutter) + TopOffset;
    Placement(slug, item, x, y, x + (CellW - QrSide) / 2, QrSide, x + LabelIndent, y + QrSide + LabelGap)
  }

  /** Row and column lie in the three-by-three grid, and two indices share a cell only
      when they are equal. */
  lemma GridCells(i: nat, j: nat)
    requires i < Cols * Rows && j < Cols * Rows
    ensures 0 <= i / Cols < Rows && 0 <= i % Cols < Cols
    ensures (i / Cols, i % Cols) == (j / Cols, j % Cols) ==> i == j
  {
    assert i == (i / Cols) * Cols + i % Cols;
    assert j == (j / Cols) * Cols + j % Cols;
  }

  /** The codes of two different cells of a page do not overlap. */
  lemma SquaresDisjoint(i: nat, j: nat, a: string, b: string, u: SiteRecord, v: SiteRecord)
    requires i < Cols * Rows && j < Cols * Rows && i != j
    ensures var p, q := Place(i, a, u), Place(j, b, v);
            p.qrX + p.side <= q.qrX || q.qrX + q.side <= p.qrX
            || p.y + p.side <= q.y || q.y + q.side <= p.y
  {
    GridCells(i, j);
    assert CellW == 677 && CellH == 1019 && QrSide == 677;
    var p, q := Place(i, a, u), Place(j, b, v);
    if i % Cols != j % Cols {
      assert p.qrX == 150 + (i % Cols) * 752 && q.qrX == 150 + (j % Cols) * 752;
    } else {
      assert p.y == 210 + (i / Cols) * 1094 && q.y == 210 + (j / Cols) * 1094;
    }
  }

  // ---------------------------------------------------------------------------
  // Pages

  datatype Page = Page(placements: seq<Placement>)

  function Slugs(items: seq<SiteRecord>): (s: seq<string>)
    ensures |s| == |items| && forall i :: 0 <= i < |items| ==> s[i] == items[i].slug
  {
    seq(|items|, i requires 0 <= i < |items| => items[i].slug)
  }

  /** `{path(it['slug']): it for it in items}`: one entry per slug, the last record with
      that slug winning. */
  function QrMap(items: seq<SiteRecord>): (m: map<string, SiteRecord>)
    ensures m.Keys == set s | s in Slugs(items)
    ensures forall i | LastOf(Slugs(items), i) :: m[items[i].slug] == items[i]
  {
    IndexBy(Slugs(items), items)
  }

  /** `list(qr_map.keys())`: the slugs in order of first occurrence, each once. */
  function QrPaths(items: seq<SiteRecord>): (paths: seq<string>)
    ensures forall s :: s in paths <==> s in Slugs(items)
    ensures forall i, j :: 0 <= i < j < |paths| ==> paths[i] != paths[j]
    ensures forall i, j :: 0 <= i < j < |paths| ==> IndexOf(Slugs(items), paths[i]) < IndexOf(Slugs(items), paths[j])
  {
    FirstOccurrences(Slugs(items))
  }

  function PageSlugs(p: Page): seq<string> {
    seq(|p.placements|, k requires 0 <= k < |p.placements| => p.placements[k].slug)
  }

  /** The inner loop: the group's codes in cells 0, 1, 2, … of one page. */
  function LayOut(group: seq<string>, qrMap: map<string, SiteRecord>): (p: Page)
    requires |group| <= Cols * Rows
    requires forall s :: s in group ==> s in qrMap
    ensures PageSlugs(p) == group
    ensures forall k :: 0 <= k < |group| ==> p.placements[k] == Place(k, group[k], qrMap[group[k]])
  {
    Page(seq(|group|, k requires 0 <= k < |group| => Place(k, group[k], qrMap[group[k]])))
  }

  /** `make_pages` after the manifest is read: one page per group of nine slugs. */
  function MakePages(items: seq<SiteRecord>): (pages: seq<Page>)
    ensures |pages| == (|QrPaths(items)| + 8) / 9
    ensures forall i :: 0 <= i < |pages| ==> 0 < |pages[i].placements| <= Cols * Rows
    ensures Concat(seq(|pages|, i requires 0 <= i < |pages| => PageSlugs(pages[i]))) == QrPaths(items)
    ensures forall i, k :: 0 <= i < |pages| && 0 <= k < |pages[i].placements| ==>
              var q := pages[i].placements[k];
              q.slug in QrMap(items) && q == Place(k, q.slug, QrMap(items)[q.slug])
  {
    var paths := QrPaths(items);
    var qrMap := QrMap(items);
    var groups := Chunks(paths, Cols * Rows);
    ChunksConcat(paths, Cols * Rows);
    ChunkCount(paths, Cols * Rows);
    GroupCount(|paths|, |groups|);
    assert forall s :: s in Concat(groups) ==> s in qrMap;
    GroupsInMap(groups, qrMap);
    LayOutAll(groups, qrMap)
  }

  /** One page per group, each laid out from the same map. */
  function LayOutAll(groups: seq<seq<string>>, qrMap: map<string, SiteRecord>): (pages: seq<Page>)
    requires forall i :: 0 <= i < |groups| ==> 0 < |groups[i]| <= Cols * Rows
    requires forall i :: 0 <= i < |groups| ==> forall s :: s in groups[i] ==> s in qrMap
    ensures |pages| == |groups|
    ensures forall i :: 0 <= i < |pages| ==> 0 < |pages[i].placements| <= Cols * Rows
    ensures seq(|pages|, i requires 0 <= i < |pages| => PageSlugs(pages[i])) == groups
    ensures forall i, k :: 0 <= i < |pages| && 0 <= k < |pages[i].placements| ==>
              var q := pages[i].placements[k];
              q.slug in qrMap && q == Place(k, q.slug, qrMap[q.slug])
  {
    var pages := seq(|groups|, i requires 0 <= i < |groups| => LayOut(groups[i], qrMap));
    assert forall i :: 0 <= i < |pages| ==> PageSlugs(pages[i]) == groups[i];
    pages
  }

  /** `g` groups of nine, all full but the last, hold `len` slugs exactly when `g` is
      `len` divided by nine, rounded up. */
  lemma GroupCount(len: nat, g: nat)
    requires (g - 1) * 9 < len <= g * 9 || (len == 0 && g == 0)
    ensures g == (len + 8) / 9
  {
  }

  /** Every slug of the groups is a key of the map. */
  lemma GroupsInMap(groups: seq<seq<string>>, qrMap: map<string, SiteRecord>)
    requires forall s :: s in Concat(groups) ==> s in qrMap
    ensures forall i :: 0 <= i < |groups| ==> forall s :: s in groups[i] ==> s in qrMap
  {
    forall i, s | 0 <= i < |groups| && s in groups[i] ensures s in qrMap {
      InConcat(groups, groups[i], s);
    }
  }

  lemma {:induction false} InConcat<T>(ss: seq<seq<T>>, s: seq<T>, x: T)
    requires s in ss && x in s
    ensures x in Concat(ss)
  {
    if ss[0] != s {
      InConcat(ss[1..], s, x);
    }
  }

  /** Every code is printed with the data of the last manifest record carrying its slug. */
  lemma PlacedItemIsLast(items: seq<SiteRecord>, i: nat, k: nat)
    requires i < |MakePages(items)| && k < |MakePages(items)[i].placements|
    ensures var q := MakePages(items)[i].placements[k];
            exists j :: LastOf(Slugs(items), j) && q.item == items[j] && items[j].slug == q.slug
  {
    var pages := MakePages(items);
    var q := pages[i].placements[k];
    var slugs := seq(|pages|, i requires 0 <= i < |pages| => PageSlugs(pages[i]));
    assert q.slug in slugs[i];
    InConcat(slugs, slugs[i], q.slug);
    LastOfExists(Slugs(items), q.slug);
    var j :| LastOf(Slugs(items), j) && Slugs(items)[j] == q.slug;
    assert q.item == items[j];
  }

  /** `save_pdf`: nothing to save raises; otherwise the first page carries the rest, so
      the document holds every page in order. */
  function SavePdf(pages: seq<Page>): (r: Result<seq<Page>, SheetError>)
    ensures r.Err? <==> |pages| == 0
    ensures r.Err? ==> r.error == SystemExit("No QR pages to save")
    ensures r.Ok? ==> r.value == pages
  {
    if |pages| == 0 then Err(SystemExit("No QR pages to save"))
    else Ok([pages[0]] + pages[1..])
  }

  /** The script: a manifest without records ends in the exit, any other yields one
      page per nine distinct slugs. */
  lemma SheetRun(items: seq<SiteRecord>)
    ensures SavePdf(MakePages(items)).Err? <==> |items| == 0
    ensures |items| > 0 ==> |SavePdf(MakePages(items)).value| == (|QrPaths(items)| + 8) / 9
  {
    if |items| > 0 {
      assert items[0].slug in Slugs(items);
      assert |QrPaths(items)| > 0;
    }
  }
}

=== FILE: scoring.dfy ===
/** The Python scorer of the static-site builder: clamping, min-max normalisation,
    the weighted impact, the score out of 100 rounded to one decimal and the
    first-matching grade band. `ScoreRow` is the parameterised form used by the
    unit tests; `SiteScore` fixes the builder's own weights, bounds and bands. */
module Scoring {
  import opened Wrappers

  /** The three raw metrics of a product row; `None` is a missing (NaN) value. */
  datatype Metrics = Metrics(kgco2e: Option<real>, distanceKm: Option<real>, biodiversityRisk: Option<real>)

  /** A normalisation interval `(vmin, vmax)`. */
  datatype Range = Range(lo: real, hi: real)

  /** One interval per metric, keyed like the `bounds` dictionary. */
  datatype Bounds = Bounds(kgco2e: Range, distanceKm: Range, biodiversityRisk: Range)

  datatype Weights = Weights(emissions: real, distance: real, biodiversity: real)

  /** A grade label with the minimum score that earns it. */
  datatype Band = Band(grade: string, cutoff: real)

  /** Raised by `next(...)` when no band accepts the score. */
  datatype GradeError = StopIteration

  const SiteWeights := Weights(0.6, 0.2, 0.2)
  const SiteBounds := Bounds(Range(0.0, 10.0), Range(0.0, 3000.0), Range(0.0, 1.0))
  const SiteBands := [Band("A", 80.0), Band("B", 60.0), Band("C", 40.0), Band("D", 20.0), Band("E", 0.0)]

  /** `max(0.0, min(1.0, x))`. */
  function Clamp01(x: real): (r: real)
    ensures 0.0 <= r <= 1.0
    ensures 0.0 <= x <= 1.0 ==> r == x
    ensures x < 0.0 ==> r == 0.0
    ensures x > 1.0 ==> r == 1.0
  {
    var m := if x < 1.0 then x else 1.0;
    if 0.0 < m then m else 0.0
  }

  /** `normalize(value, vmin, vmax)`. A NaN value gives `(nan - vmin) / (vmax - vmin)`,
      which is NaN, and `clamp01(nan)` is 1.0 because `min(1.0, nan)` keeps its first
      argument; so a missing metric normalises like one at or above `vmax`. */
  function Normalize(value: Option<real>, lo: real, hi: real): (r: real)
    ensures 0.0 <= r <= 1.0
    ensures hi <= lo ==> r == 0.0
    ensures lo < hi && value.Some? && value.value <= lo ==> r == 0.0
    ensures lo < hi && value.Some? && value.value >= hi ==> r == 1.0
    ensures lo < hi && value.None? ==> r == 1.0
  {
    if hi <= lo then 0.0
    else match value
      case None => 1.0
      case Some(v) => QuotientFacts(v - lo, hi - lo); Clamp01((v - lo) / (hi - lo))
  }

  lemma QuotientFacts(a: real, k: real)
    requires k > 0.0
    ensures a <= 0.0 ==> a / k <= 0.0
    ensures a >= k ==> a / k >= 1.0
    ensures a / k * k == a
  {
  }

  /** `round(x)` on the exact real `x`, ties to the even neighbour. */
  function RoundHalfEven(x: real): (n: int)
    ensures x - 0.5 <= n as real <= x + 0.5
  {
    var f := x.Floor;
    var frac := x - f as real;
    if frac > 0.5 then f + 1
    else if frac < 0.5 then f
    else if f % 2 == 0 then f else f + 1
  }

  /** `round(x, 1)`: the nearest multiple of 0.1. Binary floating point is not modelled. */
  function RoundTenths(x: real): (r: real)
    ensures x - 0.05 <= r <= x + 0.05
  {
    RoundHalfEven(10.0 * x) as real / 10.0
  }

  predicate NonNegative(w: Weights) {
    w.emissions >= 0.0 && w.distance >= 0.0 && w.biodiversity >= 0.0
  }

  function WeightSum(w: Weights): real {
    w.emissions + w.distance + w.biodiversity
  }

  function Weighted(w: Weights, e: real, d: real, g: real): real {
    w.emissions * e + w.distance * d + w.biodiversity * g
  }

  /** The weighted sum of the three metrics, each normalised against its own bounds. */
  function Impact(m: Metrics, w: Weights, b: Bounds): real {
    Weighted(w, Normalize(m.kgco2e, b.kgco2e.lo, b.kgco2e.hi),
             Normalize(m.distanceKm, b.distanceKm.lo, b.distanceKm.hi),
             Normalize(m.biodiversityRisk, b.biodiversityRisk.lo, b.biodiversityRisk.hi))
  }

  /** `score100 = round(100*(1 - impact), 1)`. */
  function Score(m: Metrics, w: Weights, b: Bounds): (s: real)
    ensures 100.0 * (1.0 - Impact(m, w, b)) - 0.05 <= s <= 100.0 * (1.0 - Impact(m, w, b)) + 0.05
    ensures (10.0 * s).Floor as real == 10.0 * s
    ensures NonNegative(w) && WeightSum(w) <= 1.0 ==> 0.0 <= s <= 100.0
  {
    ScoreInRange(m, w, b);
    RoundTenths(100.0 * (1.0 - Impact(m, w, b)))
  }

  /** The index of the first band whose cutoff the score reaches, as `next(...)` scans them. */
  function FirstBand(score: real, bands: seq<Band>): (r: Option<nat>)
    ensures r.Some? ==> r.value < |bands| && bands[r.value].cutoff <= score
    ensures r.Some? ==> forall j :: 0 <= j < r.value ==> bands[j].cutoff > score
    ensures r.None? <==> forall j :: 0 <= j < |bands| ==> bands[j].cutoff > score
  {
    if |bands| == 0 then None
    else if score >= bands[0].cutoff then Some(0)
    else match FirstBand(score, bands[1..])
      case None => None
      case Some(k) => Some(k + 1)
  }

  /** `score_row(row, weights, bounds, grade_bands)`: the score and the label of the
      first band it reaches, or `StopIteration` when it reaches none. */
  function ScoreRow(m: Metrics, w: Weights, b: Bounds, bands: seq<Band>): (r: Result<(real, string), GradeError>)
    ensures r.Ok? <==> exists i :: 0 <= i < |bands| && bands[i].cutoff <= Score(m, w, b)
    ensures r.Ok? ==> r.value.0 == Score(m, w, b)
    ensures r.Ok? ==> exists i :: 0 <= i < |bands| && bands[i].grade == r.value.1
                               && bands[i].cutoff <= r.value.0
                               && forall j :: 0 <= j < i ==> bands[j].cutoff > r.value.0
  {
    var s := Score(m, w, b);
    match FirstBand(s, bands)
    case None => Err(StopIteration)
    case Some(i) => Ok((s, bands[i].grade))
  }

  /** The letter ladder of the builder's fixed bands, spelled out. */
  function SiteLetter(s: real): string {
    if s >= 80.0 then "A" else if s >= 60.0 then "B" else if s >= 40.0 then "C"
    else if s >= 20.0 then "D" else "E"
  }

  /** `score_row(row)` of the site builder, with its fixed weights, bounds and bands.
      Grade lookup cannot fail there: the scores lie in [0, 100] and the last cutoff is 0. */
  function SiteScore(m: Metrics): (r: (real, string))
    ensures 0.0 <= r.0 <= 100.0
    ensures r.1 == SiteLetter(r.0)
    ensures ScoreRow(m, SiteWeights, SiteBounds, SiteBands) == Ok(r)
  {
    var s := Score(m, SiteWeights, SiteBounds);
    SiteBandIsLetter(s);
    match FirstBand(s, SiteBands)
    case Some(i) => (s, SiteBands[i].grade)
    case None => assert false; (0.0, "E")
  }

  /** On a non-negative score the fixed bands always match, and the matching band's
      label is the spelled-out letter. */
  lemma SiteBandIsLetter(s: real)
    requires s >= 0.0
    ensures FirstBand(s, SiteBands).Some?
    ensures SiteBands[FirstBand(s, SiteBands).value].grade == SiteLetter(s)
  {
    assert SiteBands[0] == Band("A", 80.0) && SiteBands[1] == Band("B", 60.0);
    assert SiteBands[2] == Band("C", 40.0) && SiteBands[3] == Band("D", 20.0);
    assert SiteBands[4] == Band("E", 0.0);
  }

  // ---------------------------------------------------------------------------
  // Lemmas

  lemma ImpactBounds(m: Metrics, w: Weights, b: Bounds)
    requires NonNegative(w)
    ensures 0.0 <= Impact(m, w, b) <= WeightSum(w)
  {
    WeightedBounds(w, Normalize(m.kgco2e, b.kgco2e.lo, b.kgco2e.hi),
                   Normalize(m.distanceKm, b.distanceKm.lo, b.distanceKm.hi),
                   Normalize(m.biodiversityRisk, b.biodiversityRisk.lo, b.biodiversityRisk.hi));
  }

  lemma WeightedBounds(w: Weights, e: real, d: real, g: real)
    requires NonNegative(w)
    requires 0.0 <= e <= 1.0 && 0.0 <= d <= 1.0 && 0.0 <= g <= 1.0
    ensures 0.0 <= Weighted(w, e, d, g) <= WeightSum(w)
  {
    var a, b, c := w.emissions, w.distance, w.biodiversity;
    MulBounds(a, e);
    MulBounds(b, d);
    MulBounds(c, g);
    SumBounds(a * e, b * d, c * g, a, b, c);
  }

  lemma SumBounds(a: real, b: real, c: real, x: real, y: real, z: real)
    requires 0.0 <= a <= x && 0.0 <= b <= y && 0.0 <= c <= z
    ensures 0.0 <= a + b + c <= x + y + z
  {
  }

  lemma WeightedMonotone(w: Weights, e: real, d: real, g: real, e': real, d': real, g': real)
    requires NonNegative(w)
    requires e <= e' && d <= d' && g <= g'
    ensures Weighted(w, e, d, g) <= Weighted(w, e', d', g')
  {
    MulMonotone(w.emissions, e, e');
    MulMonotone(w.distance, d, d');
    MulMonotone(w.biodiversity, g, g');
  }

  lemma ScoreInRange(m: Metrics, w: Weights, b: Bounds)
    ensures NonNegative(w) && WeightSum(w) <= 1.0 ==>
              0.0 <= RoundTenths(100.0 * (1.0 - Impact(m, w, b))) <= 100.0
  {
    if NonNegative(w) && WeightSum(w) <= 1.0 {
      var x := 100.0 * (1.0 - Impact(m, w, b));
      ImpactBounds(m, w, b);
      RoundTenthsMonotone(0.0, x);
      RoundTenthsMonotone(x, 100.0);
      assert RoundHalfEven(0.0) == 0;
      assert RoundHalfEven(1000.0) == 1000;
    }
  }

  lemma MulBounds(w: real, x: real)
    requires w >= 0.0 && 0.0 <= x <= 1.0
    ensures 0.0 <= w * x <= w
  {
  }

  lemma RoundHalfEvenMonotone(x: real, y: real)
    requires x <= y
    ensures RoundHalfEven(x) <= RoundHalfEven(y)
  {
    var fx, fy := x.Floor, y.Floor;
    if fx < fy {
      assert RoundHalfEven(x) <= fx + 1 <= fy <= RoundHalfEven(y);
    }
  }

  lemma RoundTenthsMonotone(x: real, y: real)
    requires x <= y
    ensures RoundTenths(x) <= RoundTenths(y)
  {
    RoundHalfEvenMonotone(10.0 * x, 10.0 * y);
  }

  /** For `vmin < vmax`, normalisation is non-decreasing in the value. */
  lemma {:induction false} NormalizeMonotone(a: real, c: real, lo: real, hi: real)
    requires lo < hi && a <= c
    ensures Normalize(Some(a), lo, hi) <= Normalize(Some(c), lo, hi)
  {
    var k := hi - lo;
    assert (a - lo) / k <= (c - lo) / k by {
      assert (a - lo) / k * k == a - lo;
      assert (c - lo) / k * k == c - lo;
    }
  }

  /** A raw metric value no better than another: larger, or missing (NaN normalises to 1). */
  predicate NoBetter(x: Option<real>, y: Option<real>) {
    match (x, y)
    case (Some(a), Some(c)) => a <= c
    case (_, None) => true
    case (None, Some(_)) => false
  }

  /** `Normalize` is non-decreasing along `NoBetter`, whatever the bounds. */
  lemma NormalizeNoBetter(x: Option<real>, y: Option<real>, lo: real, hi: real)
    requires NoBetter(x, y)
    ensures Normalize(x, lo, hi) <= Normalize(y, lo, hi)
  {
    if lo < hi && x.Some? && y.Some? {
      NormalizeMonotone(x.value, y.value, lo, hi);
    }
  }

  /** With non-negative weights, making any metrics worse never raises the score;
      in particular raising one raw metric while the other two stay fixed. */
  lemma ScoreAntitone(m1: Metrics, m2: Metrics, w: Weights, b: Bounds)
    requires NonNegative(w)
    requires NoBetter(m1.kgco2e, m2.kgco2e)
    requires NoBetter(m1.distanceKm, m2.distanceKm)
    requires NoBetter(m1.biodiversityRisk, m2.biodiversityRisk)
    ensures Score(m2, w, b) <= Score(m1, w, b)
  {
    NormalizeNoBetter(m1.kgco2e, m2.kgco2e, b.kgco2e.lo, b.kgco2e.hi);
    NormalizeNoBetter(m1.distanceKm, m2.distanceKm, b.distanceKm.lo, b.distanceKm.hi);
    NormalizeNoBetter(m1.biodiversityRisk, m2.biodiversityRisk, b.biodiversityRisk.lo, b.biodiversityRisk.hi);
    WeightedMonotone(w, Normalize(m1.kgco2e, b.kgco2e.lo, b.kgco2e.hi),
                     Normalize(m1.distanceKm, b.distanceKm.lo, b.distanceKm.hi),
                     Normalize(m1.biodiversityRisk, b.biodiversityRisk.lo, b.biodiversityRisk.hi),
                     Normalize(m2.kgco2e, b.kgco2e.lo, b.kgco2e.hi),
                     Normalize(m2.distanceKm, b.distanceKm.lo, b.distanceKm.hi),
                     Normalize(m2.biodiversityRisk, b.biodiversityRisk.lo, b.biodiversityRisk.hi));
    RoundTenthsMonotone(100.0 * (1.0 - Impact(m2, w, b)), 100.0 * (1.0 - Impact(m1, w, b)));
  }

  lemma MulMonotone(w: real, x: real, y: real)
    requires w >= 0.0 && x <= y
    ensures w * x <= w * y
  {
  }

  /** The weight of metric `k`: 0 emissions, 1 distance, 2 biodiversity. */
  function WeightOf(w: Weights, k: nat): real {
    if k == 0 then w.emissions else if k == 1 then w.distance else w.biodiversity
  }

  /** Two rows and two bound sets that agree on every metric except `k`. */
  predicate AgreeExcept(m1: Metrics, m2: Metrics, b1: Bounds, b2: Bounds, k: nat) {
    && (k == 0 || (m1.kgco2e == m2.kgco2e && b1.kgco2e == b2.kgco2e))
    && (k == 1 || (m1.distanceKm == m2.distanceKm && b1.distanceKm == b2.distanceKm))
    && (k == 2 || (m1.biodiversityRisk == m2.biodiversityRisk && b1.biodiversityRisk == b2.biodiversityRisk))
  }

  function Abs(x: real): real {
    if x < 0.0 then -x else x
  }

  /** A change confined to one metric, its value or its bounds, moves the weighted
      impact by at most that metric's weight, since each normalised value lies in
      [0, 1]; so a metric of weight zero does not affect the score at all. */
  lemma OwnBoundsOnly(m1: Metrics, m2: Metrics, w: Weights, b1: Bounds, b2: Bounds, k: nat)
    requires k < 3 && AgreeExcept(m1, m2, b1, b2, k)
    ensures Abs(Impact(m1, w, b1) - Impact(m2, w, b2)) <= Abs(WeightOf(w, k))
    ensures WeightOf(w, k) == 0.0 ==> Score(m1, w, b1) == Score(m2, w, b2)
  {
    var e1, e2 := Normalize(m1.kgco2e, b1.kgco2e.lo, b1.kgco2e.hi), Normalize(m2.kgco2e, b2.kgco2e.lo, b2.kgco2e.hi);
    var d1, d2 := Normalize(m1.distanceKm, b1.distanceKm.lo, b1.distanceKm.hi), Normalize(m2.distanceKm, b2.distanceKm.lo, b2.distanceKm.hi);
    var g1, g2 := Normalize(m1.biodiversityRisk, b1.biodiversityRisk.lo, b1.biodiversityRisk.hi),
                  Normalize(m2.biodiversityRisk, b2.biodiversityRisk.lo, b2.biodiversityRisk.hi);
    assert Impact(m1, w, b1) == Weighted(w, e1, d1, g1);
    assert Impact(m2, w, b2) == Weighted(w, e2, d2, g2);
    WeightedChange(w, e1, d1, g1, e2, d2, g2, k);
    if WeightOf(w, k) == 0.0 {
      assert Impact(m1, w, b1) == Impact(m2, w, b2);
    }
  }

  /** Changing one normalised value in [0, 1] moves the weighted sum by at most its weight. */
  lemma WeightedChange(w: Weights, e1: real, d1: real, g1: real, e2: real, d2: real, g2: real, k: nat)
    requires k < 3
    requires 0.0 <= e1 <= 1.0 && 0.0 <= d1 <= 1.0 && 0.0 <= g1 <= 1.0
    requires 0.0 <= e2 <= 1.0 && 0.0 <= d2 <= 1.0 && 0.0 <= g2 <= 1.0
    requires (k == 0 || e1 == e2) && (k == 1 || d1 == d2) && (k == 2 || g1 == g2)
    ensures Abs(Weighted(w, e1, d1, g1) - Weighted(w, e2, d2, g2)) <= Abs(WeightOf(w, k))
  {
    WeightedDiff(w, e1, d1, g1, e2, d2, g2);
    if k == 0 {
      TimesZero(w.distance, d1 - d2);
      TimesZero(w.biodiversity, g1 - g2);
      ScaledBelowOne(w.emissions, e1 - e2);
      assert WeightOf(w, k) == w.emissions;
    } else if k == 1 {
      TimesZero(w.emissions, e1 - e2);
      TimesZero(w.biodiversity, g1 - g2);
      ScaledBelowOne(w.distance, d1 - d2);
      assert WeightOf(w, k) == w.distance;
    } else {
      TimesZero(w.emissions, e1 - e2);
      TimesZero(w.distance, d1 - d2);
      ScaledBelowOne(w.biodiversity, g1 - g2);
      assert WeightOf(w, k) == w.biodiversity;
    }
  }

  lemma TimesZero(c: real, z: real)
    requires z == 0.0
    ensures c * z == 0.0
  {
  }

  lemma WeightedDiff(w: Weights, e1: real, d1: real, g1: real, e2: real, d2: real, g2: real)
    ensures Weighted(w, e1, d1, g1) - Weighted(w, e2, d2, g2)
            == w.emissions * (e1 - e2) + w.distance * (d1 - d2) + w.biodiversity * (g1 - g2)
  {
  }

  /** `|c * d| <= |c|` when `|d| <= 1`. */
  lemma ScaledBelowOne(c: real, d: real)
    requires -1.0 <= d <= 1.0
    ensures Abs(c * d) <= Abs(c)
  {
    if c >= 0.0 {
      assert -c <= c * d <= c;
    } else {
      assert c <= c * d <= -c;
    }
  }

  /** All metrics at or below their lower bounds score 100.0, grade "A". */
  lemma SiteBest(m: Metrics)
    requires m.kgco2e.Some? && m.kgco2e.value <= 0.0
    requires m.distanceKm.Some? && m.distanceKm.value <= 0.0
    requires m.biodiversityRisk.Some? && m.biodiversityRisk.value <= 0.0
    ensures SiteScore(m) == (100.0, "A")
  {
    assert Normalize(m.kgco2e, 0.0, 10.0) == 0.0;
    assert Normalize(m.distanceKm, 0.0, 3000.0) == 0.0;
    assert Normalize(m.biodiversityRisk, 0.0, 1.0) == 0.0;
    assert Impact(m, SiteWeights, SiteBounds) == Weighted(SiteWeights, 0.0, 0.0, 0.0) == 0.0;
    assert RoundHalfEven(1000.0) == 1000;
    assert Score(m, SiteWeights, SiteBounds) == 100.0;
  }

  /** All metrics at or above their upper bounds score 0.0, grade "E". */
  lemma SiteWorst(m: Metrics)
    requires m.kgco2e.Some? && m.kgco2e.value >= 10.0
    requires m.distanceKm.Some? && m.distanceKm.value >= 3000.0
    requires m.biodiversityRisk.Some? && m.biodiversityRisk.value >= 1.0
    ensures SiteScore(m) == (0.0, "E")
  {
    assert Normalize(m.kgco2e, 0.0, 10.0) == 1.0;
    assert Normalize(m.distanceKm, 0.0, 3000.0) == 1.0;
    assert Normalize(m.biodiversityRisk, 0.0, 1.0) == 1.0;
    assert Impact(m, SiteWeights, SiteBounds) == Weighted(SiteWeights, 1.0, 1.0, 1.0) == 1.0;
    assert RoundHalfEven(0.0) == 0;
    assert Score(m, SiteWeights, SiteBounds) == 0.0;
  }
}

=== FILE: scoring_tests.dfy ===
/** The unit-test expectations of the scorer, proved about the model. */
module ScoringTests {
  import opened Wrappers
  import opened Scoring

  /** The four `normalize` assertions of the bounds test. */
  lemma NormalizeExamples()
    ensures Normalize(Some(5.0), 0.0, 10.0) == 0.5
    ensures Normalize(Some(-5.0), 0.0, 10.0) == 0.0
    ensures Normalize(Some(15.0), 0.0, 10.0) == 1.0
    ensures Normalize(Some(1.0), 1.0, 1.0) == 0.0
  {
  }

  const CleanRow := Metrics(Some(1.0), Some(100.0), Some(0.1))
  const DirtyRow := Metrics(Some(5.0), Some(1000.0), Some(0.5))

  /** The monotonicity test: the cleaner row scores 91.3 ("A"), the other 53.3 ("C"). */
  lemma TestRowsScore()
    ensures ScoreRow(CleanRow, SiteWeights, SiteBounds, SiteBands) == Ok((91.3, "A"))
    ensures ScoreRow(DirtyRow, SiteWeights, SiteBounds, SiteBands) == Ok((53.3, "C"))
    ensures Score(CleanRow, SiteWeights, SiteBounds) > Score(DirtyRow, SiteWeights, SiteBounds)
  {
    assert Normalize(Some(1.0), 0.0, 10.0) == 0.1;
    assert Normalize(Some(100.0), 0.0, 3000.0) == 1.0 / 30.0;
    assert Normalize(Some(0.1), 0.0, 1.0) == 0.1;
    assert Impact(CleanRow, SiteWeights, SiteBounds) == 13.0 / 150.0;
    assert RoundHalfEven(10.0 * (100.0 * (1.0 - 13.0 / 150.0))) == 913;
    assert Score(CleanRow, SiteWeights, SiteBounds) == 91.3;
    SiteBandIsLetter(91.3);

    assert Normalize(Some(5.0), 0.0, 10.0) == 0.5;
    assert Normalize(Some(1000.0), 0.0, 3000.0) == 1.0 / 3.0;
    assert Normalize(Some(0.5), 0.0, 1.0) == 0.5;
    assert Impact(DirtyRow, SiteWeights, SiteBounds) == 7.0 / 15.0;
    assert RoundHalfEven(10.0 * (100.0 * (1.0 - 7.0 / 15.0))) == 533;
    assert Score(DirtyRow, SiteWeights, SiteBounds) == 53.3;
    SiteBandIsLetter(53.3);
  }

  /** Weights are not required to sum to 1: with weights summing to 3 the score of a
      worst-case row is -200.0, below every cutoff, and grade lookup raises. */
  lemma OverweightRaises()
    ensures ScoreRow(Metrics(Some(10.0), Some(3000.0), Some(1.0)), Weights(1.0, 1.0, 1.0), SiteBounds, SiteBands)
            == Err(StopIteration)
  {
    var m := Metrics(Some(10.0), Some(3000.0), Some(1.0));
    assert Impact(m, Weights(1.0, 1.0, 1.0), SiteBounds) == 3.0;
    assert RoundHalfEven(-2000.0) == -2000;
    assert Score(m, Weights(1.0, 1.0, 1.0), SiteBounds) == -200.0;
    assert SiteBands[0].cutoff > -200.0 && SiteBands[1].cutoff > -200.0 && SiteBands[2].cutoff > -200.0;
    assert SiteBands[3].cutoff > -200.0 && SiteBands[4].cutoff > -200.0;
  }
}

=== FILE: season.dfy ===
/** The season factor the scorer divides greenhouse-gas emissions by: the factor of
    the first table row for the product's category and month, clamped to [0.1, 1], or 1
    when there is no usable row. */
module Season {
  import opened Wrappers
  import opened Text
  import opened JsNumber

  /** A seasonality row as the CSV reader yields it, with `month` and `factor` already
      converted by `Number(...)`. A row too short to reach the category cell has `None`. */
  datatype SeasonRow = SeasonRow(category: Option<string>, month: Num, factor: Num)

  /** The filter predicate: same category up to case, and numerically equal month. */
  predicate RowMatches(r: SeasonRow, category: string, month: int) {
    && r.category.Some?
    && Lower(r.category.value) == Lower(category)
    && r.month == Finite(month as real)
  }

  /** `k` is the first row of `table` that matches. */
  predicate IsFirstMatch(table: seq<SeasonRow>, category: string, month: int, k: int) {
    && 0 <= k < |table|
    && RowMatches(table[k], category, month)
    && forall j :: 0 <= j < k ==> !RowMatches(table[j], category, month)
  }

  predicate HasUndefinedCategory(table: seq<SeasonRow>) {
    exists i :: 0 <= i < |table| && table[i].category.None?
  }

  /** `table.filter(...)`: lower-casing an undefined category raises, so any such row
      makes the whole filter fail; otherwise the matching rows, in table order. */
  function Filter(table: seq<SeasonRow>, category: string, month: int): (r: Result<seq<SeasonRow>, JsError>)
    ensures r.Err? <==> HasUndefinedCategory(table)
    ensures r.Ok? ==> forall x :: x in r.value ==> x in table && RowMatches(x, category, month)
    ensures r.Ok? ==> (|r.value| == 0 <==> forall i :: 0 <= i < |table| ==> !RowMatches(table[i], category, month))
    ensures r.Ok? && |r.value| > 0 ==> exists k :: IsFirstMatch(table, category, month, k) && r.value[0] == table[k]
  {
    if |table| == 0 then Ok([])
    else if table[0].category.None? then
      assert table[0].category.None?;
      Err(TypeError("Cannot read properties of undefined (reading 'toLowerCase')"))
    else
      var rest := Filter(table[1..], category, month);
      assert forall i :: 1 <= i < |table| ==> table[i] == table[1..][i - 1];
      if rest.Err? then rest
      else if RowMatches(table[0], category, month) then
        assert IsFirstMatch(table, category, month, 0);
        Ok([table[0]] + rest.value)
      else
        assert |rest.value| > 0 ==> exists k :: IsFirstMatch(table, category, month, k) && rest.value[0] == table[k] by {
          if |rest.value| > 0 {
            var k :| IsFirstMatch(table[1..], category, month, k) && rest.value[0] == table[1..][k];
            assert IsFirstMatch(table, category, month, k + 1);
          }
        }
        Ok(rest.value)
  }

  /** `seasonFactor(category, month, table)`. */
  function SeasonFactor(category: string, month: int, table: seq<SeasonRow>): (r: Result<real, JsError>)
    ensures r.Err? <==> HasUndefinedCategory(table)
    ensures r.Ok? ==> 0.1 <= r.value <= 1.0
    ensures r.Ok? && (forall i :: 0 <= i < |table| ==> !RowMatches(table[i], category, month)) ==> r.value == 1.0
    ensures r.Ok? ==> forall k | IsFirstMatch(table, category, month, k) ::
              var f := table[k].factor;
              && (!f.Finite? || f.v <= 0.0 ==> r.value == 1.0)
              && (f.Finite? && 0.1 <= f.v <= 1.0 ==> r.value == f.v)
              && (f.Finite? && 1.0 < f.v ==> r.value == 1.0)
              && (f.Finite? && 0.0 < f.v < 0.1 ==> r.value == 0.1)
  {
    var rows := Filter(table, category, month);
    if rows.Err? then Err(rows.error)
    else if |rows.value| == 0 then Ok(1.0)
    else
      var f := rows.value[0].factor;
      FirstMatchUnique(table, category, month);
      if !f.Finite? || f.v <= 0.0 then Ok(1.0)
      else
        ClampFacts(f, 0.1, 1.0);
        Ok(Min(Finite(1.0), Max(Finite(0.1), f)).v)
  }

  lemma FirstMatchUnique(table: seq<SeasonRow>, category: string, month: int)
    ensures forall k, k' :: IsFirstMatch(table, category, month, k) && IsFirstMatch(table, category, month, k') ==> k == k'
  {
  }

  /** Category matching ignores case: two spellings with the same lower case get the same factor. */
  lemma {:induction false} SeasonCaseInsensitive(c1: string, c2: string, month: int, table: seq<SeasonRow>)
    requires Lower(c1) == Lower(c2)
    ensures SeasonFactor(c1, month, table) == SeasonFactor(c2, month, table)
  {
    FilterCaseInsensitive(c1, c2, month, table);
  }

  lemma {:induction false} FilterCaseInsensitive(c1: string, c2: string, month: int, table: seq<SeasonRow>)
    requires Lower(c1) == Lower(c2)
    ensures Filter(table, c1, month) == Filter(table, c2, month)
  {
    if |table| > 0 {
      FilterCaseInsensitive(c1, c2, month, table[1..]);
    }
  }

  /** A small table: two January apple rows, differing in case and factor, and a pear
      row whose factor is below the floor. */
  const ExampleSeasons: seq<SeasonRow> :=
    [SeasonRow(Some("Apple"), Finite(1.0), Finite(0.3)),
     SeasonRow(Some("apple"), Finite(1.0), Finite(0.9)),
     SeasonRow(Some("pear"), Finite(2.0), Finite(0.05))]

  /** On the small table: January apples get 0.3 whatever the case of the category, the
      second January apple row is never consulted, an absent month gives 1 and a factor
      below 0.1 is raised to 0.1. */
  lemma SeasonExamples()
    ensures SeasonFactor("APPLE", 1, ExampleSeasons) == Ok(0.3)
    ensures SeasonFactor("apple", 6, ExampleSeasons) == Ok(1.0)
    ensures SeasonFactor("pear", 2, ExampleSeasons) == Ok(0.1)
  {
    FirstAppleRow();
    NoJuneApple();
    PearFloor();
  }

  lemma FirstAppleRow()
    ensures SeasonFactor("APPLE", 1, ExampleSeasons) == Ok(0.3)
  {
    var t := ExampleSeasons;
    assert Lower("APPLE") == Lower("Apple") == "apple";
    assert IsFirstMatch(t, "APPLE", 1, 0);
  }

  lemma NoJuneApple()
    ensures SeasonFactor("apple", 6, ExampleSeasons) == Ok(1.0)
  {
    var t := ExampleSeasons;
    assert forall i :: 0 <= i < |t| ==> !RowMatches(t[i], "apple", 6);
  }

  lemma PearFloor()
    ensures SeasonFactor("pear", 2, ExampleSeasons) == Ok(0.1)
  {
    var t := ExampleSeasons;
    assert Lower("pear") != Lower("Apple") && Lower("pear") != Lower("apple");
    assert IsFirstMatch(t, "pear", 2, 2);
  }
}

=== FILE: sequences.dfy ===
/** Order and position facts about sequences that several parts of the model share:
    subsequences, distinct elements and the first position of a value. */
module Sequences {

  /** Every element of `a` occurs in `b`, in the same order. */
  predicate IsSubsequence<T(==)>(a: seq<T>, b: seq<T>) {
    if |a| == 0 then true
    else if |b| == 0 then false
    else if a[0] == b[0] then IsSubsequence(a[1..], b[1..])
    else IsSubsequence(a, b[1..])
  }

  /** A subsequence stays one when the longer list grows at the end, whether or not the
      shorter one takes the new element along. */
  lemma {:induction false} SubsequenceSnoc<T>(a: seq<T>, b: seq<T>, x: T)
    requires IsSubsequence(a, b)
    ensures IsSubsequence(a, b + [x]) && IsSubsequence(a + [x], b + [x])
    decreases |b|
  {
    if |b| == 0 {
      assert a == [] && (a + [x])[1..] == [];
    } else if |a| == 0 {
      assert [] + [x] == [x] && (b + [x])[1..] == b[1..] + [x];
      if b[0] != x {
        SubsequenceSnoc([], b[1..], x);
      }
    } else {
      assert (b + [x])[0] == b[0] && (b + [x])[1..] == b[1..] + [x];
      assert (a + [x])[0] == a[0] && (a + [x])[1..] == a[1..] + [x];
      if a[0] == b[0] {
        SubsequenceSnoc(a[1..], b[1..], x);
      } else {
        SubsequenceSnoc(a, b[1..], x);
      }
    }
  }

  /** No value occurs twice. */
  predicate Distinct<T(==)>(s: seq<T>) {
    forall i, j :: 0 <= i < j < |s| ==> s[i] != s[j]
  }

  lemma DistinctSnoc<T>(init: seq<T>, last: T)
    ensures Distinct(init + [last]) <==> Distinct(init) && last !in init
  {
    var s := init + [last];
    if Distinct(s) {
      assert forall i, j :: 0 <= i < j < |init| ==> init[i] == s[i] && init[j] == s[j];
      assert forall k :: 0 <= k < |init| ==> init[k] == s[k] != s[|init|] == last;
    }
  }

  /** Position of the first occurrence of `x`. */
  function IndexOf<T(==)>(s: seq<T>, x: T): (i: nat)
    requires x in s
    ensures i < |s| && s[i] == x && x !in s[..i]
  {
    if s[0] == x then 0 else 1 + IndexOf(s[1..], x)
  }

  /** The first position of a value is the one no earlier position holds. */
  lemma IndexOfUnique<T>(s: seq<T>, x: T, i: nat)
    requires i < |s| && s[i] == x && x !in s[..i]
    ensures IndexOf(s, x) == i
  {
  }

  /** Positions in a concatenation. */
  lemma IndexOfAppend<T>(a: seq<T>, b: seq<T>, x: T)
    requires x in a + b
    ensures x in a ==> IndexOf(a + b, x) == IndexOf(a, x)
    ensures x !in a ==> x in b && IndexOf(a + b, x) == |a| + IndexOf(b, x)
  {
    if x in a {
      var k := IndexOf(a, x);
      assert (a + b)[..k] == a[..k];
      IndexOfUnique(a + b, x, k);
    } else {
      assert x in b;
      var k := IndexOf(b, x);
      assert (a + b)[..|a| + k] == a + b[..k];
      IndexOfUnique(a + b, x, |a| + k);
    }
  }

  /** The blocks of `bs` one after another. */
  function Flatten<T>(bs: seq<seq<T>>): seq<T> {
    if |bs| == 0 then [] else Flatten(bs[..|bs| - 1]) + bs[|bs| - 1]
  }

  lemma {:induction false} FlattenAppend<T>(a: seq<seq<T>>, b: seq<seq<T>>)
    ensures Flatten(a + b) == Flatten(a) + Flatten(b)
    decreases |b|
  {
    if |b| == 0 {
      assert a + b == a;
    } else {
      var init, last := b[..|b| - 1], b[|b| - 1];
      assert (a + b)[..|a + b| - 1] == a + init && (a + b)[|a + b| - 1] == last;
      FlattenAppend(a, init);
      assert Flatten(b) == Flatten(init) + last;
    }
  }

  /** Block `i` occupies the positions after the blocks before it. */
  lemma FlattenLayout<T>(bs: seq<seq<T>>, i: nat)
    requires i < |bs|
    ensures |Flatten(bs[..i + 1])| == |Flatten(bs[..i])| + |bs[i]| <= |Flatten(bs)|
    ensures Flatten(bs)[|Flatten(bs[..i])|..|Flatten(bs[..i + 1])|] == bs[i]
  {
    var pre, rest := bs[..i + 1], bs[i + 1..];
    assert bs == pre + rest;
    FlattenAppend(pre, rest);
    assert pre[..i] == bs[..i];
    var f := Flatten(bs[..i]);
    assert Flatten(pre) == f + bs[i];
    assert Flatten(bs)[|f|..|f| + |bs[i]|] == bs[i];
  }

  /** Non-empty blocks flatten to at least one element each, single ones to exactly one. */
  lemma {:induction false} FlattenLength<T>(bs: seq<seq<T>>)
    requires forall j :: 0 <= j < |bs| ==> |bs[j]| >= 1
    ensures |Flatten(bs)| >= |bs|
    ensures (forall j :: 0 <= j < |bs| ==> |bs[j]| == 1) ==> |Flatten(bs)| == |bs|
  {
    if |bs| > 0 {
      FlattenLength(bs[..|bs| - 1]);
    }
  }

  /** With non-empty blocks, a longer prefix flattens to strictly more elements. */
  lemma {:induction false} FlattenPrefixIncreasing<T>(bs: seq<seq<T>>, i: nat, j: nat)
    requires forall k :: 0 <= k < |bs| ==> |bs[k]| >= 1
    requires i < j <= |bs|
    ensures |Flatten(bs[..i])| < |Flatten(bs[..j])|
    decreases j
  {
    FlattenLayout(bs, j - 1);
    if i < j - 1 {
      FlattenPrefixIncreasing(bs, i, j - 1);
    }
  }

  /** A one-element slice. */
  lemma SingleSlice<T>(s: seq<T>, i: nat)
    requires i < |s|
    ensures s[i..i + 1] == [s[i]]
  {
  }

  /** The first element of a non-empty slice is the element where it starts. */
  lemma SliceHead<T>(s: seq<T>, lo: nat, hi: nat, blk: seq<T>)
    requires lo <= hi <= |s| && s[lo..hi] == blk && |blk| >= 1
    ensures lo < |s| && s[lo] == blk[0]
  {
    assert s[lo..hi][0] == s[lo];
  }

  /** Appending one element keeps the prefix and puts the element last. */
  lemma LastReplaced<T>(pre: seq<T>, x: T)
    ensures (pre + [x])[..|pre|] == pre && (pre + [x])[|pre|] == x
  {
  }
}

=== FILE: site_build.dfy ===
/** Record assembly of the site builder: one output record per product row, in
    input order. The slug comes from a slugify function the model does not define. */
module SiteBuild {
  import opened Scoring

  /** A row of the product table as the builder reads it. */
  datatype ProductRow = ProductRow(id: string, name: string, metrics: Metrics)

  /** One entry of the manifest and of the catalogue index. */
  datatype SiteRecord = SiteRecord(
    id: string, name: string, slug: string, url: string,
    score: real, grade: string, metrics: Metrics, year: int)

  const Year := 2025

  /** The record built for one row. */
  function RecordOf(r: ProductRow, slugify: string -> string, baseUrl: string): SiteRecord {
    var slug := slugify(r.id + "-" + r.name);
    var (score, grade) := SiteScore(r.metrics);
    SiteRecord(r.id, r.name, slug, baseUrl + "/p/" + slug + "/", score, grade, r.metrics, Year)
  }

  /** The record list of `main`: exactly one record per row, in row order, carrying the
      row's identity and metrics unchanged and its site score and grade. */
  function BuildRecords(rows: seq<ProductRow>, slugify: string -> string, baseUrl: string): (recs: seq<SiteRecord>)
    ensures |recs| == |rows|
    ensures forall i :: 0 <= i < |rows| ==>
              && recs[i].id == rows[i].id
              && recs[i].name == rows[i].name
              && recs[i].metrics == rows[i].metrics
              && recs[i].slug == slugify(rows[i].id + "-" + rows[i].name)
              && (recs[i].score, recs[i].grade) == SiteScore(rows[i].metrics)
    ensures forall i :: 0 <= i < |recs| ==>
              0.0 <= recs[i].score <= 100.0 && recs[i].grade == SiteLetter(recs[i].score)
  {
    if |rows| == 0 then []
    else [RecordOf(rows[0], slugify, baseUrl)] + BuildRecords(rows[1..], slugify, baseUrl)
  }
}

=== FILE: text.dfy ===
/** The string helpers the JavaScript side relies on: case mapping, substring search,
    joining and filtering. Case mapping covers ASCII letters only. */
module Text {

  function LowerChar(c: char): char {
    if 'A' <= c <= 'Z' then (c as int + 32) as char else c
  }

  function UpperChar(c: char): char {
    if 'a' <= c <= 'z' then (c as int - 32) as char else c
  }

  /** `s.toLowerCase()` restricted to ASCII. */
  function Lower(s: string): (r: string)
    ensures |r| == |s|
  {
    seq(|s|, i requires 0 <= i < |s| => LowerChar(s[i]))
  }

  /** `s.toUpperCase()` restricted to ASCII. */
  function Upper(s: string): (r: string)
    ensures |r| == |s|
  {
    seq(|s|, i requires 0 <= i < |s| => UpperChar(s[i]))
  }

  /** `sub` occurs in `s` starting at index `i`. */
  predicate OccursAt(s: string, sub: string, i: int) {
    0 <= i && i + |sub| <= |s| && s[i..i + |sub|] == sub
  }

  /** `s.includes(sub)`. */
  predicate Contains(s: string, sub: string) {
    exists i | 0 <= i <= |s| :: OccursAt(s, sub, i)
  }

  /** Concatenation of `parts` with `sep` between consecutive parts, built from the end. */
  function Join(parts: seq<string>, sep: string): string {
    if |parts| == 0 then ""
    else if |parts| == 1 then parts[0]
    else Join(parts[..|parts| - 1], sep) + sep + parts[|parts| - 1]
  }

  /** `s` with every occurrence of `c` removed. */
  function Remove(s: string, c: char): (r: string)
    ensures c !in r
    ensures forall d :: d != c ==> (d in r <==> d in s)
  {
    if |s| == 0 then ""
    else Remove(s[..|s| - 1], c) + (if s[|s| - 1] == c then "" else [s[|s| - 1]])
  }
}

=== FILE: upload.dfy ===
/** The partner upload page's light validation: the seven required columns must appear
    in the parsed rows, and if they do the first fifty rows are shown as a preview. */
module Upload {
  import opened Wrappers
  import opened JsNumber
  import opened Csv
  import opened Frame
  import opened Sequences

  const Required: seq<string> := ["gtin", "name", "category", "unit", "originCountry", "supplierId", "lcaRefId"]

  /** What the page ends up showing. */
  datatype Shown =
    | NoFile
    | MissingColumns(columns: seq<string>)
    | Preview(rows: seq<Record>)

  /** `k in rows[0] || rows.some(r => k in r)` on a non-empty row list. */
  predicate Present(rows: seq<Record>, k: string)
    requires |rows| > 0
  {
    k in rows[0] || exists i :: 0 <= i < |rows| && k in rows[i]
  }

  /** `keys.filter(k => !Present(rows, k))`. */
  function MissingKeys(keys: seq<string>, rows: seq<Record>): (m: seq<string>)
    requires |rows| > 0
    ensures forall k :: k in m <==> k in keys && !Present(rows, k)
    ensures |m| <= |keys|
    ensures IsSubsequence(m, keys)
  {
    if |keys| == 0 then []
    else if Present(rows, keys[0]) then MissingKeys(keys[1..], rows)
    else [keys[0]] + MissingKeys(keys[1..], rows)
  }

  /** `rows.slice(0, 50).length`. */
  function PreviewSize(n: nat): nat {
    if n <= 50 then n else 50
  }

  /** The check run on the parsed rows. With no data row, `rows[0]` is undefined and
      the `in` test raises; otherwise either the missing columns or the preview. */
  function CheckRows(rows: seq<Record>): (r: Result<Shown, JsError>)
    ensures r.Err? <==> |rows| == 0
    ensures r.Ok? ==> r.value.MissingColumns? || r.value.Preview?
    ensures r.Ok? && r.value.MissingColumns? ==>
              |r.value.columns| > 0 && IsSubsequence(r.value.columns, Required)
              && forall k :: k in r.value.columns <==> k in Required && forall i :: 0 <= i < |rows| ==> k !in rows[i]
    ensures r.Ok? && r.value.Preview? ==>
              && (forall k :: k in Required ==> exists i :: 0 <= i < |rows| && k in rows[i])
              && |r.value.rows| == PreviewSize(|rows|)
              && r.value.rows == rows[..|r.value.rows|]
  {
    if |rows| == 0 then Err(TypeError("Cannot use 'in' operator to search for 'gtin' in undefined"))
    else
      var missing := MissingKeys(Required, rows);
      if |missing| > 0 then Ok(MissingColumns(missing))
      else
        assert forall k :: k in Required ==> Present(rows, k);
        Ok(Preview(rows[..PreviewSize(|rows|)]))
  }

  /** The click handler: no file chosen, or the check on the parsed file. */
  function Process(file: Option<string>): (r: Result<Shown, JsError>)
    ensures file.None? ==> r == Ok(NoFile)
    ensures file.Some? ==> (r.Err? <==> |ParseCsv(file.value)| == 0)
    ensures file.Some? && r.Ok? ==> r.value.MissingColumns? || r.value.Preview?
  {
    match file
    case None => Ok(NoFile)
    case Some(text) => CheckRows(ParseCsv(text))
  }

  /** Parsed rows all carry the header names as keys, so a required column is missing
      exactly when no header cell names it. */
  lemma MissingMeansNoHeader(text: string, k: string)
    requires |ParseCsv(text)| > 0
    ensures var rows := ParseCsv(text);
            (forall i :: 0 <= i < |rows| ==> k !in rows[i]) <==> k !in SplitCsvLine(Lines(text)[0])
  {
    var rows := ParseCsv(text);
    assert k in rows[0] <==> k in SplitCsvLine(Lines(text)[0]);
  }
}

=== FILE: validate_data.dfy ===
/** The loader's validation of the four source tables: required columns, duplicate
    identifiers, then the hard-coded domains of the three metrics. Reading the CSV
    files is left out; the tables are given. */
module ValidateData {
  import opened Wrappers
  import opened Frame
  import opened Sequences

  const ProductsRequired := ["id", "name"]
  const AgribalyseRequired := ["id", "kgco2e_unit"]
  const DistancesRequired := ["id", "distance_km"]
  const BiodivRequired := ["id", "biodiversity_risk"]

  /** The `ValueError`s (and the `TypeError` of a comparison with a string) `load_all` raises. */
  datatype LoadError =
    | MissingColumns(table: string, missing: seq<string>)
    | DuplicateIds(table: string, ids: seq<Cell>)
    | NegativeEmissions
    | NegativeDistance
    | BiodiversityOutOfRange
    | NotComparable(table: string, column: string)

  /** `ensure_cols(df, cols, name)`: fails iff a required column is absent, listing
      exactly the absent ones in required order. */
  function EnsureCols(t: Table, cols: seq<string>, name: string): (r: Outcome<LoadError>)
    ensures r.Fail? <==> exists c :: c in cols && c !in t.columns
    ensures r.Fail? ==> r.error.MissingColumns? && r.error.table == name
    ensures r.Fail? ==> (forall c :: c in r.error.missing <==> c in cols && c !in t.columns)
    ensures r.Fail? ==> IsSubsequence(r.error.missing, cols)
  {
    var missing := MissingFrom(cols, t.columns);
    if |missing| > 0 then
      assert missing[0] in cols && missing[0] !in t.columns;
      Fail(MissingColumns(name, missing))
    else
      assert forall c :: c in cols && c !in t.columns ==> c in missing;
      Pass
  }

  /** The duplicate-id check on one table: it fails exactly when an id repeats, and the
      error names the table and lists the id at every occurrence after its first. */
  function CheckUnique(t: Table, name: string): (r: Outcome<LoadError>)
    ensures r.Fail? <==> !Distinct(Column(t, "id"))
    ensures r.Fail? ==> r.error == DuplicateIds(name, Duplicates(Column(t, "id")))
  {
    var dups := Duplicates(Column(t, "id"));
    if |dups| > 0 then Fail(DuplicateIds(name, dups)) else Pass
  }

  /** Every column of `cols` is present in `t`. */
  predicate HasColumns(t: Table, cols: seq<string>) {
    forall c :: c in cols ==> c in t.columns
  }

  /** All required columns of the four tables are present. */
  predicate HasRequired(p: Table, a: Table, d: Table, b: Table) {
    && HasColumns(p, ProductsRequired)
    && HasColumns(a, AgribalyseRequired)
    && HasColumns(d, DistancesRequired)
    && HasColumns(b, BiodivRequired)
  }

  predicate UniqueIds(p: Table, a: Table, d: Table, b: Table) {
    Distinct(Column(p, "id")) && Distinct(Column(a, "id")) && Distinct(Column(d, "id")) && Distinct(Column(b, "id"))
  }

  /** Every cell is missing or a number at least `lo`. */
  predicate AllAtLeast(col: seq<Cell>, lo: real) {
    forall i :: 0 <= i < |col| ==> col[i].Missing? || (col[i].Number? && col[i].x >= lo)
  }

  /** Every cell is missing or a number in `[lo, hi]`. */
  predicate AllWithin(col: seq<Cell>, lo: real, hi: real) {
    forall i :: 0 <= i < |col| ==> col[i].Missing? || (col[i].Number? && lo <= col[i].x <= hi)
  }

  /** The metric domains, with a missing value always accepted. */
  predicate InDomain(a: Table, d: Table, b: Table) {
    && AllAtLeast(Column(a, "kgco2e_unit"), 0.0)
    && AllAtLeast(Column(d, "distance_km"), 0.0)
    && AllWithin(Column(b, "biodiversity_risk"), 0.0, 1.0)
  }

  /** `load_all` on given tables. Columns are checked first (products, agribalyse,
      distances, biodiv), then duplicates (agribalyse, distances, biodiv, products),
      then ranges; the first failure is raised, and on success the tables come back
      unchanged. */
  function LoadAll(p: Table, a: Table, d: Table, b: Table): (r: Result<(Table, Table, Table, Table), LoadError>)
    ensures r.Ok? <==> HasRequired(p, a, d, b) && UniqueIds(p, a, d, b) && InDomain(a, d, b)
    ensures r.Ok? ==> r.value == (p, a, d, b)
    ensures r.Err? && r.error.MissingColumns? <==> !HasRequired(p, a, d, b)
    ensures r.Err? && r.error.DuplicateIds? <==> HasRequired(p, a, d, b) && !UniqueIds(p, a, d, b)
    // The first table missing a column is reported, with its absent columns.
    ensures !HasColumns(p, ProductsRequired) ==>
              r == Err(MissingColumns("products", MissingFrom(ProductsRequired, p.columns)))
    ensures HasColumns(p, ProductsRequired) && !HasColumns(a, AgribalyseRequired) ==>
              r == Err(MissingColumns("agribalyse", MissingFrom(AgribalyseRequired, a.columns)))
    ensures HasColumns(p, ProductsRequired) && HasColumns(a, AgribalyseRequired) && !HasColumns(d, DistancesRequired) ==>
              r == Err(MissingColumns("distances", MissingFrom(DistancesRequired, d.columns)))
    ensures HasColumns(p, ProductsRequired) && HasColumns(a, AgribalyseRequired) && HasColumns(d, DistancesRequired)
              && !HasColumns(b, BiodivRequired) ==>
              r == Err(MissingColumns("biodiv", MissingFrom(BiodivRequired, b.columns)))
    // Then the first table, in the order agribalyse, distances, biodiv, products, with a
    // repeated id is reported, with its repeated ids.
    ensures HasRequired(p, a, d, b) && !Distinct(Column(a, "id")) ==>
              r == Err(DuplicateIds("agribalyse", Duplicates(Column(a, "id"))))
    ensures HasRequired(p, a, d, b) && Distinct(Column(a, "id")) && !Distinct(Column(d, "id")) ==>
              r == Err(DuplicateIds("distances", Duplicates(Column(d, "id"))))
    ensures HasRequired(p, a, d, b) && Distinct(Column(a, "id")) && Distinct(Column(d, "id"))
              && !Distinct(Column(b, "id")) ==>
              r == Err(DuplicateIds("biodiv", Duplicates(Column(b, "id"))))
    ensures HasRequired(p, a, d, b) && Distinct(Column(a, "id")) && Distinct(Column(d, "id"))
              && Distinct(Column(b, "id")) && !Distinct(Column(p, "id")) ==>
              r == Err(DuplicateIds("products", Duplicates(Column(p, "id"))))
    // Only then the ranges.
    ensures HasRequired(p, a, d, b) && UniqueIds(p, a, d, b) ==> r == CheckRanges(p, a, d, b)
  {
    var cp := EnsureCols(p, ProductsRequired, "products");
    var ca := EnsureCols(a, AgribalyseRequired, "agribalyse");
    var cd := EnsureCols(d, DistancesRequired, "distances");
    var cb := EnsureCols(b, BiodivRequired, "biodiv");
    if cp.Fail? then Err(cp.error)
    else if ca.Fail? then Err(ca.error)
    else if cd.Fail? then Err(cd.error)
    else if cb.Fail? then Err(cb.error)
    else
      var ua := CheckUnique(a, "agribalyse");
      var ud := CheckUnique(d, "distances");
      var ub := CheckUnique(b, "biodiv");
      var up := CheckUnique(p, "products");
      if ua.Fail? then Err(ua.error)
      else if ud.Fail? then Err(ud.error)
      else if ub.Fail? then Err(ub.error)
      else if up.Fail? then Err(up.error)
      else CheckRanges(p, a, d, b)
  }

  /** The three range checks, in order; each comparison raises on a string cell. */
  function CheckRanges(p: Table, a: Table, d: Table, b: Table): (r: Result<(Table, Table, Table, Table), LoadError>)
    ensures r.Ok? <==> InDomain(a, d, b)
    ensures r.Ok? ==> r.value == (p, a, d, b)
    ensures r.Err? ==> !r.error.MissingColumns? && !r.error.DuplicateIds?
    // The emission check comes first, then distance, then risk; within each, a string
    // cell raises on the comparison before any value is judged.
    ensures HasStr(Column(a, "kgco2e_unit")) ==> r == Err(NotComparable("agribalyse", "kgco2e_unit"))
    ensures !HasStr(Column(a, "kgco2e_unit")) && AnyBelow(Column(a, "kgco2e_unit"), 0.0) ==>
              r == Err(NegativeEmissions)
    ensures AllAtLeast(Column(a, "kgco2e_unit"), 0.0) && HasStr(Column(d, "distance_km")) ==>
              r == Err(NotComparable("distances", "distance_km"))
    ensures AllAtLeast(Column(a, "kgco2e_unit"), 0.0) && !HasStr(Column(d, "distance_km"))
              && AnyBelow(Column(d, "distance_km"), 0.0) ==>
              r == Err(NegativeDistance)
    ensures AllAtLeast(Column(a, "kgco2e_unit"), 0.0) && AllAtLeast(Column(d, "distance_km"), 0.0)
              && HasStr(Column(b, "biodiversity_risk")) ==>
              r == Err(NotComparable("biodiv", "biodiversity_risk"))
    ensures AllAtLeast(Column(a, "kgco2e_unit"), 0.0) && AllAtLeast(Column(d, "distance_km"), 0.0)
              && !HasStr(Column(b, "biodiversity_risk"))
              && (AnyBelow(Column(b, "biodiversity_risk"), 0.0) || AnyAbove(Column(b, "biodiversity_risk"), 1.0)) ==>
              r == Err(BiodiversityOutOfRange)
  {
    var kg := Column(a, "kgco2e_unit");
    var km := Column(d, "distance_km");
    var risk := Column(b, "biodiversity_risk");
    DomainByComparisons(kg, km, risk);
    if HasStr(kg) then Err(NotComparable("agribalyse", "kgco2e_unit"))
    else if AnyBelow(kg, 0.0) then Err(NegativeEmissions)
    else if HasStr(km) then Err(NotComparable("distances", "distance_km"))
    else if AnyBelow(km, 0.0) then Err(NegativeDistance)
    else if HasStr(risk) then Err(NotComparable("biodiv", "biodiversity_risk"))
    else if AnyBelow(risk, 0.0) || AnyAbove(risk, 1.0) then Err(BiodiversityOutOfRange)
    else Ok((p, a, d, b))
  }

  lemma DomainByComparisons(kg: seq<Cell>, km: seq<Cell>, risk: seq<Cell>)
    ensures AllAtLeast(kg, 0.0) <==> !HasStr(kg) && !AnyBelow(kg, 0.0)
    ensures AllAtLeast(km, 0.0) <==> !HasStr(km) && !AnyBelow(km, 0.0)
    ensures AllWithin(risk, 0.0, 1.0) <==> !HasStr(risk) && !AnyBelow(risk, 0.0) && !AnyAbove(risk, 1.0)
  {
  }

  /** A biodiversity risk of 1.5 is rejected while both endpoints and a missing value
      are accepted, and a negative distance is rejected. */
  lemma RangeExamples()
    ensures !AllWithin([Number(1.5)], 0.0, 1.0)
    ensures AllWithin([Number(0.0), Number(1.0), Missing], 0.0, 1.0)
    ensures !AllAtLeast([Number(-1.0)], 0.0)
    ensures AllAtLeast([Number(0.0), Missing], 0.0)
  {
    assert [Number(1.5)][0] == Number(1.5);
    assert [Number(-1.0)][0] == Number(-1.0);
  }

  /** The one-row tables of the column test pass validation unchanged. */
  lemma ValidTablesPass()
    ensures LoadAll(
              Table(["id", "name"], [[Str("a"), Str("b")]]),
              Table(["id", "kgco2e_unit"], [[Str("a"), Number(1.0)]]),
              Table(["id", "distance_km"], [[Str("a"), Number(10.0)]]),
              Table(["id", "biodiversity_risk"], [[Str("a"), Number(0.1)]])).Ok?
  {
    var p := Table(["id", "name"], [[Str("a"), Str("b")]]);
    var a := Table(["id", "kgco2e_unit"], [[Str("a"), Number(1.0)]]);
    var d := Table(["id", "distance_km"], [[Str("a"), Number(10.0)]]);
    var b := Table(["id", "biodiversity_risk"], [[Str("a"), Number(0.1)]]);
    assert HasRequired(p, a, d, b);
    ExampleIdsUnique(p, a, d, b);
    ExampleInDomain(a, d, b);
  }

  lemma ExampleIdsUnique(p: Table, a: Table, d: Table, b: Table)
    requires p == Table(["id", "name"], [[Str("a"), Str("b")]])
    requires a == Table(["id", "kgco2e_unit"], [[Str("a"), Number(1.0)]])
    requires d == Table(["id", "distance_km"], [[Str("a"), Number(10.0)]])
    requires b == Table(["id", "biodiversity_risk"], [[Str("a"), Number(0.1)]])
    ensures UniqueIds(p, a, d, b)
  {
    assert Column(p, "id") == [Str("a")];
    assert Column(a, "id") == [Str("a")];
    assert Column(d, "id") == [Str("a")];
    assert Column(b, "id") == [Str("a")];
  }

  lemma ExampleInDomain(a: Table, d: Table, b: Table)
    requires a == Table(["id", "kgco2e_unit"], [[Str("a"), Number(1.0)]])
    requires d == Table(["id", "distance_km"], [[Str("a"), Number(10.0)]])
    requires b == Table(["id", "biodiversity_risk"], [[Str("a"), Number(0.1)]])
    ensures InDomain(a, d, b)
  {
    assert Column(a, "kgco2e_unit") == [Number(1.0)];
    assert Column(d, "distance_km") == [Number(10.0)];
    assert Column(b, "biodiversity_risk") == [Number(0.1)];
  }
}

=== FILE: wrappers.dfy ===
/** Failure-carrying datatypes shared by every module of the model. */
module Wrappers {

  /** A value that may be absent; `None` also stands for a missing (NaN) table cell. */
  datatype Option<+T> = None | Some(value: T)

  /** The outcome of an operation that can raise: `Err` carries what was raised. */
  datatype Result<+R, +E> = Ok(value: R) | Err(error: E)

  /** A check that either passes or fails with a diagnostic. */
  datatype Outcome<+E> = Pass | Fail(error: E)
}
